=== FILE: README.md ===
# penumbra — a verified model of the dungeon engine

penumbra turns a git history (or a calendar) into a turn-based roguelike
dungeon: one room per day, sized by how much changed that day, typed by what
changed, and populated with enemies and items derived from the commits.  This
project models the engine's core in Dafny and proves what it promises.

One Dafny module per Rust source file:

| Dafny file | module | source |
|---|---|---|
| tile.dfy | `Tiles` | src/world/tile.rs |
| room_types.dfy, world.dfy | `RoomTypes`, `Worlds` | src/world/types.rs |
| room.dfy | `Rooms` | src/world/room.rs |
| generator.dfy | `Generator` | src/world/generator.rs |
| entity_types.dfy, enemy.dfy, player.dfy | `EntityTypes`, `Enemies`, `Players` | src/entity/*.rs |
| item_types.dfy, item_definition.dfy, effects.dfy | `ItemTypes`, `Items`, `Effects` | src/item/*.rs |
| actions.dfy, combat.dfy, ai.dfy | `Actions`, `Combat`, `Ai` | src/combat/*.rs |
| fov.dfy | `Fov` | src/fov/shadowcast.rs |
| state.dfy | `State` | src/game/state.rs |
| progression.dfy | `Progress` | src/game/progression.rs |
| git_types.dfy, git_parser.dfy | `GitTypes`, `GitParser` | src/git/*.rs |
| calendar_types.dfy, calendar_parser.dfy | `CalendarTypes`, `CalendarParser` | src/calendar/*.rs |
| wrappers.dfy, text.dfy, rust_int.dfy, grouping.dfy | helpers | `Option`/`Result`, the `str` methods used, Rust's truncating integer operations, the `BTreeMap` grouping shared by both `group_by_date` |

Modelling choices:

- Entities whose fields the engine updates in place are classes: `Player`,
  `Room`, `World`, `GameState`, `Progression` and the calendar `EventBuilder`.
  Their methods carry `modifies` frames and state the whole new state.
  Values stored inside vectors (`Enemy`, `Item`, `CommitData`, `EventData`,
  `Upgrades`) are datatypes; updating a vector element in place is modelled as
  replacing that element of a sequence field.
- Loops of the source are loops here, each proved against a specification
  function: the free-cell scan, the spawning draws, the room-type counters,
  the layout and connection passes, the BFS of `find_path`, the shadow-casting
  rows of `cast_light`, the calendar line scanner, both `group_by_date` loops,
  `categorize_files`, and the enemy sweep of `process_enemies`.
- Randomness is an oracle.  `ChaCha8Rng` seeded with `seed + turn` becomes the
  `Dice` value of a `GameState`: the player's hit and critical rolls read it at
  that key, and the k-th enemy attack of a sweep reads `enemyHit(key, k)`.  So
  the same seed and turn always give the same outcome.  Spawning and
  `generate_item` take a draw sequence `draws: nat -> nat`, and `gen_range(0..n)`
  is `draws(k) % n`.
- Dates are integers: a timestamp in seconds, and a day number for
  `date_naive` (flooring division by 86400).  Parsing a calendar date is a
  parameter `parseDt: string -> Option<int>`; the "now minus N days" cutoff
  of `parse_ics_content` is a parameter too.
- `HealingZone`: the generator paints sanctuary interiors with
  `Tile::HealingZone`, but the `Tile` enum of src/world/tile.rs:16-22 has no
  such variant.  The model adds it and treats it as walkable, not blocking, with
  symbol `~`.  Every statement about the five listed tiles is proved as the
  source writes them.
- `CommitData` in src/git/types.rs:9-18 has no `file_categories` field, though
  src/git/parser.rs and src/world/generator.rs:67-93 read and write one.  The
  model includes the field.

## Model

| member | source | states |
|---|---|---|
| Tiles.WalkableTiles | src/world/tile.rs:26-28 | Floor, Door, Exit and Entrance are walkable; Wall is not |
| Tiles.BlockingTiles | src/world/tile.rs:31-33 | a tile blocks vision exactly when it is a Wall |
| Tiles.BlockingIsNotWalkable | src/world/tile.rs:26-33 | on every tile, blocking is the negation of walkable |
| Tiles.SymbolTable | src/world/tile.rs:36-44 | symbols are '.', '#', '+', '>', '<'; two tiles share a symbol only if they are equal or both doors |
| Tiles.OppositeInvolution | src/world/tile.rs:49-56 | `opposite` applied twice is the identity and has no fixed point |
| Tiles.DeltaIsUnitStep | src/world/tile.rs:59-66 | each delta is a unit cardinal step; the opposite direction's delta is its negation |
| EntityTypes.EnemyStatTable | src/entity/types.rs:25-42 | base hp 10/20/30/50 and base damage 3/5/4/8; every base stat is strictly positive |
| EntityTypes.EnemySymbolsDistinct | src/entity/types.rs:45-52 | symbols 'B', 'R', 'D', 'M'; equal symbols mean equal kinds |
| EntityTypes.ClassNamesDistinct | src/game/progression.rs:140-157 | distinct classes have distinct debug names, so the unlock set keys classes faithfully |
| Items.NewItemFields | src/item/definition.rs:21-36 | `Item::new` keeps name, type, effect and rarity, has no commit, and sits at (0, 0) |
| Items.AtOnlyMoves | src/item/definition.rs:39-43 | `at` sets x and y and leaves every other field as it was |
| Items.FromCommitOnlyTags | src/item/definition.rs:46-49 | `from_commit` sets the source commit and leaves every other field as it was |
| Items.BuildersCommute | src/item/definition.rs:39-49 | `at` and `from_commit` commute |
| GitTypes.DayOf | src/git/types.rs:63-65 | the day number d of a timestamp satisfies d·86400 ≤ ts < (d+1)·86400, before the epoch too |
| Enemies.Enemy.TakeDamage | src/entity/enemy.rs:37-40 | hp drops by exactly max(amount, 1), no other field changes, and the flag is hp > 0 |
| Enemies.NewEnemyStats | src/entity/enemy.rs:22-34 | a new enemy has hp = max hp = base hp, base damage, no turns alive, and the given cell and commit |
| Enemies.AtHalfHealthIff | src/entity/enemy.rs:48-50 | for a non-negative maximum, at half health iff 2·hp ≤ max hp |
| Players.GainXp | src/entity/player.rs:85-97 | a level is gained iff xp + amount reaches level·100; then the threshold is subtracted once, max hp +10 and hp refilled; otherwise only xp grows |
| Players.GainXpConservesTotal | src/entity/player.rs:85-97 | total experience earned (past thresholds plus current xp) grows by exactly the award |
| Players.GainXpStaysBelowThreshold | src/entity/player.rs:85-97 | an award of at most 100 to a player below threshold leaves them below the new threshold (one level per call suffices) |
| Players.XpScenario | src/entity/player.rs:85-97 | 50, 20 and 30 xp from level 1 level up exactly once, on the last award, to level 2 with 0 xp and full hp |
| Players.Player.constructor | src/entity/player.rs:30-54 | the class table of hp, focus and damage, 100/100 energy, level 1, no xp, empty pack, not defending, at (1, 1) |
| Players.Player.TakeDamage | src/entity/player.rs:57-62 | hp drops by max(amount, or amount/2 truncated when defending, 1); the stance is dropped; the flag is hp > 0; nothing else changes |
| Players.Player.Heal | src/entity/player.rs:65-67 | hp becomes min(hp + amount, max hp) |
| Players.Player.UseEnergy | src/entity/player.rs:70-77 | succeeds iff energy ≥ amount, and only then subtracts it |
| Players.Player.RegenEnergy | src/entity/player.rs:80-82 | energy becomes min(energy + amount, max energy) |
| Players.Player.AddXp | src/entity/player.rs:85-97 | the level, xp, max hp and hp become `GainXp` of the old ones; no other field changes |
| Players.Player.PickupItem | src/entity/player.rs:100-107 | accepted iff fewer than 10 items are carried; the pack never exceeds 10 |
| Effects.ApplyEffect | src/item/effects.rs:11-27 | Heal raises hp up to max, RestoreEnergy raises energy up to max, every other effect leaves the player alone; the message per effect, with the stat printed by its `Debug` name (`MaxHP`, `Damage`, `Focus`) |
| Effects.CalculateRarityMonotone | src/item/effects.rs:30-37 | rarity bands start at 0, 50, 200 and 500 lines, and more lines never give a lower rarity |
| Effects.GenerateItem | src/item/effects.rs:40-73 | the item carries the commit's hash and the rarity of its size, lies at (0, 0), and is never a damage or buff item |
| Effects.GenerateItemRollIrrelevant | src/item/effects.rs:44-70 | the random draw matters only when no keyword group matches |
| Effects.GenerateItemPrecedence | src/item/effects.rs:44-70 | doc/readme beats test/spec beats config/setting; heal 10/20/35/50 and energy 20/40/60/100 by rarity |
| Effects.HealGrowsWithRarity | src/item/effects.rs:47-61 | the heal and energy amounts never shrink as rarity rises |
| RoomTypes.RoomNamesDistinct | src/world/types.rs:21-29 | the names "Room", "Sanctuary", "Treasury", "Boss Chamber", pairwise distinct |
| Rooms.IndexAt | src/world/room.rs:78-85 | the index of the first element on a cell, as `iter().find` / `position` stop at the first match, or None exactly when no element stands there |
| Rooms.Picks | src/world/room.rs:142-166 | n random removals from the free cells take min(n, free cells) cells |
| Rooms.TakeCells | src/world/room.rs:142-166 | the spawning loop's draws pick exactly the cells `Picks` describes |
| Rooms.PicksSubset | src/world/room.rs:142-166 | every picked cell was a candidate |
| Rooms.PicksDistinct | src/world/room.rs:142-166 | from distinct candidates the picks are distinct |
| Rooms.EnemyTypeFromCommitCases | src/world/room.rs:110-135 | exactly merges give MergeConflicts; Regressions exactly from revert/rollback non-merges; Bugs exactly from small unlabelled non-merges |
| Rooms.RarityRulesDiffer | src/world/room.rs:169-179 | the room's strict-bound rarity is `calculate_rarity` one line lower, and differs from it exactly at 50, 200 and 500 lines |
| Rooms.ItemFromCommit | src/world/room.rs:182-224 | the item carries the commit's hash and the room's rarity rule, lies at (0, 0), and is a scroll iff it reveals the map |
| Rooms.ItemFromCommitCases | src/world/room.rs:182-224 | doc/readme → map, test → heal 10/20/35/50, config/settings → focus buff 2/4/6/10 for 5 turns, else energy 5/10/20/30 |
| Rooms.EnemyCount | src/world/room.rs:142-166 | at most one enemy per commit, at most 10, at most a quarter of the area |
| Rooms.ItemCount | src/world/room.rs:232-257 | between 1 and 3 items, at least 2 in a treasury |
| Rooms.Room.constructor | src/world/room.rs:30-44 | `height` rows of `width` floor tiles, no enemies or items, not cleared |
| Rooms.Room.GetTile | src/world/room.rs:59-65 | Some exactly on the grid (never at negative coordinates), and then the stored tile |
| Rooms.Room.SetTile | src/world/room.rs:68-75 | only the addressed on-grid cell changes; off the grid nothing changes |
| Rooms.Room.GetEnemyAt | src/world/room.rs:78-80 | the enemy found is the first one standing on the cell; None exactly when no enemy does |
| Rooms.Room.GetItemAt | src/world/room.rs:83-85 | the item found is the first one lying on the cell; None exactly when no item does |
| Rooms.Room.FreeCellsSpec | src/world/room.rs:93-106 | the free cells are exactly the interior walkable cells without enemy or item, in row-major order, each once |
| Rooms.Room.GetFreePositions | src/world/room.rs:93-106 | the nested scan returns exactly the free cells |
| Rooms.Room.SpawnEnemies | src/world/room.rs:142-166 | nothing in a sanctuary; otherwise the enemies of the drawn free cells are appended |
| Rooms.Room.SpawnedEnemiesPlacement | src/world/room.rs:142-166 | spawned enemies number min(count, free cells) ≤ 10, stand on distinct free cells, at full base hp |
| Rooms.Room.SpawnItems | src/world/room.rs:232-257 | nothing without a free cell; otherwise the items of the drawn free cells are appended, after the treasury's count draw |
| Rooms.Room.SpawnedItemsPlacement | src/world/room.rs:232-257 | at most 3 items, on distinct free cells |
| Rooms.Room.IsWalkableViaGetTile | src/world/room.rs:47-65 | walkable iff on the grid and the tile there is walkable |
| Worlds.World.constructor | src/world/types.rs:41-46 | the world starts in room 0 with the given rooms |
| Worlds.World.Current | src/world/types.rs:49-51 | Some iff the index is below the room count, and then that room |
| Worlds.World.NextRoom | src/world/types.rs:59-66 | advances by one iff not in the last room, else changes nothing; after advancing a current room exists |
| Worlds.LastRoomIff | src/world/types.rs:69-71 | last room iff index + 1 ≥ room count; not last implies a current room |
| Grouping.InsertLookup | src/git/parser.rs:102-111 | inserting appends the value to its key's group and leaves other keys alone |
| Grouping.InsertKeeps | src/git/parser.rs:102-111 | inserting keeps keys ascending and groups non-empty, and adds one to the total |
| Grouping.GroupAllSpec | src/git/parser.rs:102-111 | the grouping has ascending keys, each key's group is the input's values with that key in input order, and no value is lost |
| Grouping.GroupEntries | src/calendar/parser.rs:51-60 | every entry holds exactly the values with its key |
| Grouping.GroupBy | src/git/parser.rs:102-111 | the insertion loop yields that grouping |
| GitParser.GroupByDate | src/git/parser.rs:102-111 | commits grouped by UTC day: ascending days, order kept within a day, count preserved |
| GitParser.IsTestFileIff | src/git/parser.rs:138-140 | a test file is exactly a path containing "test" or "spec"; the "tests/" prefix adds nothing |
| GitParser.ClassifyIgnoresCase | src/git/parser.rs:114-136 | a path and its lower-cased form go to the same counter |
| GitParser.ClassifyTestIff | src/git/parser.rs:114-140 | a path counts as a test file exactly when its lower-cased form contains "test" or "spec" |
| GitParser.ClassifyTestsDirectory | src/git/parser.rs:123-140 | every path under `tests/`, in any case, is counted as a test file whatever its suffix |
| GitParser.CategorizeCountsEachPath | src/git/parser.rs:114-136 | each delta with a path is counted exactly once; path-less deltas are ignored |
| GitParser.CategorizeFiles | src/git/parser.rs:114-136 | the counting loop gives those counters |
| GitParser.TestBeatsConfig | src/git/parser.rs:123-149 | "test.json" is a config file name yet counts as a test file |
| CalendarTypes.IntensityExamples | src/calendar/types.rs:71-75 | an hour with five attendees has intensity 8; zero attendees add nothing and never underflow |
| CalendarTypes.RankIsFirstGroup | src/calendar/types.rs:80-106 | in the table of keyword groups (one-on-one, all-hands, focus, break), the category's group has a keyword in the lower-cased summary and description and no earlier group does; a meeting means no group matches |
| CalendarTypes.RankMonotone | src/calendar/types.rs:80-106 | a searched text holding every word another holds never gets a later category |
| CalendarTypes.FromEventTextIgnoresCase | src/calendar/types.rs:80-86 | upper-case letters in the summary or the description never change the category |
| CalendarTypes.KeywordDecides | src/calendar/types.rs:80-106 | a keyword of any group, in the summary or the description and in any case, makes the category that group or an earlier one |
| CalendarTypes.MoreDescriptionNeverDemotes | src/calendar/types.rs:80-106 | adding a description, or more text after one, never moves the category later in the precedence |
| CalendarParser.GroupByDate | src/calendar/parser.rs:51-60 | events grouped by UTC day: ascending days, order kept within a day, count preserved |
| CalendarParser.UnescapeEscape | src/calendar/parser.rs:142-148 | the corrected unescaper inverts TEXT escaping for every text |
| CalendarParser.UnescapeAsWrittenMisreadsBackslashN | src/calendar/parser.rs:142-148 | the escaped text of backslash-n decodes, as written, to backslash-newline, where the corrected unescaper gives back backslash-n |
| CalendarParser.LineKey | src/calendar/parser.rs:80-81 | a line without ':' has no key; a key never contains ';' |
| CalendarParser.ApplyLineNoColon | src/calendar/parser.rs:79-94 | a line without ':' changes nothing |
| CalendarParser.ApplyLineIgnoresParams | src/calendar/parser.rs:80-81 | parameters after ';' do not change what a line sets |
| CalendarParser.ApplyLineAttendee | src/calendar/parser.rs:90 | each ATTENDEE line adds one attendee and changes nothing else |
| CalendarParser.ApplyLineSummary | src/calendar/parser.rs:87 | a SUMMARY line sets the unescaped summary and nothing else |
| CalendarParser.ApplyLineLastWins | src/calendar/parser.rs:83-91 | of two SUMMARY lines the last one wins |
| CalendarParser.ApplyLineUnknown | src/calendar/parser.rs:91 | a property the builder does not know changes nothing |
| CalendarParser.Build | src/calendar/parser.rs:96-114 | an event is built iff a start was given |
| CalendarParser.BuildDefaults | src/calendar/parser.rs:96-114 | end defaults to start + 1 h, summary to "Untitled", uid to the start; duration in whole minutes and never negative |
| CalendarParser.EventBuilder.constructor | src/calendar/parser.rs:75-77 | a new builder has nothing set and no attendees |
| CalendarParser.EventBuilder.ParseLine | src/calendar/parser.rs:79-94 | the builder's fields become `ApplyLine` of the old fields |
| Text.Trim | src/calendar/parser.rs:22 | `str::trim` keeps an infix of the line that neither starts nor ends with Unicode white space, and everything it drops is white space |
| CalendarParser.StepProperties | src/calendar/parser.rs:21-38 | outside an event only BEGIN matters; BEGIN discards an unfinished event; a kept event never starts before the cutoff |
| CalendarParser.ScanAfterCutoff | src/calendar/parser.rs:21-38 | every collected event starts at or after the cutoff |
| CalendarParser.NoBeginNoEvents | src/calendar/parser.rs:21-38 | without a BEGIN:VEVENT line nothing is collected |
| CalendarParser.ScanLines | src/calendar/parser.rs:21-38 | the line loop collects exactly the events of the scanner specification |
| CalendarParser.InsertByStart | src/calendar/parser.rs:44-45 | insertion adds exactly the event (as a multiset) |
| CalendarParser.InsertByStartSorted | src/calendar/parser.rs:44-45 | insertion keeps a start-sorted sequence sorted |
| CalendarParser.SortByStart | src/calendar/parser.rs:44-45 | the sort is a permutation |
| CalendarParser.SortByStartSorted | src/calendar/parser.rs:44-45 | the sort yields non-decreasing start times |
| CalendarParser.ParseIcsContent | src/calendar/parser.rs:16-48 | NoEvents(days) iff nothing was collected; otherwise a non-empty, start-sorted permutation of the collected events, all after the cutoff |
| Generator.RoomSizeShape | src/world/generator.rs:51-58 | rooms are square, odd-sided, 3 to 9, and never shrink as the day's lines grow |
| Generator.IntensitySizeShape | src/world/generator.rs:220-227 | the intensity table is square, odd, 3 to 9 and monotone, with bands 0-4, 5-10, 11-20 and above |
| Generator.MessageCount | src/world/generator.rs:96-110 | a message count never exceeds the number of commits |
| Generator.MergeMakesBoss | src/world/generator.rs:62-65 | a merge anywhere in the day makes a boss room, and commits added before or after the day's keep it one |
| Generator.FileDataDecides | src/world/generator.rs:67-93 | with file data, Sanctuary iff tests are a strict majority, else Treasure iff configs are, else Normal; messages are not consulted |
| Generator.MessagesDecideWithoutFileData | src/world/generator.rs:95-122 | without file data the same strict majorities are taken over the commit messages |
| Generator.DetermineRoomType | src/world/generator.rs:61-123 | the counting loops compute that room type |
| Generator.CountCategory | src/world/generator.rs:230-269 | a category count never exceeds the number of events |
| Generator.DetermineRoomTypeFromEvents | src/world/generator.rs:230-269 | the counting loop computes the calendar room type |
| Generator.RoomTypeFromEventsCases | src/world/generator.rs:230-269 | an all-hands or a meeting of ten makes a boss room; no events a normal one; sanctuary and treasury need strict majorities |
| Generator.Layout | src/world/generator.rs:126-153 | the laid-out grid keeps the room's shape |
| Generator.GenerateLayout | src/world/generator.rs:126-153 | the nested loops write exactly that layout: walls round the border, healing zone inside a sanctuary, other interiors kept |
| Generator.Blueprint | src/world/generator.rs:126-153 | a fresh room once laid out has the room's shape |
| Generator.BlueprintCells | src/world/generator.rs:126-153 | border cells are walls; interior cells are healing zone in a sanctuary, floor otherwise, and walkable |
| Generator.ConnectCells | src/world/generator.rs:156-175 | entrance at (0, h/2) unless first, exit at (w-1, h/2) unless last, every other cell kept |
| Generator.ConnectEnds | src/world/generator.rs:156-175 | the first room has no entrance and the last no exit |
| Generator.PlaceConnections | src/world/generator.rs:156-175 | every room's tiles become its connected grid; nothing but tiles changes |
| Generator.ConnectRoom | src/world/generator.rs:156-175 | one room's doors, as `Connect` places them |
| Generator.GenerateRoom | src/world/generator.rs:31-47 | size from the day's lines, type from its commits, walled layout, empty and uncleared |
| Generator.GenerateRoomFromEvents | src/world/generator.rs:200-216 | size from the day's intensity, type from its events, walled layout, empty and uncleared |
| Generator.GitRooms | src/world/generator.rs:13-28 | one fresh, distinct room per day group, with id equal to its index |
| Generator.GenerateDungeon | src/world/generator.rs:13-28 | one room per commit day in strictly ascending day order, id = index, laid out and connected, holding that day's commits; the world starts in room 0 |
| Generator.CalendarRooms | src/world/generator.rs:182-197 | one fresh, distinct room per calendar day group, with id equal to its index |
| Generator.GenerateDungeonFromCalendar | src/world/generator.rs:182-197 | one room per event day in strictly ascending order, typed and sized by that day's events, laid out and connected |
| Actions.PlayerAction.EnergyCost | src/combat/actions.rs:29-37 | costs are never negative, and zero exactly for Wait |
| Actions.EnergyCostTable | src/combat/actions.rs:6-37 | Move 1, Attack 5, Defend 3, UseItem 2, Wait 0 |
| Actions.AttackIsDearest | src/combat/actions.rs:29-37 | no action costs more than an attack, and only an attack costs more than defending |
| Actions.ActionKinds | src/combat/actions.rs:40-47 | movement is exactly Move, attack exactly Attack, and no action is both |
| Fov.TransformOctant | src/fov/shadowcast.rs:61-73 | each octant transform is a signed permutation of (x, y) |
| Fov.TransformKeepsDistance | src/fov/shadowcast.rs:61-73 | every transform keeps x² + y² |
| Fov.FirstCells | src/fov/shadowcast.rs:61-73 | octants 0, 4, 1 and 5 look first north, south, west and east |
| Fov.CastLight | src/fov/shadowcast.rs:77-150 | only adds cells, only within the radius, nothing past the last row, and from the full octant the cell straight ahead |
| Fov.CalculateFov | src/fov/shadowcast.rs:8-30 | the origin is always visible, nothing beyond the radius is, radius 0 gives exactly the origin, each octant's first cell is visible, and with nothing blocking every cell straight ahead in each octant out to the radius is visible |
| Fov.OpenFieldAxesVisible | src/fov/shadowcast.rs:8-30 | with nothing blocking, every cell along the four axes out to the radius is visible |
| Fov.AxisNeighboursVisible | src/fov/shadowcast.rs:8-30 | from radius 1 on, the four axis neighbours of the origin are visible |
| Combat.Truncate | src/combat/system.rs:102-106 | `as i32` truncates toward zero |
| Combat.ScaleLevelOne | src/combat/system.rs:102-106 | level 1 does not scale |
| Combat.ScaleMonotone | src/combat/system.rs:102-106 | scaling never shrinks as the level rises |
| Combat.CalculateDamage | src/combat/system.rs:102-106 | damage is at least 1 and at least the scaled base, halved when defending |
| Combat.DefendingHalves | src/combat/system.rs:102-106 | defending never raises damage; base 10 at level 1 gives 10, or 5 when defending |
| Combat.LevelOneDamage | src/combat/system.rs:102-106 | level-1 damage is max(base, 1), or max(base/2, 1) when defending |
| Combat.PlayerAttack | src/combat/system.rs:18-56 | for a player's base damage and level: a miss changes nothing and reports "You missed!"; a hit deals the level-scaled damage, doubled on a critical, takes it from the enemy's hp, and kills iff hp falls to 0 or below |
| Combat.CriticalDoubles | src/combat/system.rs:18-56 | a critical hit deals exactly twice the normal hit |
| Combat.EnemyHit | src/combat/system.rs:74-89 | a hit reports the level-1 damage (halved when defending), takes max(that, halved again when defending, 1) hp, and kills iff hp falls to 0 or below |
| Combat.EnemyAttack | src/combat/system.rs:59-90 | a miss leaves the player untouched, stance included, and reports "The X missed!"; a hit is `EnemyHit`, drops the stance and keeps every other field of the player; killed iff hit and hp ≤ 0 |
| Combat.DefendingAppliedTwice | src/combat/system.rs:74-76 | a defended MergeConflict hit reports 4 but costs the player 2 hp |
| Ai.AdjacentDeltas | src/combat/ai.rs:126-128 | four unit steps |
| Ai.AdjacentPositions | src/combat/ai.rs:131-136 | the position plus each delta, in order |
| Ai.AdjacentPositionsExact | src/combat/ai.rs:131-136 | the neighbours are north, south, west, east, and exactly the cells at Manhattan distance 1 |
| Ai.SpecialsByKind | src/combat/ai.rs:58-83 | Bugs have no special; Regenerate iff a Regression under half hp; Grow iff a TechDebt alive a turn below double damage; Split iff a MergeConflict at half health |
| Ai.Expand | src/combat/ai.rs:86-123 | one BFS round either returns a valid path to the target or keeps the visited and queue invariants, growing the visited set |
| Ai.FindPath | src/combat/ai.rs:86-123 | from == to gives [from]; any path returned starts and ends right, steps orthogonally, has at most 50 cells, repeats none and is walkable between the ends |
| Ai.CrossesRow | src/combat/ai.rs:86-123 | an orthogonal path from above a row to below it stands on that row |
| Ai.PathCrossesWalkable | src/combat/ai.rs:86-123 | a path found across a row needs a walkable cell in it, so a solid wall row means no path |
| Ai.DecideAction | src/combat/ai.rs:26-55 | adjacent: the special or attack; farther: the special, else a unit step onto the second cell of a valid path to the player (walkable or the player's cell), else wait; a wait means neither adjacency nor a special |
| Progress.Upgrades.WithLevel | src/game/progression.rs:160-227 | sets one upgrade's level and keeps the other four |
| Progress.Cost | src/game/progression.rs:69-78 | every level costs at least 10 |
| Progress.CostGrows | src/game/progression.rs:69-78 | costs never fall with the level and rise strictly up to level 5 |
| Progress.UpgradeBounds | src/game/progression.rs:62-98 | within the caps the bonuses are bounded (hp ≤ 25, energy ≤ 10, damage ≤ 3, luck ≤ 15) and the full costs are 385, 85 and 35 |
| Progress.Progression.constructor | src/game/progression.rs:103-107 | all counters zero, no upgrades, only CodeWarrior unlocked |
| Progress.Progression.CompleteRun | src/game/progression.rs:110-137 | one more run; kills and rooms added; essence + kills + 5·rooms (+20 on a victory); fastest victory only on a victory and only lower; best rooms the maximum |
| Progress.Progression.UnlockClass | src/game/progression.rs:146-157 | succeeds iff essence covers the cost and the class is locked; then pays and unlocks, else changes nothing |
| Progress.Progression.Upgrade | src/game/progression.rs:160-227 | succeeds iff below the cap and essence covers the cost; then pays and adds one level, else changes nothing; levels stay within their caps |
| State.Logged | src/game/state.rs:387-395 | the message is appended, and the oldest entry dropped when the log already held 100 |
| State.LogStaysBounded | src/game/state.rs:387-395 | through `log` the message list never exceeds 100 entries, and under the bound nothing is dropped |
| State.KillXpIsBaseHp | src/game/state.rs:146-152 | the kill award is the kind's base hp (10/20/30/50) |
| State.OpaqueInCells | src/game/state.rs:365-384 | light passes exactly the on-grid cells that do not block, so every walkable cell |
| State.WalkableInRoom | src/world/room.rs:47-56 | the grid-only walkability test agrees with the room's |
| State.EnemyChoiceAttacks | src/game/state.rs:240-263 | the sweep attacks only from next to the player, and always does there for Bugs and TechDebt |
| State.EnemyStepCloser | src/game/state.rs:240-263 | a sweep step is a unit step that brings the enemy one cell closer and never onto the player |
| State.EnemyChoiceDiffersFromDecideAction | src/game/state.rs:240-263 | next to the player a growing TechDebt attacks in the sweep, while `decide_action` would have it grow |
| State.EnemyTurnKeeps | src/game/state.rs:266-316 | an enemy's turn keeps its kind, commit and maximum, never leaves walkable ground, and keeps hp within the maximum |
| State.NewDungeon | src/game/state.rs:48-72 | the game's dungeon has one valid room per commit day and starts in room 0 |
| State.GameState.constructor | src/game/state.rs:48-72 | a Wanderer at (1, height/2) of the first room, turn 0, not over, one greeting in the log |
| State.GameState.Log | src/game/state.rs:387-395 | the log becomes `Logged` of the old log |
| State.GameState.UpdateFov | src/game/state.rs:365-384 | without a room nothing changes; otherwise the view is `Sighted`: the player's cell and its four neighbours are visible and nothing beyond radius 5 is |
| State.GameState.CheckRoomExit | src/game/state.rs:323-362 | something happens only on the exit of a cleared room: the last room wins the game with the player, room and view kept; otherwise the next room is entered at (1, height/2) and the view there is `Sighted`; off the exit or in an uncleared room the player, room and view are kept |
| State.GameState.TargetIndex | src/game/state.rs:121-128 | a target found is an enemy index of the current room |
| State.GameState.MoveBy | src/game/state.rs:90-119 | the place and events are `MoveOutcome` of what held before: a refused move only logs an enemy in the way and keeps the view; a free one ends as `StepOutcome` plans, with the view `Sighted` where the player ends; of the player only the cell changes |
| State.GameState.Refuse | src/game/state.rs:102-104 | a refused move logs "An enemy blocks the way!" exactly when an enemy stands on the target; nothing else changes |
| State.GameState.StepTo | src/game/state.rs:105-115 | the player's cell, room, end flags, log and events become `StepOutcome` of the step planned before it, and the view is `Sighted` where the player ends |
| State.StepOutcomeFacts | src/game/state.rs:105-115 | a step reports the move first and the room entered second exactly when the player leaves through the exit of a cleared room; only then does the room or the end of the game change, and leaving the last room wins |
| State.MoveOutcomeFacts | src/game/state.rs:90-119 | a move produces events exactly when the step is possible; a refused one keeps the player's cell, the room and the end flags |
| State.GameState.Slay | src/game/state.rs:144-171 | the room's enemies and cleared flag, the player's progress, the events and the log become `Slain` of the old ones: the enemy removed, its xp awarded with a level-up logged, the room cleared and reported when emptied; of the player only hp, max hp, level and xp change |
| State.GameState.AttackEnemy | src/game/state.rs:129-171 | the room's enemies and cleared flag, the player's progress, the events and the log become `BlowOf` the state before the strike; of the player only hp, max hp, level and xp change |
| State.BlowFacts | src/game/state.rs:129-171 | a miss changes only the log; a hit that does not kill changes only the struck enemy; a kill removes exactly that enemy and awards its xp; the first event reports the blow; the room is reported cleared iff its last enemy fell |
| State.GameState.AttackToward | src/game/state.rs:126-172 | with an enemy on the target cell, the room's enemies and cleared flag, progress, events and log are the `BlowToward` computed before it, with the rolls of seed + turn; the room's grid, items and commits are kept; of the player only hp, max hp, level and xp change |
| State.GameState.UseItemAt | src/game/state.rs:186-190 | the item leaves the pack, its effect heals or restores energy up to the maximum, and its message is logged |
| State.GameState.Pay | src/game/state.rs:83-87 | an affordable action's cost is taken from the energy, which stays within its maximum; no other field of the player changes |
| State.GameState.MoveTurn | src/game/state.rs:83-119 | one more turn; place and events are `MoveOutcome` of the state before; the move costs its energy exactly when the step goes ahead; the view is `Sighted` after a step and kept after a refusal; of the player only the cell and energy change |
| State.GameState.AttackTurn | src/game/state.rs:83-177 | the Attack arm of `Turned`: one more turn; without a target only "Nothing to attack there." is logged and nothing else changes; with one the outcome is `Fought` of the blow computed before, the cost is paid, only hp, max hp, level and xp change besides, the current room keeps its grid, items and commits, and the room index, view and end flags are kept |
| State.GameState.DefendTurn | src/game/state.rs:179-183 | the Defend arm of `Turned`: one more turn; 3 energy spent, the stance taken, `PlayerDefending` reported and "You take a defensive stance." logged; nothing else about the player, the rooms, the view or the end flags changes |
| State.GameState.UseItemTurn | src/game/state.rs:185-194 | the UseItem arm of `Turned`, i.e. `Used`: one more turn; an empty slot changes nothing and reports nothing; otherwise 2 energy is spent, the item leaves the pack, a heal sets hp to min(hp + amount, max hp) and a restore sets energy to min(energy - 2 + amount, max energy), the effect's message is logged and `PlayerUsedItem` reported; nothing else changes |
| State.GameState.WaitTurn | src/game/state.rs:196-199 | the Wait arm of `Turned`: one more turn; energy rises by `WaitRegen` (2) up to its maximum and "You wait and recover energy." is logged, with no events; nothing else changes |
| State.GameState.ProcessAction | src/game/state.rs:75-204 | after game over nothing happens; an unaffordable action only logs "Not enough energy!"; every other action is `Turned`: one turn, the arm's exact outcome and cost, a move leaving the view `Sighted` where the player ends, an attack keeping the current room's grid, items and commits, and every player field, view and end flag the arm does not touch kept; only the current room can change |
| State.GameState.Strike | src/game/state.rs:276-292 | the result, hp and stance are `Struck`: a miss keeps both, a hit takes the `EnemyHit` damage and drops the stance; the message goes onto the log; every other player field is kept |
| State.GameState.ActEnemy | src/game/state.rs:229-316 | the enemy becomes its `EnemyTurn`; it strikes, as `Struck` with the next roll, exactly when its choice is an attack, and otherwise nothing else changes |
| State.GameState.ProcessEnemies | src/game/state.rs:207-320 | after game over or without a room nothing happens; otherwise events, hp, stance, log and defeat are `SweepRun` over the room's enemies and the enemies that acted are `Swept` |
| State.SweepTurnKeepsShape | src/game/state.rs:229-316 | one enemy's turn keeps the sweep's outcome well formed (hp never raised, one event and message per attack, GameOver(false) last and only on defeat) and uses at most one roll |
| State.SweepRunFacts | src/game/state.rs:207-320 | a sweep never raises hp and uses at most one roll per enemy; it writes one attack event and one message per roll, every event but a final GameOver(false) is an attack, and that GameOver comes exactly when the sweep ended in defeat, with hp ≤ 0 |
| State.SweepRunStops | src/game/state.rs:286-292 | once the player has fallen, later enemies change nothing |
| State.SweepRunAllMiss | src/game/state.rs:276-292 | when every roll misses the player keeps hp and stance and survives |
| State.GameState.Sweep | src/game/state.rs:213-320 | the sweep's events, hp, stance and log are `SweepRun` over all the enemies; a defeat ends the game, logs "You have been defeated!" and stops the later enemies |
| State.GameState.SweepTurns | src/game/state.rs:218-317 | the loop's state is `SweepRun` over the enemies that acted and those enemies are `Swept` |
| State.GameState.SweepStep | src/game/state.rs:218-317 | one enemy's turn takes the sweep's state to its `SweepTurn` |

## Left out

- Combat.CalculateDamage: the `f32` level scaling (`base * (1 + 0.1·(level-1))`, then `as i32`) is computed in exact rational arithmetic and truncated; `f32` rounding could differ at some bases and levels.
- `calculate_hit_chance` and every `f32` roll comparison are boolean oracles (`Dice`, the `hit`/`crit` parameters); the chance formula is not modelled.
- `is_visible` (src/fov/shadowcast.rs:33) is a square-root raycast in floating point and is not modelled.
- Fov.CastLight: slopes are exact reals, so ties could fall differently from `f32`; which cells beyond the first are lit is not stated, only the bounds above.
- Ai.FindPath: only soundness is proved (a returned path is valid); that the BFS finds a path whenever one exists, and a shortest one, is not.
- Integer widths: `turn` (u32), xp and level, essence and the counters (u32/u64) are unbounded here; overflow is not modelled.
- State.EnterMessage renders the room's date as its day number, not as `%Y-%m-%d`.
- Combat.EnemyAttack: the source applies the defensive halving twice, once in `calculate_damage` and again in `Player::take_damage`; the model keeps that behaviour (`DefendingAppliedTwice`).
- State.GameState.Strike: enemy attack messages are pushed onto the log directly, bypassing the 100-entry bound of `log`, as the source does; the bound is therefore proved only for `log`.
- Two enemy AIs: `process_enemies` carries its own decision code (src/game/state.rs:240-263) rather than calling `decide_action`; both are modelled and `EnemyChoiceDiffersFromDecideAction` shows where they disagree.
- State.GameState.Sweep: the `enemy_exists` re-check (src/game/state.rs:216-223) never fires because nothing removes enemies during the sweep; the model iterates over all indices.
- State.StepEnemy: an enemy's step checks only walkability (enemies may share a cell or stand on the player's), and a step does not count a turn alive, as in the source.
- The room-size table is 3/5/7/9 with bands at 20, 50 and 200 lines, as src/world/generator.rs:51-58 writes it; tests/world_test.rs:174-196 expect 5/7/9/11 with bands at 50, 200 and 500, and the code is followed.
- Waiting in a sanctuary regains only 2 energy (src/game/state.rs:196-199); tests/game_state_test.rs:272-291 expects a bonus that the code does not give, and the code is followed.
- Generator.GenerateDungeon: generation never calls `spawn_enemies` or `spawn_items`, so generated rooms are empty, as in the source; spawning is modelled on its own.
- Two rarity rules: `calculate_rarity` (inclusive bounds) and `rarity_from_lines` (strict bounds) are both modelled; `RarityRulesDiffer` pins their difference.
- `current_mut` is the same room as `current` in this model (rooms are objects), so it has no member of its own.
- `parse_datetime` and chrono date arithmetic are a parameter; `Utc::now()` and the cutoff are a parameter; `parse_ics_file`, save/load, settings, UI, CLI and the git2-backed repository reader are not part of this model.
- Lower-casing is ASCII only: `to_lowercase` also maps non-ASCII letters, which the model leaves as they are.
- CalendarParser.ApplyProperty: SUMMARY, DESCRIPTION and LOCATION values are decoded with the corrected unescaper (`UnescapeIcs`), not with src/calendar/parser.rs:87-89 as written; the two differ only on a `\\n` escape (see Findings).
- CalendarParser.ApplyLineSummary: the summary it states is the correctly unescaped one; as written, the source decodes `\\n` to a backslash and a newline (see Findings).
- CalendarParser.ApplyLineLastWins: stated for the corrected unescaper, like every parser member (see Findings).
- CalendarParser.EventBuilder.ParseLine: stated for the corrected unescaper, like every parser member (see Findings).
- CalendarParser.ScanLines: the events it collects carry correctly unescaped text, not the source's as-written decoding (see Findings).
- CalendarParser.ParseIcsContent: the events it returns carry correctly unescaped text, not the source's as-written decoding (see Findings).
- Fov.CalculateFov: that an open room is mostly visible (tests/fov_test.rs:51-66) is not stated; the origin, the radius bound, radius 0, each octant's first cell and, with nothing blocking, every cell straight ahead in each octant are.
- Ai.DecideAction: that it waits only when `find_path` returns no path of two or more cells is not stated; a move is tied to some valid path to the player, not to the particular path the BFS returns.
- State.GameState.MoveTurn: the source spends the move's cost before the arm and refunds it when the step is refused; the model charges it after the arm, only when the step goes ahead.  The energy ends the same, because energy never exceeds its maximum and nothing in between reads it.
- State.GameState.AttackTurn: the attack's cost is charged after the arm, only when there is a target, instead of spent first and refunded; the energy ends the same, for the same reason.
- CalendarParser.SortByStart: an insertion sort stands for `sort_by`; it is proved to be a sorted permutation, but the stability of Rust's sort is not stated.
- Serde attributes (skipping `visible_tiles` and `messages`) are not modelled.
- Progress: the `bonus_*` getters are modelled as plain functions; the unused `unlocked_items` set is carried but never changed.

## Findings

| source | as written | input that shows it | evidently intended | confidence | as-written member | corrected member |
|---|---|---|---|---|---|---|
| src/calendar/parser.rs:142-148 | `unescape_ics` rewrites `\n` to a newline before it rewrites `\\` to a backslash | the escaped text `\\n` (an escaped backslash followed by the letter n) decodes to a backslash and a newline | each escape decoded once, left to right, so `\\n` gives back backslash-n | not executed | CalendarParser.UnescapeAsWrittenMisreadsBackslashN | CalendarParser.UnescapeEscape |

The calendar parser of this model decodes with the corrected unescaper; the members that depend on it are listed under "Left out".

=== FILE: actions.dfy ===
/** What the player can do on a turn and what each costs (src/combat/actions.rs). */
module Actions {
  import opened Tiles

  const MoveCost := 1
  const AttackCost := 5
  const DefendCost := 3
  const UseItemCost := 2
  /** Energy regained by waiting. */
  const WaitRegen := 2

  datatype PlayerAction =
    | Move(dx: int, dy: int)
    | Attack(dir: Direction)
    | Defend
    | UseItem(index: nat)
    | Wait
  {
    /** `energy_cost`: never negative, and free only for waiting. */
    function EnergyCost(): (c: int)
      ensures c >= 0
      ensures c == 0 <==> Wait?
    {
      match this
      case Move(_, _) => MoveCost
      case Attack(_) => AttackCost
      case Defend => DefendCost
      case UseItem(_) => UseItemCost
      case Wait => 0
    }

    predicate IsMovement() {
      Move?
    }

    predicate IsAttack() {
      Attack?
    }
  }

  /** The cost table: Move 1, Attack 5, Defend 3, UseItem 2, Wait 0. */
  lemma EnergyCostTable(dx: int, dy: int, d: Direction, i: nat)
    ensures Move(dx, dy).EnergyCost() == 1 && Attack(d).EnergyCost() == 5
    ensures Defend.EnergyCost() == 3 && UseItem(i).EnergyCost() == 2 && Wait.EnergyCost() == 0
  {
  }

  /** Attacking is the dearest action; only an attack costs more than a defence. */
  lemma AttackIsDearest(a: PlayerAction)
    ensures a.EnergyCost() <= AttackCost
    ensures a.EnergyCost() > DefendCost <==> a.IsAttack()
  {
  }

  /** Movement and attack are exactly the Move and Attack variants, and no action is both. */
  lemma ActionKinds(a: PlayerAction)
    ensures a.IsMovement() <==> exists dx, dy :: a == Move(dx, dy)
    ensures a.IsAttack() <==> exists d :: a == Attack(d)
    ensures !(a.IsMovement() && a.IsAttack())
  {
    if a.Move? {
      assert a == Move(a.dx, a.dy);
    }
    if a.Attack? {
      assert a == Attack(a.dir);
    }
  }
}

=== FILE: ai.dfy ===
/** Enemy decisions and breadth-first pathfinding (src/combat/ai.rs). */
module Ai {
  import opened Wrappers
  import opened RustInt
  import opened EntityTypes
  import opened Enemies
  import opened Players
  import opened Rooms

  datatype EnemyAction =
    | Move(dx: int, dy: int)
    | Attack
    | Regenerate(amount: int)
    | Split
    | Grow(amount: int)
    | Wait

  /** `manhattan_distance`. */
  function Manhattan(a: Pos, b: Pos): nat {
    Abs(a.0 - b.0) + Abs(a.1 - b.1)
  }

  /** `get_adjacent_deltas`: north, south, west, east. */
  function AdjacentDeltas(): (d: seq<(int, int)>)
    ensures |d| == 4
    ensures forall k :: 0 <= k < 4 ==> Abs(d[k].0) + Abs(d[k].1) == 1
  {
    [(0, -1), (0, 1), (-1, 0), (1, 0)]
  }

  /** `get_adjacent_positions`: the four cells at Manhattan distance 1, in delta order. */
  function AdjacentPositions(p: Pos): (r: seq<Pos>)
    ensures |r| == 4
    ensures forall k :: 0 <= k < 4 ==> r[k] == (p.0 + AdjacentDeltas()[k].0, p.1 + AdjacentDeltas()[k].1)
  {
    seq(4, k requires 0 <= k < 4 => (p.0 + AdjacentDeltas()[k].0, p.1 + AdjacentDeltas()[k].1))
  }

  /** The neighbours are exactly the cells one step away, and they are distinct. */
  lemma AdjacentPositionsExact(p: Pos, q: Pos)
    ensures q in AdjacentPositions(p) <==> Manhattan(p, q) == 1
    ensures AdjacentPositions(p) == [(p.0, p.1 - 1), (p.0, p.1 + 1), (p.0 - 1, p.1), (p.0 + 1, p.1)]
  {
    var r := AdjacentPositions(p);
    assert r == [(p.0, p.1 - 1), (p.0, p.1 + 1), (p.0 - 1, p.1), (p.0 + 1, p.1)];
  }

  /**
    `should_use_special`: a Regression under half hp regenerates 2, a
    TechDebt that has lived a turn grows by 1 until its damage doubles, a
    MergeConflict at half health splits, a Bug has nothing.
  */
  function ShouldUseSpecial(e: Enemy): Option<EnemyAction> {
    match e.enemyType
    case Regression => if e.hp < TruncDiv(e.maxHp, 2) then Some(Regenerate(2)) else None
    case TechDebt => if e.turnsAlive > 0 && e.damage < e.enemyType.BaseDamage() * 2 then Some(Grow(1)) else None
    case MergeConflict => if e.AtHalfHealth() then Some(Split) else None
    case Bug => None
  }

  /** Each kind has its own special, and only under its own condition. */
  lemma SpecialsByKind(e: Enemy)
    requires e.maxHp >= 0
    ensures e.enemyType == Bug ==> ShouldUseSpecial(e).None?
    ensures ShouldUseSpecial(e) == Some(Regenerate(2)) <==> e.enemyType == Regression && 2 * e.hp < e.maxHp - e.maxHp % 2
    ensures ShouldUseSpecial(e) == Some(Grow(1)) <==> e.enemyType == TechDebt && e.turnsAlive > 0 && e.damage < 8
    ensures ShouldUseSpecial(e) == Some(Split) <==> e.enemyType == MergeConflict && 2 * e.hp <= e.maxHp
  {
  }

  /** Cells in a w by h grid. */
  ghost function GridCells(w: nat, h: nat): set<Pos> {
    set x: int, y: int | 0 <= x < w && 0 <= y < h :: (x, y)
  }

  /** Consecutive cells of the path are one orthogonal step apart. */
  predicate Connected(path: seq<Pos>) {
    forall i :: 0 <= i < |path| - 1 ==> Manhattan(path[i], path[i + 1]) == 1
  }

  predicate Distinct(path: seq<Pos>) {
    forall i, j :: 0 <= i < j < |path| ==> path[i] != path[j]
  }

  /**
    What `find_path` promises: from `from` to `to` in orthogonal steps, at
    most 50 cells, no cell twice, every cell strictly between walkable.
  */
  ghost predicate IsPath(room: Room, from: Pos, to: Pos, path: seq<Pos>)
    reads room
    requires room.Valid()
  {
    |path| >= 1 && path[0] == from && path[|path| - 1] == to && |path| <= 50 &&
    Connected(path) && Distinct(path) &&
    forall i :: 0 < i < |path| - 1 ==> room.IsWalkable(path[i].0, path[i].1)
  }

  /** A path in the BFS queue: starts at `from`, steps orthogonally, walkable after the start. */
  ghost predicate Partial(room: Room, from: Pos, q: seq<Pos>)
    reads room
    requires room.Valid()
  {
    1 <= |q| < 50 && q[0] == from && Connected(q) && Distinct(q) &&
    forall i :: 0 < i < |q| ==> room.IsWalkable(q[i].0, q[i].1)
  }

  /**
    One round of `find_path`: the four neighbours of the path's last cell in
    turn.  The target ends the search with the path extended to it; any other
    unvisited walkable neighbour is marked visited and, while the extended
    path stays under 50 cells, queued.
  */
  method Expand(room: Room, from: Pos, to: Pos, path: seq<Pos>, visited0: set<Pos>, queue0: seq<seq<Pos>>)
    returns (found: Option<seq<Pos>>, visited: set<Pos>, queue: seq<seq<Pos>>)
    requires room.Valid() && Partial(room, from, path) && forall c :: c in path ==> c in visited0
    requires from in visited0 && to !in visited0
    requires visited0 - {from} <= GridCells(room.width, room.height)
    requires forall q :: q in queue0 ==> Partial(room, from, q) && forall c :: c in q ==> c in visited0
    ensures found.Some? ==> IsPath(room, from, to, found.value)
    ensures found.None? ==> from in visited && to !in visited && visited - {from} <= GridCells(room.width, room.height)
    ensures found.None? ==> forall q :: q in queue ==> Partial(room, from, q) && forall c :: c in q ==> c in visited
    ensures found.None? ==> visited0 <= visited && (visited == visited0 ==> queue == queue0)
  {
    ghost var cells := GridCells(room.width, room.height);
    visited, queue := visited0, queue0;
    var current := path[|path| - 1];
    var deltas := AdjacentDeltas();
    for k := 0 to 4
      invariant from in visited && to !in visited
      invariant visited - {from} <= cells
      invariant forall q :: q in queue ==> Partial(room, from, q) && forall c :: c in q ==> c in visited
      invariant visited0 <= visited
      invariant visited == visited0 ==> queue == queue0
    {
      var next := (current.0 + deltas[k].0, current.1 + deltas[k].1);
      assert Manhattan(current, next) == 1;
      if next == to {
        var p := path + [next];
        assert next !in path;
        return Some(p), visited, queue;
      }
      if next !in visited && room.IsWalkable(next.0, next.1) {
        visited := visited + {next};
        var newPath := path + [next];
        assert next !in path;
        if |newPath| < 50 {
          assert forall q :: q in queue + [newPath] ==> q in queue || q == newPath;
          queue := queue + [newPath];
        }
      }
    }
    found := None;
  }

  /**
    `find_path`: breadth-first search over walkable cells, never revisiting
    a cell and dropping paths of 50 cells.  The target itself need not be
    walkable.  The search always ends: each round either marks a new grid
    cell as visited or shortens the queue.
  */
  method FindPath(from: Pos, to: Pos, room: Room) returns (r: Option<seq<Pos>>)
    requires room.Valid()
    ensures from == to ==> r == Some([from])
    ensures r.Some? ==> IsPath(room, from, to, r.value)
  {
    if from == to {
      return Some([from]);
    }
    ghost var cells := GridCells(room.width, room.height);
    var visited: set<Pos> := {from};
    var queue: seq<seq<Pos>> := [[from]];
    while |queue| > 0
      invariant from in visited && to !in visited
      invariant visited - {from} <= cells
      invariant forall q :: q in queue ==> Partial(room, from, q) && forall c :: c in q ==> c in visited
      decreases |cells - visited|, |queue|
    {
      var path := queue[0];
      assert path in queue;
      assert forall q :: q in queue[1..] ==> q in queue;
      queue := queue[1..];
      ghost var visited0 := visited;
      var found;
      found, visited, queue := Expand(room, from, to, path, visited, queue);
      if found.Some? {
        return found;
      }
      if visited != visited0 {
        var n :| n in visited && n !in visited0;
        assert n in cells;
        assert cells - visited <= (cells - visited0) - {n};
        SubsetCard(cells - visited, (cells - visited0) - {n});
      }
    }
    return None;
  }

  lemma {:induction false} SubsetCard<T>(a: set<T>, b: set<T>)
    requires a <= b
    ensures |a| <= |b|
    decreases |a|
  {
    if a != {} {
      var x :| x in a;
      SubsetCard(a - {x}, b - {x});
    }
  }

  /** A run of orthogonal steps from above a row to below it must stand on that row somewhere in between. */
  lemma {:induction false} CrossesRow(path: seq<Pos>, y0: int)
    requires |path| >= 1 && Connected(path)
    requires path[0].1 < y0 < path[|path| - 1].1
    ensures exists i :: 0 < i < |path| - 1 && path[i].1 == y0
    decreases |path|
  {
    if path[1].1 == y0 {
      assert 0 < 1 < |path| - 1;
    } else {
      assert path[1].1 < y0;
      CrossesRow(path[1..], y0);
      var i :| 0 < i < |path| - 2 && path[1..][i].1 == y0;
      assert path[i + 1].1 == y0;
    }
  }

  /**
    Every path from above a row to below it steps on a walkable cell of that
    row; so when the whole row is wall, `find_path` returns None.
  */
  lemma PathCrossesWalkable(room: Room, from: Pos, to: Pos, y0: int, path: seq<Pos>)
    requires room.Valid() && IsPath(room, from, to, path)
    requires from.1 < y0 < to.1
    ensures exists x :: 0 <= x < room.width && room.IsWalkable(x, y0)
  {
    CrossesRow(path, y0);
    var i :| 0 < i < |path| - 1 && path[i].1 == y0;
    assert room.IsWalkable(path[i].0, y0);
  }

  /**
    `decide_action`: next to the player, a special if one applies and
    otherwise an attack; farther off, a special if one applies, otherwise
    the first step of a found path, otherwise wait.
  */
  method DecideAction(enemy: Enemy, player: Player, room: Room) returns (action: EnemyAction)
    requires room.Valid()
    ensures var dist := Manhattan((enemy.x, enemy.y), (player.x, player.y));
      dist == 1 ==> action == ShouldUseSpecial(enemy).GetOr(Attack)
    ensures var dist := Manhattan((enemy.x, enemy.y), (player.x, player.y));
      dist != 1 && ShouldUseSpecial(enemy).Some? ==> action == ShouldUseSpecial(enemy).value
    ensures var dist := Manhattan((enemy.x, enemy.y), (player.x, player.y));
      dist != 1 && ShouldUseSpecial(enemy).None? ==> action.Wait? || action.Move?
    ensures var dist := Manhattan((enemy.x, enemy.y), (player.x, player.y));
      dist != 1 && ShouldUseSpecial(enemy).None? && action.Move? ==>
        Abs(action.dx) + Abs(action.dy) == 1 &&
        var next := (enemy.x + action.dx, enemy.y + action.dy);
        next == (player.x, player.y) || room.IsWalkable(next.0, next.1)
    ensures (enemy.x, enemy.y) == (player.x, player.y) && ShouldUseSpecial(enemy).None? ==> action == Wait
    ensures action.Move? ==> (exists path :: IsPath(room, (enemy.x, enemy.y), (player.x, player.y), path) &&
                                |path| > 1 && path[1] == (enemy.x + action.dx, enemy.y + action.dy))
    ensures action == Wait ==> Manhattan((enemy.x, enemy.y), (player.x, player.y)) != 1 && ShouldUseSpecial(enemy).None?
  {
    var dist := Manhattan((enemy.x, enemy.y), (player.x, player.y));
    if dist == 1 {
      var special := ShouldUseSpecial(enemy);
      if special.Some? {
        return special.value;
      }
      return Attack;
    }
    var special := ShouldUseSpecial(enemy);
    if special.Some? {
      return special.value;
    }
    var path := FindPath((enemy.x, enemy.y), (player.x, player.y), room);
    if path.Some? {
      var p := path.value;
      if |p| > 1 {
        var next := p[1];
        assert Manhattan(p[0], p[1]) == 1;
        assert next == (enemy.x + (next.0 - enemy.x), enemy.y + (next.1 - enemy.y));
        return Move(next.0 - enemy.x, next.1 - enemy.y);
      }
    }
    return Wait;
  }
}

=== FILE: calendar_parser.dfy ===
/**
  The iCalendar reader (src/calendar/parser.rs): a line scanner that
  collects VEVENT components (section 3.6.1 of RFC 5545), property lines
  with parameters after ';' (section 3.1 of RFC 5545) and TEXT unescaping
  (section 3.3.11 of RFC 5545).  Reading the file, the clock and chrono's
  date-time parsing are not part of this model: the cutoff instant and the
  date-time parser `parseDt` are parameters.  Times are Unix seconds.
*/
module CalendarParser {
  import opened Wrappers
  import opened Text
  import opened RustInt
  import opened CalendarTypes
  import opened Grouping

  // ---------------------------------------------------------------- grouping

  function EventDay(e: EventData): int {
    e.DateNaive()
  }

  /**
    `group_by_date`: one entry per distinct start day, days ascending, each
    holding that day's events in input order, every event in exactly one entry.
  */
  method GroupByDate(events: seq<EventData>) returns (g: Groups<EventData>)
    ensures g == GroupAll(events, EventDay)
    ensures Ascending(g) && NonEmptyGroups(g) && TotalSize(g) == |events|
    ensures forall j :: 0 <= j < |g| ==> g[j].1 == Filter(events, EventDay, g[j].0)
  {
    g := GroupBy(events, EventDay);
  }

  // ---------------------------------------------------------- TEXT escapes

  /** `unescape_ics` as written: four `replace` passes, `\n` first and `\\` last. */
  function UnescapeIcsAsWritten(v: string): string {
    Replace(Replace(Replace(Replace(v, "\\n", "\n"), "\\,", ","), "\\;", ";"), "\\\\", "\\")
  }

  /** The character an escape `\c` stands for. */
  function Unescaped(c: char): char
    requires c in "n,;\\"
  {
    if c == 'n' then '\n' else c
  }

  /**
    TEXT unescaping in one left-to-right pass: `\n`, `\,`, `\;` and `\\`
    each become one character and the scan continues after the escape.
  */
  function UnescapeIcs(v: string): string
    decreases |v|
  {
    if |v| >= 2 && v[0] == '\\' && v[1] in "n,;\\" then [Unescaped(v[1])] + UnescapeIcs(v[2..])
    else if |v| == 0 then []
    else [v[0]] + UnescapeIcs(v[1..])
  }

  /** The TEXT escaping that the unescaper inverts. */
  function EscapeIcs(t: string): (r: string)
    ensures |r| >= |t|
  {
    if |t| == 0 then []
    else
      (if t[0] == '\\' then "\\\\"
       else if t[0] == '\n' then "\\n"
       else if t[0] == ',' then "\\,"
       else if t[0] == ';' then "\\;"
       else [t[0]]) + EscapeIcs(t[1..])
  }

  /** Unescaping undoes escaping, for every text. */
  lemma {:induction false} UnescapeEscape(t: string)
    ensures UnescapeIcs(EscapeIcs(t)) == t
    decreases |t|
  {
    if |t| > 0 {
      UnescapeEscape(t[1..]);
      var head := if t[0] == '\\' then "\\\\" else if t[0] == '\n' then "\\n"
        else if t[0] == ',' then "\\," else if t[0] == ';' then "\\;" else [t[0]];
      var v := head + EscapeIcs(t[1..]);
      assert EscapeIcs(t) == v;
      if |head| == 2 {
        assert v[2..] == EscapeIcs(t[1..]);
      } else {
        assert v[1..] == EscapeIcs(t[1..]);
      }
      assert [t[0]] + t[1..] == t;
    }
  }

  /**
    The escaped backslash followed by `n` (the text `\n` written out literally)
    comes back from the replace chain as a backslash and a line break: the
    first pass consumes the second backslash of `\\` together with the `n`.
  */
  lemma UnescapeAsWrittenMisreadsBackslashN()
    ensures EscapeIcs("\\n") == "\\\\n"
    ensures UnescapeIcsAsWritten("\\\\n") == "\\\n"
    ensures UnescapeIcs("\\\\n") == "\\n"
  {
    assert Replace("\\\\n", "\\n", "\n") == "\\\n" by {
      assert !StartsWith("\\\\n", "\\n");
      assert StartsWith("\\n", "\\n");
    }
    ShortContains("\\\n", "\\,");
    ReplaceAbsent("\\\n", "\\,", ",");
    ShortContains("\\\n", "\\;");
    ReplaceAbsent("\\\n", "\\;", ";");
    ShortContains("\\\n", "\\\\");
    ReplaceAbsent("\\\n", "\\\\", "\\");
    assert UnescapeIcs("\\\\n") == ['\\'] + UnescapeIcs("n");
  }

  // --------------------------------------------------------- event builder

  /** The fields an `EventBuilder` accumulates. */
  datatype BuilderFields = BuilderFields(
    uid: Option<string>,
    dtstart: Option<int>,
    dtend: Option<int>,
    summary: Option<string>,
    description: Option<string>,
    location: Option<string>,
    attendeeCount: nat)

  const EmptyBuilder := BuilderFields(None, None, None, None, None, None, 0)

  /** The property name of a content line, with any `;` parameters dropped, and its value. */
  function LineKey(line: string): (r: Option<(string, string)>)
    ensures r.None? <==> ':' !in line
    ensures r.Some? ==> ';' !in r.value.0
  {
    match SplitOnce(line, ':')
    case None => None
    case Some((key, value)) =>
      match SplitOnce(key, ';')
      case None => Some((key, value))
      case Some((name, _)) => Some((name, value))
  }

  /** The effect of one recognised property on the builder. */
  function ApplyProperty(b: BuilderFields, key: string, value: string, parseDt: string -> Option<int>): BuilderFields {
    if key == "UID" then b.(uid := Some(value))
    else if key == "DTSTART" then b.(dtstart := parseDt(value))
    else if key == "DTEND" then b.(dtend := parseDt(value))
    else if key == "SUMMARY" then b.(summary := Some(UnescapeIcs(value)))
    else if key == "DESCRIPTION" then b.(description := Some(UnescapeIcs(value)))
    else if key == "LOCATION" then b.(location := Some(UnescapeIcs(value)))
    else if key == "ATTENDEE" then b.(attendeeCount := b.attendeeCount + 1)
    else b
  }

  /** The effect of one content line on the builder (`parse_line`). */
  function ApplyLine(b: BuilderFields, line: string, parseDt: string -> Option<int>): BuilderFields {
    match LineKey(line)
    case None => b
    case Some((key, value)) => ApplyProperty(b, key, value, parseDt)
  }

  /** A line `name:value` whose name has no ':' or ';' splits into exactly that name and value. */
  lemma LineKeyOf(name: string, value: string)
    requires ':' !in name && ';' !in name
    ensures LineKey(name + ":" + value) == Some((name, value))
  {
    assert name + ":" + value == name + [':'] + value;
    SplitOnceAt(name, ':', value);
  }

  /** A line without ':' is ignored. */
  lemma ApplyLineNoColon(b: BuilderFields, line: string, parseDt: string -> Option<int>)
    requires ':' !in line
    ensures ApplyLine(b, line, parseDt) == b
  {
  }

  /** Parameters after ';' do not change which property a line sets. */
  lemma ApplyLineIgnoresParams(b: BuilderFields, name: string, params: string, value: string, parseDt: string -> Option<int>)
    requires ':' !in name && ';' !in name && ':' !in params
    ensures ApplyLine(b, name + ";" + params + ":" + value, parseDt) == ApplyLine(b, name + ":" + value, parseDt)
  {
    var key := name + ";" + params;
    assert key == name + [';'] + params;
    assert ':' !in key;
    assert name + ";" + params + ":" + value == key + [':'] + value;
    SplitOnceAt(name, ';', params);
    SplitOnceAt(key, ':', value);
    LineKeyOf(name, value);
  }

  /** Each ATTENDEE line counts one more attendee and changes nothing else. */
  lemma ApplyLineAttendee(b: BuilderFields, value: string, parseDt: string -> Option<int>)
    ensures ApplyLine(b, "ATTENDEE:" + value, parseDt) == b.(attendeeCount := b.attendeeCount + 1)
  {
    assert "ATTENDEE:" + value == "ATTENDEE" + ":" + value;
    LineKeyOf("ATTENDEE", value);
    assert ApplyLine(b, "ATTENDEE:" + value, parseDt) == ApplyProperty(b, "ATTENDEE", value, parseDt);
    assert "ATTENDEE" != "UID" && "ATTENDEE" != "DTSTART" && "ATTENDEE" != "DTEND" && "ATTENDEE" != "SUMMARY";
    assert "ATTENDEE" != "DESCRIPTION" && "ATTENDEE" != "LOCATION";
  }

  /** A SUMMARY line sets the summary, unescaped, and nothing else. */
  lemma ApplyLineSummary(b: BuilderFields, value: string, parseDt: string -> Option<int>)
    ensures ApplyLine(b, "SUMMARY:" + value, parseDt) == b.(summary := Some(UnescapeIcs(value)))
  {
    assert "SUMMARY:" + value == "SUMMARY" + ":" + value;
    LineKeyOf("SUMMARY", value);
    assert ApplyLine(b, "SUMMARY:" + value, parseDt) == ApplyProperty(b, "SUMMARY", value, parseDt);
    assert "SUMMARY" != "UID" && "SUMMARY" != "DTSTART" && "SUMMARY" != "DTEND";
  }

  /** A repeated SUMMARY keeps the last value, unescaped. */
  lemma ApplyLineLastWins(b: BuilderFields, v1: string, v2: string, parseDt: string -> Option<int>)
    ensures ApplyLine(ApplyLine(b, "SUMMARY:" + v1, parseDt), "SUMMARY:" + v2, parseDt) == b.(summary := Some(UnescapeIcs(v2)))
  {
    ApplyLineSummary(b, v1, parseDt);
    ApplyLineSummary(b.(summary := Some(UnescapeIcs(v1))), v2, parseDt);
  }

  /** A property the builder does not know changes nothing. */
  lemma ApplyLineUnknown(b: BuilderFields, name: string, value: string, parseDt: string -> Option<int>)
    requires ':' !in name && ';' !in name
    requires name !in ["UID", "DTSTART", "DTEND", "SUMMARY", "DESCRIPTION", "LOCATION", "ATTENDEE"]
    ensures ApplyLine(b, name + ":" + value, parseDt) == b
  {
    LineKeyOf(name, value);
  }

  /** `build`: an event needs a start; the end defaults to an hour later and the summary to "Untitled". */
  function Build(b: BuilderFields): (r: Option<EventData>)
    ensures r.None? <==> b.dtstart.None?
  {
    match b.dtstart
    case None => None
    case Some(start) =>
      var end := b.dtend.GetOr(start + 3600);
      var summary := b.summary.GetOr("Untitled");
      var minutes := Max(TruncDiv(end - start, 60), 0);
      Some(EventData(
        b.uid.GetOr(IntToString(start)), start, end, summary, b.description, b.location,
        FromEventText(summary, b.description), minutes, b.attendeeCount))
  }

  /** The defaults `build` fills in, and the duration in whole minutes, never negative. */
  lemma BuildDefaults(b: BuilderFields)
    requires b.dtstart.Some?
    ensures var e := Build(b).value;
      e.start == b.dtstart.value &&
      (b.dtend.None? ==> e.end == e.start + 3600 && e.durationMinutes == 60) &&
      (b.summary.None? ==> e.summary == "Untitled") &&
      (b.uid.None? ==> e.uid == IntToString(e.start)) &&
      (e.end >= e.start ==> e.durationMinutes == (e.end - e.start) / 60) &&
      (e.end < e.start ==> e.durationMinutes == 0) &&
      e.attendeeCount == b.attendeeCount && e.category == FromEventText(e.summary, b.description)
  {
  }

  /** The event builder of `parse_ics_content`, filled one content line at a time. */
  class EventBuilder {
    var uid: Option<string>
    var dtstart: Option<int>
    var dtend: Option<int>
    var summary: Option<string>
    var description: Option<string>
    var location: Option<string>
    var attendeeCount: nat

    function Fields(): BuilderFields
      reads this
    {
      BuilderFields(uid, dtstart, dtend, summary, description, location, attendeeCount)
    }

    /** `EventBuilder::new`: nothing set, no attendees. */
    constructor ()
      ensures Fields() == EmptyBuilder
    {
      uid, dtstart, dtend := None, None, None;
      summary, description, location := None, None, None;
      attendeeCount := 0;
    }

    /** `parse_line`: records one property line. */
    method ParseLine(line: string, parseDt: string -> Option<int>)
      modifies this
      ensures Fields() == ApplyLine(old(Fields()), line, parseDt)
    {
      match SplitOnce(line, ':') {
        case None =>
        case Some((rawKey, value)) =>
          var key := match SplitOnce(rawKey, ';') case None => rawKey case Some((name, _)) => name;
          if key == "UID" {
            uid := Some(value);
          } else if key == "DTSTART" {
            dtstart := parseDt(value);
          } else if key == "DTEND" {
            dtend := parseDt(value);
          } else if key == "SUMMARY" {
            summary := Some(UnescapeIcs(value));
          } else if key == "DESCRIPTION" {
            description := Some(UnescapeIcs(value));
          } else if key == "LOCATION" {
            location := Some(UnescapeIcs(value));
          } else if key == "ATTENDEE" {
            attendeeCount := attendeeCount + 1;
          }
      }
    }
  }

  // ------------------------------------------------------------ the scanner

  function StripCR(s: string): string {
    if |s| > 0 && s[|s| - 1] == '\r' then s[..|s| - 1] else s
  }

  /** `str::lines`: split at '\n', drop one trailing '\r' per line, no line after a final '\n'. */
  function Lines(s: string): seq<string>
    decreases |s|
  {
    if s == [] then []
    else match SplitOnce(s, '\n')
      case None => [StripCR(s)]
      case Some((a, b)) => [StripCR(a)] + Lines(b)
  }

  /** The scanner's state: the open VEVENT, if any, and the events kept so far. */
  datatype ScanState = ScanState(current: Option<BuilderFields>, events: seq<EventData>)

  /** One line of `parse_ics_content`'s loop. */
  function Step(st: ScanState, rawLine: string, cutoff: int, parseDt: string -> Option<int>): ScanState {
    var line := Trim(rawLine);
    if StartsWith(line, "BEGIN:VEVENT") then st.(current := Some(EmptyBuilder))
    else if StartsWith(line, "END:VEVENT") then
      match st.current
      case None => st
      case Some(b) =>
        match Build(b)
        case None => st.(current := None)
        case Some(e) => ScanState(None, if e.start >= cutoff then st.events + [e] else st.events)
    else
      match st.current
      case None => st
      case Some(b) => st.(current := Some(ApplyLine(b, line, parseDt)))
  }

  function Scan(lines: seq<string>, cutoff: int, parseDt: string -> Option<int>): ScanState {
    if |lines| == 0 then ScanState(None, [])
    else Step(Scan(lines[..|lines| - 1], cutoff, parseDt), lines[|lines| - 1], cutoff, parseDt)
  }

  /**
    Outside a VEVENT only BEGIN matters; BEGIN discards an unfinished event;
    END without a start drops the event; a kept event never starts before the cutoff.
  */
  lemma StepProperties(st: ScanState, line: string, cutoff: int, parseDt: string -> Option<int>)
    ensures st.current.None? && !StartsWith(Trim(line), "BEGIN:VEVENT") ==> Step(st, line, cutoff, parseDt) == st
    ensures StartsWith(Trim(line), "BEGIN:VEVENT") ==> Step(st, line, cutoff, parseDt) == ScanState(Some(EmptyBuilder), st.events)
    ensures var r := Step(st, line, cutoff, parseDt);
      r.events == st.events || (r.events == st.events + [r.events[|r.events| - 1]] && r.events[|r.events| - 1].start >= cutoff)
  {
  }

  /** Every collected event starts at or after the cutoff. */
  lemma {:induction false} ScanAfterCutoff(lines: seq<string>, cutoff: int, parseDt: string -> Option<int>)
    ensures forall e :: e in Scan(lines, cutoff, parseDt).events ==> e.start >= cutoff
    decreases |lines|
  {
    if |lines| > 0 {
      ScanAfterCutoff(lines[..|lines| - 1], cutoff, parseDt);
      StepProperties(Scan(lines[..|lines| - 1], cutoff, parseDt), lines[|lines| - 1], cutoff, parseDt);
    }
  }

  /** Without a BEGIN:VEVENT line no event is ever collected. */
  lemma {:induction false} NoBeginNoEvents(lines: seq<string>, cutoff: int, parseDt: string -> Option<int>)
    requires forall i :: 0 <= i < |lines| ==> !StartsWith(Trim(lines[i]), "BEGIN:VEVENT")
    ensures Scan(lines, cutoff, parseDt) == ScanState(None, [])
    decreases |lines|
  {
    if |lines| > 0 {
      NoBeginNoEvents(lines[..|lines| - 1], cutoff, parseDt);
    }
  }

  // ---------------------------------------------------------------- sorting

  predicate SortedByStart(es: seq<EventData>) {
    forall i, j :: 0 <= i < j < |es| ==> es[i].start <= es[j].start
  }

  /** Insert e before the first event that starts no earlier. */
  function InsertByStart(e: EventData, s: seq<EventData>): (r: seq<EventData>)
    ensures multiset(r) == multiset(s) + multiset{e}
  {
    if |s| == 0 || e.start <= s[0].start then [e] + s
    else
      assert s == [s[0]] + s[1..];
      [s[0]] + InsertByStart(e, s[1..])
  }

  /** Inserting an event no earlier than m into events no earlier than m keeps them all no earlier than m. */
  lemma {:induction false} InsertByStartBound(e: EventData, s: seq<EventData>, m: int)
    requires e.start >= m && forall i :: 0 <= i < |s| ==> s[i].start >= m
    ensures forall i :: 0 <= i < |InsertByStart(e, s)| ==> InsertByStart(e, s)[i].start >= m
    decreases |s|
  {
    if |s| > 0 && e.start > s[0].start {
      InsertByStartBound(e, s[1..], m);
    }
  }

  lemma {:induction false} InsertByStartSorted(e: EventData, s: seq<EventData>)
    requires SortedByStart(s)
    ensures SortedByStart(InsertByStart(e, s))
    decreases |s|
  {
    if |s| > 0 && e.start > s[0].start {
      InsertByStartSorted(e, s[1..]);
      InsertByStartBound(e, s[1..], s[0].start);
    }
  }

  /** `sort_by(start)`: insertion sort on the start time. */
  function SortByStart(es: seq<EventData>): (r: seq<EventData>)
    ensures multiset(r) == multiset(es)
  {
    if |es| == 0 then [] else
      assert es == [es[0]] + es[1..];
      InsertByStart(es[0], SortByStart(es[1..]))
  }

  /** The sort yields events in non-decreasing start order. */
  lemma {:induction false} SortByStartSorted(es: seq<EventData>)
    ensures SortedByStart(SortByStart(es))
    decreases |es|
  {
    if |es| > 0 {
      SortByStartSorted(es[1..]);
      InsertByStartSorted(es[0], SortByStart(es[1..]));
    }
  }

  // ------------------------------------------------------------ the parser

  /** What `parse_ics_content` returns. */
  function ParseIcs(content: string, days: nat, cutoff: int, parseDt: string -> Option<int>): Result<seq<EventData>, CalendarError> {
    var st := Scan(Lines(content), cutoff, parseDt);
    if |st.events| == 0 then Err(NoEvents(days)) else Ok(SortByStart(st.events))
  }

  lemma ScanPrefix(lines: seq<string>, i: nat, cutoff: int, parseDt: string -> Option<int>)
    requires i < |lines|
    ensures Scan(lines[..i + 1], cutoff, parseDt) == Step(Scan(lines[..i], cutoff, parseDt), lines[i], cutoff, parseDt)
  {
    assert lines[..i + 1][..i] == lines[..i];
  }

  /**
    The loop of `parse_ics_content`: a BEGIN line opens a fresh builder, an
    END line builds the open event and keeps it when it starts no earlier
    than the cutoff, and any other line inside an event is parsed into it.
  */
  method ScanLines(lines: seq<string>, cutoff: int, parseDt: string -> Option<int>) returns (events: seq<EventData>)
    ensures events == Scan(lines, cutoff, parseDt).events
  {
    events := [];
    var current: Option<EventBuilder> := None;
    for i := 0 to |lines|
      invariant current.Some? ==> fresh(current.value)
      invariant Scan(lines[..i], cutoff, parseDt).events == events
      invariant Scan(lines[..i], cutoff, parseDt).current.None? <==> current.None?
      invariant current.Some? ==> Scan(lines[..i], cutoff, parseDt).current == Some(current.value.Fields())
    {
      ScanPrefix(lines, i, cutoff, parseDt);
      var line := Trim(lines[i]);
      if StartsWith(line, "BEGIN:VEVENT") {
        var b := new EventBuilder();
        current := Some(b);
      } else if StartsWith(line, "END:VEVENT") {
        if current.Some? {
          var built := Build(current.value.Fields());
          current := None;
          if built.Some? && built.value.start >= cutoff {
            events := events + [built.value];
          }
        }
      } else if current.Some? {
        current.value.ParseLine(line, parseDt);
      }
    }
    assert lines[..|lines|] == lines;
  }

  /**
    `parse_ics_content`: scan the lines, keeping each completed VEVENT that
    has a start not before the cutoff; none at all is the NoEvents error;
    otherwise the events sorted by start.
  */
  method ParseIcsContent(content: string, days: nat, cutoff: int, parseDt: string -> Option<int>)
    returns (r: Result<seq<EventData>, CalendarError>)
    ensures r == ParseIcs(content, days, cutoff, parseDt)
    ensures r.Err? <==> |Scan(Lines(content), cutoff, parseDt).events| == 0
    ensures r.Err? ==> r.error == NoEvents(days)
    ensures r.Ok? ==> SortedByStart(r.value) && |r.value| > 0 && (forall e :: e in r.value ==> e.start >= cutoff)
    ensures r.Ok? ==> multiset(r.value) == multiset(Scan(Lines(content), cutoff, parseDt).events)
  {
    var lines := Lines(content);
    var events := ScanLines(lines, cutoff, parseDt);
    if |events| == 0 {
      return Err(NoEvents(days));
    }
    ScanAfterCutoff(lines, cutoff, parseDt);
    var sorted := SortByStart(events);
    SortByStartSorted(events);
    forall e | e in sorted
      ensures e in events
    {
      assert e in multiset(sorted);
    }
    r := Ok(sorted);
  }
}

=== FILE: calendar_types.dfy ===
/**
  Calendar events (src/calendar/types.rs).  Times are seconds since the Unix
  epoch in UTC; the date of an event is the day number of its start.
*/
module CalendarTypes {
  import opened Wrappers
  import opened Text
  import opened RustInt
  import opened GitTypes

  datatype EventCategory = Meeting | OneOnOne | AllHands | FocusTime | Break

  datatype CalendarError = ReadFailed(msg: string) | ParseFailed(msg: string) | NoEvents(days: nat)

  datatype EventData = EventData(
    uid: string,
    start: int,
    end: int,
    summary: string,
    description: Option<string>,
    location: Option<string>,
    category: EventCategory,
    durationMinutes: nat,
    attendeeCount: nat)
  {
    /** `date_naive`: the UTC day of the start. */
    function DateNaive(): int {
      DayOf(start)
    }

    /** `intensity`: one point per 15 minutes plus one per attendee beyond the first. */
    function Intensity(): (n: nat)
      ensures n == durationMinutes / 15 + Max(attendeeCount - 1, 0)
    {
      durationMinutes / 15 + (if attendeeCount >= 1 then attendeeCount - 1 else 0)
    }
  }

  /** An hour with five attendees has intensity 8; nobody attending adds nothing. */
  lemma IntensityExamples(e: EventData)
    ensures e.(durationMinutes := 60, attendeeCount := 5).Intensity() == 8
    ensures e.(attendeeCount := 0).Intensity() == e.durationMinutes / 15
    ensures e.Intensity() >= e.durationMinutes / 15
  {
  }

  predicate AnyOf(text: string, words: seq<string>) {
    exists i :: 0 <= i < |words| && Contains(text, words[i])
  }

  /** The text the categoriser searches: lower-cased summary, a space, lower-cased description. */
  function EventText(summary: string, description: Option<string>): string {
    ToLower(summary) + " " + ToLower(description.GetOr(""))
  }

  /**
    `from_event_text`: the first matching keyword group wins: one-on-one,
    then all-hands, then focus time, then break; otherwise a meeting.
  */
  function FromEventText(summary: string, description: Option<string>): EventCategory {
    var text := EventText(summary, description);
    if Contains(text, "1:1") || Contains(text, "1-1") || Contains(text, "sync") then OneOnOne
    else if Contains(text, "all-hands") || Contains(text, "all hands") || Contains(text, "town hall") || Contains(text, "company meeting") then AllHands
    else if Contains(text, "focus") || Contains(text, "block") || Contains(text, "deep work") then FocusTime
    else if Contains(text, "lunch") || Contains(text, "break") || Contains(text, "coffee") then Break
    else Meeting
  }

  const OneOnOneWords := ["1:1", "1-1", "sync"]
  const AllHandsWords := ["all-hands", "all hands", "town hall", "company meeting"]
  const FocusWords := ["focus", "block", "deep work"]
  const BreakWords := ["lunch", "break", "coffee"]

  /** The keyword groups in the order `from_event_text` tries them. */
  const KeywordGroups := [OneOnOneWords, AllHandsWords, FocusWords, BreakWords]

  /** The category each keyword group selects, by its place in that order. */
  function GroupCategory(g: nat): EventCategory {
    if g == 0 then OneOnOne else if g == 1 then AllHands else if g == 2 then FocusTime else if g == 3 then Break else Meeting
  }

  /** The place of a category in the precedence: the index of its keyword group, 4 for a plain meeting. */
  function Rank(c: EventCategory): (n: nat)
    ensures n <= 4 && GroupCategory(n) == c
  {
    match c
    case OneOnOne => 0
    case AllHands => 1
    case FocusTime => 2
    case Break => 3
    case Meeting => 4
  }

  /**
    The category's place in the precedence is the first group of the
    `KeywordGroups` table that matches the searched text: a category other
    than a meeting has a keyword of its own group in the text, and no group
    before it has one.  So a plain meeting means no group matches at all.
  */
  lemma RankIsFirstGroup(summary: string, description: Option<string>)
    ensures var r := Rank(FromEventText(summary, description));
      var t := EventText(summary, description);
      (r < |KeywordGroups| ==> AnyOf(t, KeywordGroups[r])) &&
      (forall g :: 0 <= g < r ==> !AnyOf(t, KeywordGroups[g]))
  {
    var t := EventText(summary, description);
    assert KeywordGroups[0] == OneOnOneWords && KeywordGroups[1] == AllHandsWords;
    assert KeywordGroups[2] == FocusWords && KeywordGroups[3] == BreakWords;
    assert AnyOf(t, OneOnOneWords) <==> Contains(t, OneOnOneWords[0]) || Contains(t, OneOnOneWords[1]) || Contains(t, OneOnOneWords[2]);
    assert AnyOf(t, AllHandsWords) <==> Contains(t, AllHandsWords[0]) || Contains(t, AllHandsWords[1]) || Contains(t, AllHandsWords[2]) || Contains(t, AllHandsWords[3]);
    assert AnyOf(t, FocusWords) <==> Contains(t, FocusWords[0]) || Contains(t, FocusWords[1]) || Contains(t, FocusWords[2]);
    assert AnyOf(t, BreakWords) <==> Contains(t, BreakWords[0]) || Contains(t, BreakWords[1]) || Contains(t, BreakWords[2]);
  }

  /** Two texts where the second holds every word the first holds: the second never ranks later. */
  lemma RankMonotone(s1: string, d1: Option<string>, s2: string, d2: Option<string>)
    requires forall w :: Contains(EventText(s1, d1), w) ==> Contains(EventText(s2, d2), w)
    ensures Rank(FromEventText(s2, d2)) <= Rank(FromEventText(s1, d1))
  {
    RankIsFirstGroup(s1, d1);
    RankIsFirstGroup(s2, d2);
    var r := Rank(FromEventText(s1, d1));
    if r < |KeywordGroups| {
      var j :| 0 <= j < |KeywordGroups[r]| && Contains(EventText(s1, d1), KeywordGroups[r][j]);
      assert Contains(EventText(s2, d2), KeywordGroups[r][j]);
      assert AnyOf(EventText(s2, d2), KeywordGroups[r]);
    }
  }

  /**
    Case does not matter: upper-case letters in the summary or the
    description never change the category.
  */
  lemma FromEventTextIgnoresCase(summary: string, description: Option<string>)
    ensures FromEventText(summary, description) == FromEventText(ToLower(summary), description)
    ensures description.Some? ==> FromEventText(summary, description) == FromEventText(summary, Some(ToLower(description.value)))
  {
    ToLowerIdempotent(summary);
    if description.Some? {
      ToLowerIdempotent(description.value);
    }
  }

  /**
    A keyword of any group, in the summary or in the description and in any
    case, makes the category that group's or one ranked before it.
  */
  lemma KeywordDecides(summary: string, description: Option<string>, g: nat, j: nat)
    requires g < |KeywordGroups| && j < |KeywordGroups[g]|
    requires Contains(ToLower(summary), KeywordGroups[g][j]) ||
             (description.Some? && Contains(ToLower(description.value), KeywordGroups[g][j]))
    ensures Rank(FromEventText(summary, description)) <= g
  {
    SearchedTextHas(summary, description, KeywordGroups[g][j]);
    assert AnyOf(EventText(summary, description), KeywordGroups[g]);
    RankIsFirstGroup(summary, description);
  }

  /** A word found in the lower-cased summary or description is found in the searched text. */
  lemma SearchedTextHas(summary: string, description: Option<string>, w: string)
    requires Contains(ToLower(summary), w) || (description.Some? && Contains(ToLower(description.value), w))
    ensures Contains(EventText(summary, description), w)
  {
    var rest := ToLower(description.GetOr(""));
    if Contains(ToLower(summary), w) {
      ContainsPrefix(ToLower(summary), " " + rest, w);
      assert EventText(summary, description) == ToLower(summary) + (" " + rest);
    } else {
      ContainsSuffix(ToLower(summary) + " ", rest, w);
    }
  }

  /**
    Adding a description, or more text at the end of one, never moves the
    category later in the precedence: every keyword found before is still found.
  */
  lemma MoreDescriptionNeverDemotes(summary: string, d: string, more: string)
    ensures Rank(FromEventText(summary, Some(d))) <= Rank(FromEventText(summary, None))
    ensures Rank(FromEventText(summary, Some(d + more))) <= Rank(FromEventText(summary, Some(d)))
  {
    EventTextAddsDescription(summary, d);
    ExtendedTextNeverDemotes(summary, None, Some(d), ToLower(d));
    EventTextExtendsDescription(summary, d, more);
    ExtendedTextNeverDemotes(summary, Some(d), Some(d + more), ToLower(more));
  }

  lemma EventTextAddsDescription(summary: string, d: string)
    ensures EventText(summary, Some(d)) == EventText(summary, None) + ToLower(d)
  {
    EventTextWithout(summary);
  }

  lemma EventTextExtendsDescription(summary: string, d: string, more: string)
    ensures EventText(summary, Some(d + more)) == EventText(summary, Some(d)) + ToLower(more)
  {
    ToLowerConcat(d, more);
  }

  lemma EventTextWithout(summary: string)
    ensures EventText(summary, None) == ToLower(summary) + " "
  {
    assert ToLower("") == [];
  }

  /** A searched text that only grows at its end never moves the category later. */
  lemma ExtendedTextNeverDemotes(summary: string, d1: Option<string>, d2: Option<string>, extra: string)
    requires EventText(summary, d2) == EventText(summary, d1) + extra
    ensures Rank(FromEventText(summary, d2)) <= Rank(FromEventText(summary, d1))
  {
    var t1 := EventText(summary, d1);
    forall w | Contains(t1, w)
      ensures Contains(EventText(summary, d2), w)
    {
      ContainsPrefix(t1, extra, w);
    }
    RankMonotone(summary, d1, summary, d2);
  }
}

=== FILE: combat.dfy ===
/**
  Attack resolution (src/combat/system.rs).  The random rolls are oracles:
  `hit` says whether the hit roll came in at or under the hit chance, `crit`
  whether the critical roll came in under 5%.  The hit chance itself, a
  clamped `f32` of the focus stat, is therefore not modelled.
*/
module Combat {
  import opened RustInt
  import opened Text
  import opened EntityTypes
  import opened Enemies
  import opened Players

  /** Rust's `as i32` on a float: truncation toward zero. */
  function Truncate(x: real): (n: int)
    ensures x >= 0.0 ==> n as real <= x < n as real + 1.0
    ensures x < 0.0 ==> n as real - 1.0 < x <= n as real
  {
    if x >= 0.0 then x.Floor else -((-x).Floor)
  }

  /** The level scaling: +10% per level above 1, truncated toward zero (exact arithmetic). */
  function Scale(base: int, level: nat): int {
    Truncate(base as real * (1.0 + (level as real - 1.0) * 0.1))
  }

  /** At level 1 there is no scaling. */
  lemma ScaleLevelOne(base: int)
    ensures Scale(base, 1) == base
  {
    assert base as real * (1.0 + (1 as real - 1.0) * 0.1) == base as real;
  }

  /** For a non-negative base, scaling never shrinks as the level rises. */
  lemma ScaleMonotone(base: nat, l1: nat, l2: nat)
    requires l1 <= l2
    ensures Scale(base, l1) <= Scale(base, l2)
  {
    var a := base as real * (1.0 + (l1 as real - 1.0) * 0.1);
    var b := base as real * (1.0 + (l2 as real - 1.0) * 0.1);
    assert b - a == base as real * ((l2 - l1) as real * 0.1);
    assert 0.0 <= a <= b;
  }

  /**
    `calculate_damage`: the scaled base, halved (toward zero) when
    defending, and never below one.
  */
  function CalculateDamage(base: int, level: nat, defending: bool): (d: int)
    ensures d >= 1
    ensures d >= (if defending then TruncDiv(Scale(base, level), 2) else Scale(base, level))
  {
    var scaled := Scale(base, level);
    Max(if defending then TruncDiv(scaled, 2) else scaled, 1)
  }

  /** Defending never raises the damage; at level 1, 10 becomes 5. */
  lemma DefendingHalves(base: int, level: nat)
    ensures CalculateDamage(base, level, true) <= CalculateDamage(base, level, false)
    ensures CalculateDamage(10, 1, false) == 10 && CalculateDamage(10, 1, true) == 5
  {
    ScaleLevelOne(10);
  }

  /** Level-1 damage is the base itself, floored at one. */
  lemma LevelOneDamage(base: int)
    ensures CalculateDamage(base, 1, false) == Max(base, 1)
    ensures CalculateDamage(base, 1, true) == Max(TruncDiv(base, 2), 1)
  {
    ScaleLevelOne(base);
  }

  datatype CombatResult = CombatResult(hit: bool, damage: int, killed: bool, critical: bool, message: string)

  /**
    `player_attack`, for a player with base damage `damage` at `level` (the
    only fields of the player it uses once the rolls are given): a miss
    leaves the enemy as it was; a hit deals the level-scaled damage, doubled
    on a critical, and reports a kill exactly when the enemy's hp is gone.
  */
  function PlayerAttack(damage: int, level: nat, enemy: Enemy, hit: bool, crit: bool): (r: (CombatResult, Enemy))
    ensures !hit ==> r == (CombatResult(false, 0, false, false, "You missed!"), enemy)
    ensures hit ==> r.0.hit && r.0.critical == crit
    ensures hit ==> r.0.damage == (if crit then 2 else 1) * CalculateDamage(damage, level, false)
    ensures hit ==> r.1 == enemy.(hp := enemy.hp - r.0.damage)
    ensures r.0.killed <==> hit && r.1.hp <= 0
  {
    if !hit then
      (CombatResult(false, 0, false, false, "You missed!"), enemy)
    else
      var base := CalculateDamage(damage, level, false);
      var dealt := if crit then base * 2 else base;
      var (e, alive) := enemy.TakeDamage(dealt);
      var killed := !alive;
      var message :=
        if killed then "You dealt " + IntToString(dealt) + " damage and killed the " + [e.enemyType.Symbol()] + "!"
        else if crit then "Critical hit! You dealt " + IntToString(dealt) + " damage!"
        else "You dealt " + IntToString(dealt) + " damage.";
      (CombatResult(true, dealt, killed, crit, message), e)
  }

  /** A critical hit deals exactly twice what the same hit would have dealt. */
  lemma CriticalDoubles(damage: int, level: nat, enemy: Enemy)
    ensures PlayerAttack(damage, level, enemy, true, true).0.damage == 2 * PlayerAttack(damage, level, enemy, true, false).0.damage
    ensures PlayerAttack(damage, level, enemy, true, true).1.hp < PlayerAttack(damage, level, enemy, true, false).1.hp < enemy.hp
  {
  }

  /** An enemy's missed attack: no damage, and the message names the enemy by its symbol. */
  function EnemyMiss(enemy: Enemy): CombatResult {
    CombatResult(false, 0, false, false, "The " + [enemy.Symbol()] + " missed!")
  }

  /**
    An enemy's hit on a player with `hp` hit points: the reported damage is
    the level-1 damage, halved when the player defends; the player then loses
    that damage, halved once more when defending, and at least one point.
    The second component is the player's hp afterwards.
  */
  function EnemyHit(enemy: Enemy, hp: int, defending: bool): (r: (CombatResult, int))
    ensures r.0.hit && !r.0.critical && r.0.damage == CalculateDamage(enemy.damage, 1, defending)
    ensures r.1 == hp - Max(if defending then TruncDiv(r.0.damage, 2) else r.0.damage, 1) && r.1 < hp
    ensures r.0.killed <==> r.1 <= 0
  {
    var damage := CalculateDamage(enemy.damage, 1, defending);
    var after := hp - Max(if defending then TruncDiv(damage, 2) else damage, 1);
    var killed := after <= 0;
    var message := if killed
      then "The " + [enemy.Symbol()] + " dealt " + IntToString(damage) + " damage. You died!"
      else "The " + [enemy.Symbol()] + " dealt " + IntToString(damage) + " damage.";
    (CombatResult(true, damage, killed, false, message), after)
  }

  /**
    `enemy_attack`: a miss changes nothing about the player, not even the
    defensive stance; a hit is `EnemyHit`, applied through
    `Player::take_damage`, which drops the stance and touches nothing else.
  */
  method EnemyAttack(enemy: Enemy, player: Player, hit: bool) returns (r: CombatResult)
    modifies player`hp, player`defending
    ensures !hit ==> unchanged(player) && r == EnemyMiss(enemy)
    ensures hit ==> (r, player.hp) == EnemyHit(enemy, old(player.hp), old(player.defending)) && !player.defending
    ensures hit ==> (player.x == old(player.x) && player.y == old(player.y) && player.energy == old(player.energy) &&
                     player.maxHp == old(player.maxHp) && player.maxEnergy == old(player.maxEnergy) &&
                     player.focus == old(player.focus) && player.maxFocus == old(player.maxFocus) &&
                     player.damage == old(player.damage) && player.playerClass == old(player.playerClass) &&
                     player.inventory == old(player.inventory) &&
                     player.level == old(player.level) && player.xp == old(player.xp))
    ensures r.killed <==> hit && player.hp <= 0
  {
    if !hit {
      return EnemyMiss(enemy);
    }
    var damage := CalculateDamage(enemy.damage, 1, player.defending);
    var alive := player.TakeDamage(damage);
    var killed := !alive;
    var message := if killed
      then "The " + [enemy.Symbol()] + " dealt " + IntToString(damage) + " damage. You died!"
      else "The " + [enemy.Symbol()] + " dealt " + IntToString(damage) + " damage.";
    r := CombatResult(true, damage, killed, false, message);
  }

  /**
    The stance is applied twice on an enemy hit: a MergeConflict's 8 damage
    is reported as 4 against a defending player and takes 2 hp, a quarter.
  */
  lemma DefendingAppliedTwice()
    ensures CalculateDamage(MergeConflict.BaseDamage(), 1, true) == 4
    ensures Max(TruncDiv(CalculateDamage(MergeConflict.BaseDamage(), 1, true), 2), 1) == 2
  {
    LevelOneDamage(8);
  }
}

=== FILE: effects.dfy ===
/**
  Item effects (src/item/effects.rs): applying an effect to the player, the
  rarity rule by lines changed, and the commit-driven item generator.  The
  generator's random draw in `0..3` is a parameter `roll`, reduced modulo 3.
*/
module Effects {
  import opened Wrappers
  import opened Text
  import opened RustInt
  import opened ItemTypes
  import opened Items
  import opened GitTypes
  import opened Players

  function StatName(s: Stat): string {
    match s
    case MaxHp => "MaxHP"
    case MaxEnergy => "MaxEnergy"
    case Focus => "Focus"
    case Damage => "Damage"
  }

  /** The message `apply_effect` returns for each effect. */
  function EffectMessage(e: ItemEffect): string {
    match e
    case Heal(a) => "Healed for " + IntToString(a) + " HP"
    case RestoreEnergy(a) => "Restored " + IntToString(a) + " energy"
    case Damage(_) => "Damage items target enemies"
    case Buff(s, a, d) => "Buffed " + StatName(s) + " by " + IntToString(a) + " for " + NatToString(d) + " turns"
    case RevealMap => "Map revealed"
  }

  /**
    `apply_effect`: healing raises hp up to its maximum, restoring raises
    energy up to its maximum; damage, buff and map effects change nothing
    on the player.
  */
  method ApplyEffect(effect: ItemEffect, p: Player) returns (msg: string)
    requires p.Valid()
    modifies p`hp, p`energy
    ensures p.Valid()
    ensures p.hp == if effect.Heal? then Min(old(p.hp) + effect.amount, p.maxHp) else old(p.hp)
    ensures p.energy == if effect.RestoreEnergy? then Min(old(p.energy) + effect.amount, p.maxEnergy) else old(p.energy)
    ensures msg == EffectMessage(effect)
  {
    match effect {
      case Heal(a) =>
        p.Heal(a);
      case RestoreEnergy(a) =>
        p.RegenEnergy(a);
      case Damage(_) =>
      case Buff(_, _, _) =>
      case RevealMap =>
    }
    msg := EffectMessage(effect);
  }

  /** `calculate_rarity`: 0-49 Common, 50-199 Uncommon, 200-499 Rare, 500+ Legendary. */
  function CalculateRarity(lines: nat): Rarity {
    if lines <= 49 then Common
    else if lines <= 199 then Uncommon
    else if lines <= 499 then Rare
    else Legendary
  }

  /** Larger commits never give a lower rarity, and the bands start at 0, 50, 200 and 500. */
  lemma CalculateRarityMonotone(a: nat, b: nat)
    requires a <= b
    ensures CalculateRarity(a).Rank() <= CalculateRarity(b).Rank()
    ensures CalculateRarity(a).Rank() == (if a >= 500 then 3 else if a >= 200 then 2 else if a >= 50 then 1 else 0)
  {
  }

  /** The value a rarity selects from a four-entry table, lowest rarity first. */
  function ByRarity(r: Rarity, common: int, uncommon: int, rare: int, legendary: int): int {
    match r
    case Common => common
    case Uncommon => uncommon
    case Rare => rare
    case Legendary => legendary
  }

  /** True when `msg` contains either keyword. */
  predicate HasEither(msg: string, a: string, b: string) {
    Contains(msg, a) || Contains(msg, b)
  }

  /**
    `generate_item`: documentation commits give a map scroll, test or spec
    commits a heal scaled by rarity, config or setting commits an energy
    scroll scaled by rarity; anything else picks one of three by the roll.
    The item carries the commit's hash and the rarity of its size.
  */
  function GenerateItem(commit: CommitData, roll: nat): (it: Item)
    ensures it.rarity == CalculateRarity(commit.LinesChanged())
    ensures it.sourceCommit == Some(commit.hash)
    ensures it.x == 0 && it.y == 0
    ensures it.effect.RevealMap? ==> it.itemType == Scroll
    ensures it.effect.Heal? ==> it.itemType == Consumable && it.effect.amount >= 10
    ensures it.effect.RestoreEnergy? ==> it.effect.amount >= 20
    ensures !it.effect.Damage? && !it.effect.Buff?
  {
    var rarity := CalculateRarity(commit.LinesChanged());
    var msg := ToLower(commit.message);
    var (name, effect, itemType) :=
      if HasEither(msg, "doc", "readme") then
        ("Map Scroll", RevealMap, Scroll)
      else if HasEither(msg, "test", "spec") then
        ("Healing Commit", Heal(ByRarity(rarity, 10, 20, 35, 50)), Consumable)
      else if HasEither(msg, "config", "setting") then
        ("Config Scroll", RestoreEnergy(ByRarity(rarity, 20, 40, 60, 100)), Scroll)
      else if roll % 3 == 0 then
        ("Small Heal", Heal(10), Consumable)
      else if roll % 3 == 1 then
        ("Energy Drink", RestoreEnergy(20), Consumable)
      else
        ("Mystery Scroll", RevealMap, Scroll);
    NewItem(name, itemType, effect, rarity).FromCommit(commit.hash)
  }

  /** The roll only matters when the message names none of the keywords. */
  lemma GenerateItemRollIrrelevant(commit: CommitData, r1: nat, r2: nat)
    requires var msg := ToLower(commit.message);
      HasEither(msg, "doc", "readme") || HasEither(msg, "test", "spec") || HasEither(msg, "config", "setting")
    ensures GenerateItem(commit, r1) == GenerateItem(commit, r2)
  {
  }

  /** Keyword precedence: documentation wins over tests, tests over config. */
  lemma GenerateItemPrecedence(commit: CommitData, roll: nat)
    ensures var msg := ToLower(commit.message);
      var it := GenerateItem(commit, roll);
      (HasEither(msg, "doc", "readme") ==> it.effect == RevealMap && it.name == "Map Scroll") &&
      (!HasEither(msg, "doc", "readme") && HasEither(msg, "test", "spec") ==>
        it.effect == Heal(ByRarity(it.rarity, 10, 20, 35, 50)) && it.itemType == Consumable) &&
      (!HasEither(msg, "doc", "readme") && !HasEither(msg, "test", "spec") && HasEither(msg, "config", "setting") ==>
        it.effect == RestoreEnergy(ByRarity(it.rarity, 20, 40, 60, 100)) && it.itemType == Scroll)
  {
  }

  /** Rarer test commits heal at least as much. */
  lemma HealGrowsWithRarity(r: Rarity, s: Rarity)
    requires r.Rank() <= s.Rank()
    ensures ByRarity(r, 10, 20, 35, 50) <= ByRarity(s, 10, 20, 35, 50)
    ensures ByRarity(r, 20, 40, 60, 100) <= ByRarity(s, 20, 40, 60, 100)
  {
  }
}

=== FILE: enemy.dfy ===
/**
  Enemies (src/entity/enemy.rs).  An enemy lives by value inside its room's
  enemy vector, so `take_damage` on `&mut self` is modelled as a function that
  returns the updated enemy together with the "still alive" flag.
*/
module Enemies {
  import opened EntityTypes
  import opened RustInt

  datatype Enemy = Enemy(
    x: int,
    y: int,
    hp: int,
    maxHp: int,
    damage: int,
    enemyType: EnemyType,
    sourceCommit: string,
    turnsAlive: nat)
  {
    function Symbol(): char {
      enemyType.Symbol()
    }

    /** `take_damage`: hp drops by the amount, but always by at least one. */
    function TakeDamage(amount: int): (r: (Enemy, bool))
      ensures r.0 == this.(hp := r.0.hp)
      ensures hp - r.0.hp == Max(amount, 1) >= 1
      ensures r.1 <==> r.0.hp > 0
    {
      var e := this.(hp := hp - Max(amount, 1));
      (e, e.hp > 0)
    }

    /** `at_half_health`, with Rust's truncating division. */
    predicate AtHalfHealth() {
      hp <= TruncDiv(maxHp, 2)
    }
  }

  /** `Enemy::new`: full health at the kind's base stats, not yet alive for any turn. */
  function NewEnemy(t: EnemyType, x: int, y: int, hash: string): Enemy {
    Enemy(x, y, t.BaseHp(), t.BaseHp(), t.BaseDamage(), t, hash, 0)
  }

  /** A new enemy has hp == max_hp == base hp, base damage, no turns, and the given cell. */
  lemma NewEnemyStats(t: EnemyType, x: int, y: int, hash: string)
    ensures var e := NewEnemy(t, x, y, hash);
      e.hp == e.maxHp == t.BaseHp() && e.damage == t.BaseDamage() &&
      e.turnsAlive == 0 && e.x == x && e.y == y && e.enemyType == t && e.hp > 0 &&
      !e.AtHalfHealth()
  {
  }

  /** For a non-negative maximum, "at half health" means twice the hp is at most the maximum. */
  lemma AtHalfHealthIff(e: Enemy)
    requires e.maxHp >= 0
    ensures e.AtHalfHealth() <==> 2 * e.hp <= e.maxHp
  {
  }
}

=== FILE: entity_types.dfy ===
/** Player classes and enemy kinds with their fixed stat tables (src/entity/types.rs). */
module EntityTypes {

  datatype PlayerClass = CodeWarrior | MeetingSurvivor | InboxKnight | Wanderer {
    /** The `{:?}` rendering of the class, used as its key in the unlock set. */
    function Name(): string {
      match this
      case CodeWarrior => "CodeWarrior"
      case MeetingSurvivor => "MeetingSurvivor"
      case InboxKnight => "InboxKnight"
      case Wanderer => "Wanderer"
    }
  }

  datatype EnemyType = Bug | Regression | TechDebt | MergeConflict {

    function BaseHp(): int {
      match this
      case Bug => 10
      case Regression => 20
      case TechDebt => 30
      case MergeConflict => 50
    }

    function BaseDamage(): int {
      match this
      case Bug => 3
      case Regression => 5
      case TechDebt => 4
      case MergeConflict => 8
    }

    function Symbol(): char {
      match this
      case Bug => 'B'
      case Regression => 'R'
      case TechDebt => 'D'
      case MergeConflict => 'M'
    }

    /** The `{:?}` rendering of the kind, as game events carry it. */
    function Name(): string {
      match this
      case Bug => "Bug"
      case Regression => "Regression"
      case TechDebt => "TechDebt"
      case MergeConflict => "MergeConflict"
    }
  }

  /** The stat table: hp 10/20/30/50 and damage 3/5/4/8, all strictly positive. */
  lemma EnemyStatTable(t: EnemyType)
    ensures Bug.BaseHp() == 10 && Regression.BaseHp() == 20 && TechDebt.BaseHp() == 30 && MergeConflict.BaseHp() == 50
    ensures Bug.BaseDamage() == 3 && Regression.BaseDamage() == 5 && TechDebt.BaseDamage() == 4 && MergeConflict.BaseDamage() == 8
    ensures t.BaseHp() > 0 && t.BaseDamage() > 0
  {
  }

  /** The symbols 'B', 'R', 'D', 'M' identify the kind. */
  lemma EnemySymbolsDistinct(t: EnemyType, u: EnemyType)
    ensures Bug.Symbol() == 'B' && Regression.Symbol() == 'R' && TechDebt.Symbol() == 'D' && MergeConflict.Symbol() == 'M'
    ensures t.Symbol() == u.Symbol() ==> t == u
  {
  }

  /** Distinct classes have distinct names, so the unlock set keys them faithfully. */
  lemma ClassNamesDistinct(c: PlayerClass, d: PlayerClass)
    ensures c.Name() == d.Name() ==> c == d
  {
  }
}

=== FILE: fov.dfy ===
/**
  Field of view by recursive shadowcasting over eight octants
  (src/fov/shadowcast.rs).  The visible set is threaded through every call
  in place of the shared hash set; slopes, which the source keeps as `f32`,
  are exact reals here; the blocking test is a function parameter.
*/
module Fov {
  type Pos = (int, int)

  /** Squared Euclidean distance between two cells. */
  function DistSq(p: Pos, q: Pos): nat {
    (p.0 - q.0) * (p.0 - q.0) + (p.1 - q.1) * (p.1 - q.1)
  }

  /** `transform_octant`: maps octant-local (x, y) into one of eight reflections; other octants are the identity. */
  function TransformOctant(octant: nat, x: int, y: int): (r: (int, int))
    ensures (r == (x, y) || r == (y, x) || r == (y, -x) || r == (-x, y) ||
             r == (-x, -y) || r == (-y, -x) || r == (-y, x) || r == (x, -y))
  {
    match octant
    case 0 => (x, y)
    case 1 => (y, x)
    case 2 => (y, -x)
    case 3 => (-x, y)
    case 4 => (-x, -y)
    case 5 => (-y, -x)
    case 6 => (-y, x)
    case 7 => (x, -y)
    case _ => (x, y)
  }

  /** Every octant transform is a signed permutation, so it keeps the squared distance. */
  lemma TransformKeepsDistance(octant: nat, x: int, y: int)
    ensures var (tx, ty) := TransformOctant(octant, x, y); tx * tx + ty * ty == x * x + y * y
  {
    var (tx, ty) := TransformOctant(octant, x, y);
    assert (-x) * (-x) == x * x && (-y) * (-y) == y * y;
  }

  /** The cell straight ahead of the origin in an octant, one row out. */
  function FirstCell(origin: Pos, octant: nat): Pos {
    var (tx, ty) := TransformOctant(octant, 0, -1);
    (origin.0 + tx, origin.1 + ty)
  }

  /** Octants 0, 4, 1 and 5 look first north, south, west and east. */
  lemma FirstCells(origin: Pos)
    ensures FirstCell(origin, 0) == (origin.0, origin.1 - 1)
    ensures FirstCell(origin, 4) == (origin.0, origin.1 + 1)
    ensures FirstCell(origin, 1) == (origin.0 - 1, origin.1)
    ensures FirstCell(origin, 5) == (origin.0 + 1, origin.1)
  {
  }

  /** The cell `r` rows straight ahead of the origin in an octant. */
  function Ahead(origin: Pos, octant: nat, r: int): Pos {
    var (tx, ty) := TransformOctant(octant, 0, -r);
    (origin.0 + tx, origin.1 + ty)
  }

  /** Nothing blocks light anywhere. */
  ghost predicate Open(blocking: (int, int) -> bool) {
    forall x: int, y: int :: !blocking(x, y)
  }

  /** A scan of a whole octant from its first row with nothing blocking. */
  ghost predicate OpenOctant(row: int, startSlope: real, endSlope: real, blocking: (int, int) -> bool) {
    row == 1 && startSlope == 1.0 && endSlope == 0.0 && Open(blocking)
  }

  /** The row-1 case of `cast_light` from the full octant: both of its cells are always seen. */
  predicate FullFirstRow(row: int, radius: int, startSlope: real, endSlope: real) {
    row == 1 && 1 <= radius && startSlope == 1.0 && endSlope == 0.0
  }

  /**
    `cast_light`: scans rows `row..=radius` of one octant between two slopes,
    adding every cell within the radius it reaches and recursing past each
    blocking run.  It only adds, only within the radius, adds nothing when
    the rows are exhausted, and from the full octant always adds the cell
    straight ahead.
  */
  method CastLight(visible: set<Pos>, origin: Pos, radius: int, row: int, startSlope0: real, endSlope: real,
                   octant: nat, blocking: (int, int) -> bool) returns (v: set<Pos>)
    requires row >= 1
    ensures visible <= v
    ensures forall p :: p in v && p !in visible ==> DistSq(p, origin) <= radius * radius
    ensures row > radius ==> v == visible
    ensures FullFirstRow(row, radius, startSlope0, endSlope) ==> FirstCell(origin, octant) in v
    ensures OpenOctant(row, startSlope0, endSlope, blocking) ==> forall r :: 1 <= r <= radius ==> Ahead(origin, octant, r) in v
    decreases radius - row + 1
  {
    v := visible;
    if startSlope0 < endSlope {
      return;
    }
    var startSlope := startSlope0;
    var nextStartSlope := startSlope0;
    var currentRow := row;
    while currentRow <= radius
      invariant row <= currentRow
      invariant visible <= v
      invariant row > radius ==> v == visible
      invariant currentRow == row ==> startSlope == startSlope0 && nextStartSlope == startSlope0
      invariant forall p :: p in v && p !in visible ==> DistSq(p, origin) <= radius * radius
      invariant FullFirstRow(row, radius, startSlope0, endSlope) && currentRow > 1 ==> FirstCell(origin, octant) in v
      invariant OpenOctant(row, startSlope0, endSlope, blocking) ==>
        startSlope == 1.0 && forall r :: 1 <= r < currentRow ==> Ahead(origin, octant, r) in v
    {
      var blocked := false;
      var dy := -currentRow;
      var dx := -currentRow;
      ghost var rowStart := v;
      ghost var firstRow := FullFirstRow(row, radius, startSlope0, endSlope) && currentRow == 1;
      ghost var open := OpenOctant(row, startSlope0, endSlope, blocking);
      while dx <= 0
        invariant -currentRow <= dx <= 1
        invariant rowStart <= v
        invariant forall p :: p in v && p !in visible ==> DistSq(p, origin) <= radius * radius
        invariant firstRow && dx <= 0 ==> startSlope >= 0.0 && nextStartSlope >= 0.0
        invariant firstRow && dx == 1 ==> FirstCell(origin, octant) in v
        invariant open ==> !blocked && startSlope == 1.0
        invariant open && dx == 1 ==> Ahead(origin, octant, currentRow) in v
      {
        var leftSlope := (dx as real - 0.5) / (dy as real + 0.5);
        var rightSlope := (dx as real + 0.5) / (dy as real - 0.5);
        if firstRow {
          assert dx == -1 ==> leftSlope == 3.0 && rightSlope == 1.0 / 3.0;
          assert dx == 0 ==> leftSlope == 1.0 && rightSlope == -1.0 / 3.0;
        }
        if open {
          OpenSlopes(dx, dy);
        }
        if startSlope < rightSlope {
          dx := dx + 1;
          continue;
        }
        if endSlope > leftSlope {
          break;
        }
        var (tx, ty) := TransformOctant(octant, dx, dy);
        var cell := (origin.0 + tx, origin.1 + ty);
        if open && dx == 0 {
          RowWithinRadius(currentRow, radius);
        }
        if dx * dx + dy * dy <= radius * radius {
          TransformKeepsDistance(octant, dx, dy);
          assert DistSq(cell, origin) == tx * tx + ty * ty;
          v := v + {cell};
        }
        if blocked {
          if blocking(cell.0, cell.1) {
            nextStartSlope := rightSlope;
            dx := dx + 1;
            continue;
          } else {
            blocked := false;
            startSlope := nextStartSlope;
          }
        } else if blocking(cell.0, cell.1) && currentRow < radius {
          blocked := true;
          v := CastLight(v, origin, radius, currentRow + 1, startSlope, leftSlope, octant, blocking);
          nextStartSlope := rightSlope;
        }
        dx := dx + 1;
      }
      if blocked {
        break;
      }
      currentRow := currentRow + 1;
    }
  }

  /**
    `calculate_fov`: the origin plus what `cast_light` finds in each of the
    eight octants from row 1 over the full slope range.  The origin is always
    visible, nothing farther than the radius is, radius 0 sees only the
    origin, and from radius 1 on the four axis neighbours are always seen,
    walls or not.
  */
  method CalculateFov(origin: Pos, radius: nat, blocking: (int, int) -> bool) returns (visible: set<Pos>)
    ensures origin in visible
    ensures forall p :: p in visible ==> DistSq(p, origin) <= radius * radius
    ensures radius == 0 ==> visible == {origin}
    ensures radius >= 1 ==> forall octant :: 0 <= octant < 8 ==> FirstCell(origin, octant) in visible
    ensures Open(blocking) ==> forall octant, r :: 0 <= octant < 8 && 1 <= r <= radius ==> Ahead(origin, octant, r) in visible
  {
    visible := {origin};
    for octant := 0 to 8
      invariant origin in visible
      invariant forall p :: p in visible ==> DistSq(p, origin) <= radius * radius
      invariant radius >= 1 ==> forall o :: 0 <= o < octant ==> FirstCell(origin, o) in visible
      invariant Open(blocking) ==> forall o, r :: 0 <= o < octant && 1 <= r <= radius ==> Ahead(origin, o, r) in visible
    {
      visible := CastLight(visible, origin, radius, 1, 1.0, 0.0, octant, blocking);
    }
    if radius == 0 {
      forall p | p in visible
        ensures p == origin
      {
        SquaresZero(p.0 - origin.0, p.1 - origin.1);
      }
    }
  }

  /**
    With nothing blocking, the slopes of row -dy never end the scan of that
    row before its middle cell, and never skip the middle cell.
  */
  lemma OpenSlopes(dx: int, dy: int)
    requires dy <= -1 && dy <= dx <= 0
    ensures (dx as real - 0.5) / (dy as real + 0.5) > 0.0
    ensures dx == 0 ==> (dx as real + 0.5) / (dy as real - 0.5) < 1.0
  {
    var a := dx as real - 0.5;
    var b := dy as real + 0.5;
    assert a < 0.0 && b < 0.0;
    assert a / b == (-a) / (-b);
    if dx == 0 {
      assert (dx as real + 0.5) / (dy as real - 0.5) == -(0.5 / (0.5 - dy as real));
    }
  }

  lemma RowWithinRadius(row: int, radius: int)
    requires 1 <= row <= radius
    ensures row * row <= radius * radius
  {
  }

  /**
    With nothing blocking, every cell along the four axes out to the radius
    is visible: the octants 0, 4, 1 and 5 look straight north, south, west
    and east.
  */
  lemma OpenFieldAxesVisible(origin: Pos, radius: nat, visible: set<Pos>, r: int)
    requires forall octant, r :: 0 <= octant < 8 && 1 <= r <= radius ==> Ahead(origin, octant, r) in visible
    requires 1 <= r <= radius
    ensures (origin.0, origin.1 - r) in visible && (origin.0, origin.1 + r) in visible
    ensures (origin.0 - r, origin.1) in visible && (origin.0 + r, origin.1) in visible
  {
    assert Ahead(origin, 0, r) == (origin.0, origin.1 - r) && Ahead(origin, 4, r) == (origin.0, origin.1 + r);
    assert Ahead(origin, 1, r) == (origin.0 - r, origin.1) && Ahead(origin, 5, r) == (origin.0 + r, origin.1);
  }

  lemma SquaresZero(a: int, b: int)
    requires a * a + b * b <= 0
    ensures a == 0 && b == 0
  {
  }

  /** From radius 1 on, the four cells next to the origin along the axes are visible. */
  lemma AxisNeighboursVisible(origin: Pos, radius: nat, visible: set<Pos>)
    requires radius >= 1
    requires forall octant :: 0 <= octant < 8 ==> FirstCell(origin, octant) in visible
    ensures (origin.0, origin.1 - 1) in visible && (origin.0, origin.1 + 1) in visible
    ensures (origin.0 - 1, origin.1) in visible && (origin.0 + 1, origin.1) in visible
  {
    FirstCells(origin);
    assert FirstCell(origin, 0) in visible && FirstCell(origin, 4) in visible;
    assert FirstCell(origin, 1) in visible && FirstCell(origin, 5) in visible;
  }
}

=== FILE: generator.dfy ===
/**
  Dungeon generation (src/world/generator.rs): one room per day of commits
  (or calendar events), sized by the day's volume, typed by what changed,
  walled in, and linked west-to-east by an entrance and an exit on the
  middle row.  The layout step takes a random generator but never draws
  from it, so generation is modelled without one.
*/
module Generator {
  import opened Wrappers
  import opened Text
  import opened RustInt
  import opened Tiles
  import opened GitTypes
  import opened Grouping
  import opened GitParser
  import opened Effects
  import opened RoomTypes
  import opened Rooms
  import opened Worlds
  import opened Enemies
  import opened Items
  import opened CalendarTypes
  import opened CalendarParser

  // ------------------------------------------------------------ room size

  /** `calculate_room_size`: 3x3 below 20 lines, 5x5 below 50, 7x7 below 200, else 9x9. */
  function CalculateRoomSize(totalLines: nat): (nat, nat) {
    if totalLines <= 19 then (3, 3)
    else if totalLines <= 49 then (5, 5)
    else if totalLines <= 199 then (7, 7)
    else (9, 9)
  }

  /** Rooms are square, odd-sided, between 3 and 9, and never shrink as the day grows. */
  lemma RoomSizeShape(a: nat, b: nat)
    requires a <= b
    ensures var (w, h) := CalculateRoomSize(a);
      w == h && w % 2 == 1 && 3 <= w <= 9
    ensures CalculateRoomSize(a).0 <= CalculateRoomSize(b).0
  {
  }

  /** `calculate_room_size_from_intensity`: 3x3 up to 4, 5x5 up to 10, 7x7 up to 20, else 9x9. */
  function CalculateRoomSizeFromIntensity(intensity: nat): (nat, nat) {
    if intensity <= 4 then (3, 3)
    else if intensity <= 10 then (5, 5)
    else if intensity <= 20 then (7, 7)
    else (9, 9)
  }

  /** The calendar size table is square, odd, 3 to 9 and monotone, with the bands 0-4, 5-10, 11-20. */
  lemma IntensitySizeShape(a: nat, b: nat)
    requires a <= b
    ensures var (w, h) := CalculateRoomSizeFromIntensity(a);
      w == h && w % 2 == 1 && 3 <= w <= 9
    ensures CalculateRoomSizeFromIntensity(a).0 <= CalculateRoomSizeFromIntensity(b).0
    ensures CalculateRoomSizeFromIntensity(2) == (3, 3) && CalculateRoomSizeFromIntensity(7) == (5, 5)
    ensures CalculateRoomSizeFromIntensity(15) == (7, 7) && CalculateRoomSizeFromIntensity(30) == (9, 9)
  {
  }

  // ------------------------------------------------------------ room type

  function TotalLines(cs: seq<CommitData>): nat {
    if |cs| == 0 then 0 else TotalLines(cs[..|cs| - 1]) + cs[|cs| - 1].LinesChanged()
  }

  predicate AnyMerge(cs: seq<CommitData>) {
    exists i :: 0 <= i < |cs| && cs[i].isMerge
  }

  /** The file categories of all commits, added up. */
  function SumCategories(cs: seq<CommitData>): FileCategories {
    if |cs| == 0 then NoCategories
    else
      var f := SumCategories(cs[..|cs| - 1]);
      var g := cs[|cs| - 1].fileCategories;
      FileCategories(f.testFiles + g.testFiles, f.configFiles + g.configFiles,
                     f.docFiles + g.docFiles, f.otherFiles + g.otherFiles)
  }

  /** Number of commits whose lower-cased message contains a or b. */
  function MessageCount(cs: seq<CommitData>, a: string, b: string): (n: nat)
    ensures n <= |cs|
  {
    if |cs| == 0 then 0
    else MessageCount(cs[..|cs| - 1], a, b) + (if HasEither(ToLower(cs[|cs| - 1].message), a, b) then 1 else 0)
  }

  /**
    The room type for a day's commits: a merge makes a boss room; otherwise a
    strict majority of test files makes a sanctuary and of config files a
    treasury; with no file data at all, the same majorities are taken over
    the commit messages.
  */
  function RoomTypeOf(cs: seq<CommitData>): RoomType {
    if AnyMerge(cs) then Boss
    else
      var f := SumCategories(cs);
      var total := f.Total();
      if total > 0 && f.testFiles * 2 > total then Sanctuary
      else if total > 0 && f.configFiles * 2 > total then Treasure
      else if |cs| > 0 && total == 0 && MessageCount(cs, "test", "spec") * 2 > |cs| then Sanctuary
      else if |cs| > 0 && total == 0 && MessageCount(cs, "config", "setting") * 2 > |cs| then Treasure
      else Normal
  }

  /**
    A merge anywhere makes the room a boss room, whatever else the day holds:
    commits added before or after it change nothing.
  */
  lemma MergeMakesBoss(cs: seq<CommitData>, i: nat, before: seq<CommitData>, after: seq<CommitData>)
    requires i < |cs| && cs[i].isMerge
    ensures RoomTypeOf(cs) == Boss
    ensures RoomTypeOf(before + cs + after) == Boss
  {
    assert (before + cs + after)[|before| + i] == cs[i];
  }

  /** With file data, only file counts decide, and the messages are never consulted. */
  lemma FileDataDecides(cs: seq<CommitData>)
    requires !AnyMerge(cs) && SumCategories(cs).Total() > 0
    ensures var f := SumCategories(cs);
      RoomTypeOf(cs) == (if f.testFiles * 2 > f.Total() then Sanctuary
                         else if f.configFiles * 2 > f.Total() then Treasure
                         else Normal)
  {
  }

  /** Without file data, a strict majority of messages decides, tests before config. */
  lemma MessagesDecideWithoutFileData(cs: seq<CommitData>)
    requires !AnyMerge(cs) && SumCategories(cs).Total() == 0 && |cs| > 0
    ensures RoomTypeOf(cs) == (if MessageCount(cs, "test", "spec") * 2 > |cs| then Sanctuary
                               else if MessageCount(cs, "config", "setting") * 2 > |cs| then Treasure
                               else Normal)
  {
  }

  /** `determine_room_type`: a merge scan, one pass adding up file counts, two message counts. */
  method DetermineRoomType(cs: seq<CommitData>) returns (rt: RoomType)
    ensures rt == RoomTypeOf(cs)
  {
    for i := 0 to |cs|
      invariant !AnyMerge(cs[..i])
    {
      if cs[i].isMerge {
        assert cs[..i + 1][i] == cs[i];
        return Boss;
      }
      assert cs[..i + 1][..i] == cs[..i];
    }
    assert cs[..|cs|] == cs;
    var tests: nat, configs: nat, docs: nat, others: nat := 0, 0, 0, 0;
    for i := 0 to |cs|
      invariant SumCategories(cs[..i]) == FileCategories(tests, configs, docs, others)
    {
      assert cs[..i + 1][..i] == cs[..i];
      tests := tests + cs[i].fileCategories.testFiles;
      configs := configs + cs[i].fileCategories.configFiles;
      docs := docs + cs[i].fileCategories.docFiles;
      others := others + cs[i].fileCategories.otherFiles;
    }
    var totalFiles := tests + configs + docs + others;
    if totalFiles > 0 {
      if tests * 2 > totalFiles {
        return Sanctuary;
      }
      if configs * 2 > totalFiles {
        return Treasure;
      }
    }
    var testCommits, configCommits := 0, 0;
    for i := 0 to |cs|
      invariant testCommits == MessageCount(cs[..i], "test", "spec")
      invariant configCommits == MessageCount(cs[..i], "config", "setting")
    {
      assert cs[..i + 1][..i] == cs[..i];
      var msg := ToLower(cs[i].message);
      if Contains(msg, "test") || Contains(msg, "spec") {
        testCommits := testCommits + 1;
      }
      if Contains(msg, "config") || Contains(msg, "setting") {
        configCommits := configCommits + 1;
      }
    }
    var total := |cs|;
    if total > 0 && totalFiles == 0 {
      if testCommits * 2 > total {
        return Sanctuary;
      }
      if configCommits * 2 > total {
        return Treasure;
      }
    }
    return Normal;
  }

  function CountCategory(es: seq<EventData>, c: EventCategory): (n: nat)
    ensures n <= |es|
  {
    if |es| == 0 then 0 else CountCategory(es[..|es| - 1], c) + (if es[|es| - 1].category == c then 1 else 0)
  }

  predicate AnyBossEvent(es: seq<EventData>) {
    exists i :: 0 <= i < |es| && (es[i].category == AllHands || es[i].attendeeCount >= 10)
  }

  /**
    `determine_room_type_from_events`: an all-hands or a meeting of ten or
    more makes a boss room; otherwise a strict majority of focus time and
    breaks a sanctuary, of one-on-ones a treasury; no events, a normal room.
  */
  function RoomTypeFromEvents(es: seq<EventData>): RoomType {
    if AnyBossEvent(es) then Boss
    else if |es| == 0 then Normal
    else if (CountCategory(es, FocusTime) + CountCategory(es, Break)) * 2 > |es| then Sanctuary
    else if CountCategory(es, OneOnOne) * 2 > |es| then Treasure
    else Normal
  }

  /** `determine_room_type_from_events`: a boss scan, then one counting pass over the categories. */
  method DetermineRoomTypeFromEvents(es: seq<EventData>) returns (rt: RoomType)
    ensures rt == RoomTypeFromEvents(es)
  {
    for i := 0 to |es|
      invariant !AnyBossEvent(es[..i])
    {
      if es[i].category == AllHands || es[i].attendeeCount >= 10 {
        assert es[..i + 1][i] == es[i];
        return Boss;
      }
      assert es[..i + 1][..i] == es[..i];
    }
    assert es[..|es|] == es;
    var oneOnOne, focusTime, breaks := 0, 0, 0;
    for i := 0 to |es|
      invariant oneOnOne == CountCategory(es[..i], OneOnOne)
      invariant focusTime == CountCategory(es[..i], FocusTime)
      invariant breaks == CountCategory(es[..i], Break)
    {
      assert es[..i + 1][..i] == es[..i];
      match es[i].category {
        case OneOnOne => oneOnOne := oneOnOne + 1;
        case FocusTime => focusTime := focusTime + 1;
        case Break => breaks := breaks + 1;
        case _ =>
      }
    }
    var total := |es|;
    if total == 0 {
      return Normal;
    }
    if (focusTime + breaks) * 2 > total {
      return Sanctuary;
    }
    if oneOnOne * 2 > total {
      return Treasure;
    }
    return Normal;
  }

  /** The calendar rules: boss dominance, empty days normal, strict majorities otherwise. */
  lemma RoomTypeFromEventsCases(es: seq<EventData>, i: nat)
    ensures i < |es| && es[i].attendeeCount >= 10 ==> RoomTypeFromEvents(es) == Boss
    ensures i < |es| && es[i].category == AllHands ==> RoomTypeFromEvents(es) == Boss
    ensures |es| == 0 ==> RoomTypeFromEvents(es) == Normal
    ensures RoomTypeFromEvents(es) == Sanctuary ==> (CountCategory(es, FocusTime) + CountCategory(es, Break)) * 2 > |es|
    ensures RoomTypeFromEvents(es) == Treasure ==> CountCategory(es, OneOnOne) * 2 > |es|
  {
  }

  // --------------------------------------------------------------- layout

  /** The tile at (x, y) after `generate_layout`, given the tile t there before. */
  function LayoutTile(t: Tile, x: int, y: int, w: int, h: int, rt: RoomType): Tile {
    if x == 0 || y == 0 || x == w - 1 || y == h - 1 then Wall
    else if rt == Sanctuary then HealingZone
    else t
  }

  predicate Shaped(g: seq<seq<Tile>>, w: nat, h: nat) {
    |g| == h && forall j :: 0 <= j < h ==> |g[j]| == w
  }

  /** A w by h grid after `generate_layout`, cell by cell. */
  function Layout(g: seq<seq<Tile>>, w: nat, h: nat, rt: RoomType): (r: seq<seq<Tile>>)
    requires Shaped(g, w, h)
    ensures Shaped(r, w, h)
  {
    seq(h, y requires 0 <= y < h => seq(w, x requires 0 <= x < w => LayoutTile(g[y][x], x, y, w, h, rt)))
  }

  /**
    `generate_layout`: walls all round, and a healing-zone floor in a
    sanctuary; any other room keeps its interior.
  */
  method GenerateLayout(room: Room)
    requires room.Valid()
    modifies room`tiles
    ensures room.Valid()
    ensures room.tiles == Layout(old(room.tiles), room.width, room.height, room.roomType)
  {
    var w := room.width;
    var h := room.height;
    ghost var t0 := room.tiles;
    for x := 0 to w
      invariant room.Valid()
      invariant forall j, i :: 0 <= j < h && 0 <= i < w ==>
        room.tiles[j][i] == if (j == 0 || j == h - 1) && i < x then Wall else t0[j][i]
    {
      room.SetTile(x, 0, Wall);
      room.SetTile(x, h - 1, Wall);
    }
    ghost var t1 := room.tiles;
    for y := 0 to h
      invariant room.Valid()
      invariant forall j, i :: 0 <= j < h && 0 <= i < w ==>
        room.tiles[j][i] == if (i == 0 || i == w - 1) && j < y then Wall else t1[j][i]
    {
      room.SetTile(0, y, Wall);
      room.SetTile(w - 1, y, Wall);
    }
    if room.roomType == Sanctuary {
      ghost var t2 := room.tiles;
      for y := 1 to Max(h - 1, 1)
        invariant room.Valid()
        invariant forall j, i :: 0 <= j < h && 0 <= i < w ==>
          room.tiles[j][i] == if 1 <= j < y && 1 <= i < w - 1 then HealingZone else t2[j][i]
      {
        for x := 1 to Max(w - 1, 1)
          invariant room.Valid()
          invariant forall j, i :: 0 <= j < h && 0 <= i < w ==>
            room.tiles[j][i] == if (1 <= j < y && 1 <= i < w - 1) || (j == y && 1 <= i < x) then HealingZone else t2[j][i]
        {
          room.SetTile(x, y, HealingZone);
        }
      }
    }
    var r := Layout(t0, w, h, room.roomType);
    forall j | 0 <= j < h
      ensures room.tiles[j] == r[j]
    {
    }
  }

  /** The grid a fresh room of this size and type has once laid out. */
  function Blueprint(w: nat, h: nat, rt: RoomType): (r: seq<seq<Tile>>)
    ensures Shaped(r, w, h)
  {
    Layout(FloorGrid(w, h), w, h, rt)
  }

  /**
    A laid-out room is walled in; inside, a sanctuary is all healing zone and
    any other room all floor, so the whole interior is walkable.
  */
  lemma BlueprintCells(w: nat, h: nat, rt: RoomType, x: nat, y: nat)
    requires x < w && y < h
    ensures (x == 0 || y == 0 || x == w - 1 || y == h - 1) ==> Blueprint(w, h, rt)[y][x] == Wall
    ensures 0 < x < w - 1 && 0 < y < h - 1 ==>
      Blueprint(w, h, rt)[y][x] == (if rt == Sanctuary then HealingZone else Floor) &&
      Blueprint(w, h, rt)[y][x].IsWalkable()
  {
  }

  // ---------------------------------------------------------- connections

  /** Room i of n after `place_connections`: an entrance unless first, then an exit unless last. */
  function Connect(g: seq<seq<Tile>>, i: nat, n: nat, w: nat, h: nat): seq<seq<Tile>> {
    var g1 := if i > 0 then SetCell(g, 0, h / 2, Entrance) else g;
    if i + 1 < n then SetCell(g1, w - 1, h / 2, Exit) else g1
  }

  /**
    On a laid-out room of width at least 2, the doors sit on the west and
    east walls of the middle row, exactly where the position in the run asks
    for them, and every other cell is kept.
  */
  lemma ConnectCells(g: seq<seq<Tile>>, i: nat, n: nat, w: nat, h: nat, x: nat, y: nat)
    requires Shaped(g, w, h) && 2 <= w && x < w && y < h
    ensures Shaped(Connect(g, i, n, w, h), w, h)
    ensures Connect(g, i, n, w, h)[y][x] ==
      if x == 0 && y == h / 2 && i > 0 then Entrance
      else if x == w - 1 && y == h / 2 && i + 1 < n then Exit
      else g[y][x]
  {
  }

  /** In a run of several rooms, the first has no entrance and the last no exit; the rest have both. */
  lemma ConnectEnds(g: seq<seq<Tile>>, n: nat, w: nat, h: nat)
    requires Shaped(g, w, h) && 2 <= w && h > 0 && n >= 2
    requires g[h / 2][0] == Wall && g[h / 2][w - 1] == Wall
    ensures Connect(g, 0, n, w, h)[h / 2][0] == Wall && Connect(g, 0, n, w, h)[h / 2][w - 1] == Exit
    ensures Connect(g, n - 1, n, w, h)[h / 2][0] == Entrance && Connect(g, n - 1, n, w, h)[h / 2][w - 1] == Wall
  {
    ConnectCells(g, 0, n, w, h, 0, h / 2);
    ConnectCells(g, 0, n, w, h, w - 1, h / 2);
    ConnectCells(g, n - 1, n, w, h, 0, h / 2);
    ConnectCells(g, n - 1, n, w, h, w - 1, h / 2);
  }

  /** Everything about a room except its tiles: the fields `place_connections` leaves alone. */
  datatype RoomInfo = RoomInfo(
    id: nat, width: nat, height: nat, roomType: RoomType, date: int,
    commits: seq<CommitData>, enemies: seq<Enemy>, items: seq<Item>, cleared: bool)

  function Info(r: Room): RoomInfo
    reads r
  {
    RoomInfo(r.id, r.width, r.height, r.roomType, r.sourceDate, r.sourceCommits, r.enemies, r.items, r.cleared)
  }

  /**
    `place_connections`: every room but the first gets an entrance at
    (0, h/2), every room but the last an exit at (w-1, h/2); only tiles change.
  */
  method PlaceConnections(rooms: seq<Room>)
    requires forall i, j :: 0 <= i < j < |rooms| ==> rooms[i] != rooms[j]
    requires forall i :: 0 <= i < |rooms| ==> rooms[i].Valid()
    modifies set r | r in rooms
    ensures forall i :: 0 <= i < |rooms| ==> rooms[i].Valid()
    ensures forall k :: 0 <= k < |rooms| ==>
      rooms[k].tiles == Connect(old(rooms[k].tiles), k, |rooms|, rooms[k].width, rooms[k].height)
    ensures forall k :: 0 <= k < |rooms| ==> Info(rooms[k]) == old(Info(rooms[k]))
  {
    var n := |rooms|;
    for i := 0 to n
      invariant forall k :: 0 <= k < n ==> rooms[k].Valid() && Info(rooms[k]) == old(Info(rooms[k]))
      invariant forall k :: 0 <= k < n ==>
        rooms[k].tiles == (if k < i then Connect(old(rooms[k].tiles), k, n, rooms[k].width, rooms[k].height) else old(rooms[k].tiles))
    {
      ConnectRoom(rooms[i], i, n);
      assert forall k :: 0 <= k < n && k != i ==> rooms[k] != rooms[i];
    }
  }

  /** One step of `place_connections`: the doors of room i of n. */
  method ConnectRoom(room: Room, i: nat, n: nat)
    requires room.Valid() && i < n
    modifies room`tiles
    ensures room.Valid()
    ensures room.tiles == Connect(old(room.tiles), i, n, room.width, room.height)
  {
    var midY := room.height / 2;
    if i > 0 {
      room.SetTile(0, midY, Entrance);
    }
    if i < n - 1 {
      room.SetTile(room.width - 1, midY, Exit);
    }
  }

  // -------------------------------------------------------- whole dungeons

  /** `generate_room`: size from the day's lines, type from its commits, walls laid. */
  method GenerateRoom(date: int, commits: seq<CommitData>, index: nat) returns (room: Room)
    ensures fresh(room) && room.Valid()
    ensures (room.width, room.height) == CalculateRoomSize(TotalLines(commits))
    ensures room.tiles == Blueprint(room.width, room.height, room.roomType)
    ensures room.roomType == RoomTypeOf(commits) && room.id == index && room.sourceDate == date
    ensures room.sourceCommits == commits && room.enemies == [] && room.items == [] && !room.cleared
  {
    var (w, h) := CalculateRoomSize(TotalLines(commits));
    var rt := DetermineRoomType(commits);
    room := new Room(index, w, h, rt, date);
    room.sourceCommits := commits;
    GenerateLayout(room);
  }

  function TotalIntensity(es: seq<EventData>): nat {
    if |es| == 0 then 0 else TotalIntensity(es[..|es| - 1]) + es[|es| - 1].Intensity()
  }

  /** `generate_room_from_events`: size from the day's intensity, type from its events, walls laid. */
  method GenerateRoomFromEvents(date: int, events: seq<EventData>, index: nat) returns (room: Room)
    ensures fresh(room) && room.Valid()
    ensures (room.width, room.height) == CalculateRoomSizeFromIntensity(TotalIntensity(events))
    ensures room.tiles == Blueprint(room.width, room.height, room.roomType)
    ensures room.roomType == RoomTypeFromEvents(events) && room.id == index && room.sourceDate == date
    ensures room.sourceCommits == [] && room.enemies == [] && room.items == [] && !room.cleared
  {
    var (w, h) := CalculateRoomSizeFromIntensity(TotalIntensity(events));
    var rt := DetermineRoomTypeFromEvents(events);
    room := new Room(index, w, h, rt, date);
    GenerateLayout(room);
  }

  /** Room i of a run of n, built for `day`, laid out and connected. */
  ghost predicate Generated(r: Room, i: nat, n: nat, day: int)
    reads r
  {
    r.Valid() && r.id == i && r.sourceDate == day &&
    r.tiles == Connect(Blueprint(r.width, r.height, r.roomType), i, n, r.width, r.height) &&
    r.enemies == [] && r.items == [] && !r.cleared
  }

  ghost predicate Distinct(rooms: seq<Room>) {
    forall i, j :: 0 <= i < j < |rooms| ==> rooms[i] != rooms[j]
  }

  /** The rooms of `generate_dungeon`'s loop, one per day group, before connections. */
  method GitRooms(grouped: Groups<CommitData>) returns (rooms: seq<Room>)
    ensures |rooms| == |grouped| && Distinct(rooms)
    ensures forall i :: 0 <= i < |rooms| ==> fresh(rooms[i])
    ensures forall i :: 0 <= i < |rooms| ==>
      rooms[i].Valid() && rooms[i].tiles == Blueprint(rooms[i].width, rooms[i].height, rooms[i].roomType) &&
      rooms[i].id == i && rooms[i].sourceDate == grouped[i].0 && rooms[i].sourceCommits == grouped[i].1 &&
      rooms[i].roomType == RoomTypeOf(grouped[i].1) &&
      (rooms[i].width, rooms[i].height) == CalculateRoomSize(TotalLines(grouped[i].1)) &&
      rooms[i].enemies == [] && rooms[i].items == [] && !rooms[i].cleared
  {
    rooms := [];
    for index := 0 to |grouped|
      invariant |rooms| == index && Distinct(rooms)
      invariant forall i :: 0 <= i < index ==> fresh(rooms[i])
      invariant forall i :: 0 <= i < index ==>
        rooms[i].Valid() && rooms[i].tiles == Blueprint(rooms[i].width, rooms[i].height, rooms[i].roomType) &&
        rooms[i].id == i && rooms[i].sourceDate == grouped[i].0 && rooms[i].sourceCommits == grouped[i].1 &&
        rooms[i].roomType == RoomTypeOf(grouped[i].1) &&
        (rooms[i].width, rooms[i].height) == CalculateRoomSize(TotalLines(grouped[i].1)) &&
        rooms[i].enemies == [] && rooms[i].items == [] && !rooms[i].cleared
    {
      var room := GenerateRoom(grouped[index].0, grouped[index].1, index);
      rooms := rooms + [room];
    }
  }

  /**
    `generate_dungeon`: one room per distinct commit day, in ascending day
    order, with id equal to its position; each holds that day's commits, is
    typed by them, walled in and connected to its neighbours; the player
    starts in the first.
  */
  method GenerateDungeon(gitData: seq<CommitData>) returns (world: World)
    ensures fresh(world) && world.currentRoom == 0
    ensures |world.rooms| == |GroupAll(gitData, CommitDay)| && Distinct(world.rooms)
    ensures forall i :: 0 <= i < |world.rooms| ==>
      Generated(world.rooms[i], i, |world.rooms|, GroupAll(gitData, CommitDay)[i].0) &&
      world.rooms[i].sourceCommits == GroupAll(gitData, CommitDay)[i].1 &&
      world.rooms[i].roomType == RoomTypeOf(GroupAll(gitData, CommitDay)[i].1) &&
      (world.rooms[i].width, world.rooms[i].height) == CalculateRoomSize(TotalLines(GroupAll(gitData, CommitDay)[i].1))
    ensures forall i, j :: 0 <= i < j < |world.rooms| ==> world.rooms[i].sourceDate < world.rooms[j].sourceDate
  {
    var grouped := GitParser.GroupByDate(gitData);
    var rooms := GitRooms(grouped);
    PlaceConnections(rooms);
    world := new World(rooms);
  }

  /** The rooms of `generate_dungeon_from_calendar`'s loop, one per day group, before connections. */
  method CalendarRooms(grouped: Groups<EventData>) returns (rooms: seq<Room>)
    ensures |rooms| == |grouped| && Distinct(rooms)
    ensures forall i :: 0 <= i < |rooms| ==> fresh(rooms[i])
    ensures forall i :: 0 <= i < |rooms| ==>
      rooms[i].Valid() && rooms[i].tiles == Blueprint(rooms[i].width, rooms[i].height, rooms[i].roomType) &&
      rooms[i].id == i && rooms[i].sourceDate == grouped[i].0 && rooms[i].sourceCommits == [] &&
      rooms[i].roomType == RoomTypeFromEvents(grouped[i].1) &&
      (rooms[i].width, rooms[i].height) == CalculateRoomSizeFromIntensity(TotalIntensity(grouped[i].1)) &&
      rooms[i].enemies == [] && rooms[i].items == [] && !rooms[i].cleared
  {
    rooms := [];
    for index := 0 to |grouped|
      invariant |rooms| == index && Distinct(rooms)
      invariant forall i :: 0 <= i < index ==> fresh(rooms[i])
      invariant forall i :: 0 <= i < index ==>
        rooms[i].Valid() && rooms[i].tiles == Blueprint(rooms[i].width, rooms[i].height, rooms[i].roomType) &&
        rooms[i].id == i && rooms[i].sourceDate == grouped[i].0 && rooms[i].sourceCommits == [] &&
        rooms[i].roomType == RoomTypeFromEvents(grouped[i].1) &&
        (rooms[i].width, rooms[i].height) == CalculateRoomSizeFromIntensity(TotalIntensity(grouped[i].1)) &&
        rooms[i].enemies == [] && rooms[i].items == [] && !rooms[i].cleared
    {
      var room := GenerateRoomFromEvents(grouped[index].0, grouped[index].1, index);
      rooms := rooms + [room];
    }
  }

  /**
    `generate_dungeon_from_calendar`: the same assembly over calendar days,
    each room sized and typed by that day's events.
  */
  method GenerateDungeonFromCalendar(events: seq<EventData>) returns (world: World)
    ensures fresh(world) && world.currentRoom == 0
    ensures |world.rooms| == |GroupAll(events, EventDay)| && Distinct(world.rooms)
    ensures forall i :: 0 <= i < |world.rooms| ==>
      Generated(world.rooms[i], i, |world.rooms|, GroupAll(events, EventDay)[i].0) &&
      world.rooms[i].sourceCommits == [] &&
      world.rooms[i].roomType == RoomTypeFromEvents(GroupAll(events, EventDay)[i].1) &&
      (world.rooms[i].width, world.rooms[i].height) ==
        CalculateRoomSizeFromIntensity(TotalIntensity(GroupAll(events, EventDay)[i].1))
    ensures forall i, j :: 0 <= i < j < |world.rooms| ==> world.rooms[i].sourceDate < world.rooms[j].sourceDate
  {
    var grouped := CalendarParser.GroupByDate(events);
    var rooms := CalendarRooms(grouped);
    PlaceConnections(rooms);
    world := new World(rooms);
  }
}

=== FILE: git_parser.dfy ===
/**
  The pure part of the git reader (src/git/parser.rs): grouping commits by
  day and classifying changed paths.  Walking a repository through libgit2
  is not part of this model; a diff is given as the sequence of its deltas'
  paths (the new path, else the old one, else none).
*/
module GitParser {
  import opened Wrappers
  import opened Text
  import opened GitTypes
  import opened Grouping

  function CommitDay(c: CommitData): int {
    c.DateNaive()
  }

  /**
    `group_by_date`: one entry per distinct day, days ascending, each holding
    that day's commits in input order, with every commit in exactly one entry.
  */
  method GroupByDate(commits: seq<CommitData>) returns (g: Groups<CommitData>)
    ensures g == GroupAll(commits, CommitDay)
    ensures Ascending(g) && NonEmptyGroups(g) && TotalSize(g) == |commits|
    ensures forall j :: 0 <= j < |g| ==> g[j].1 == Filter(commits, CommitDay, g[j].0)
  {
    g := GroupBy(commits, CommitDay);
  }

  /** `is_test_file`. */
  predicate IsTestFile(path: string) {
    Contains(path, "test") || Contains(path, "spec") || StartsWith(path, "tests/")
  }

  /** The `starts_with("tests/")` test adds nothing: such a path already contains "test". */
  lemma IsTestFileIff(path: string)
    ensures IsTestFile(path) <==> Contains(path, "test") || Contains(path, "spec")
  {
    if StartsWith(path, "tests/") {
      assert path[..4] == "test";
      assert StartsWith(path, "test");
    }
  }

  /** `is_config_file`: one of six configuration suffixes. */
  predicate IsConfigFile(path: string) {
    EndsWith(path, ".json") || EndsWith(path, ".toml") || EndsWith(path, ".yaml") ||
    EndsWith(path, ".yml") || EndsWith(path, ".conf") || EndsWith(path, ".config")
  }

  /** `is_doc_file`: one of three documentation suffixes. */
  predicate IsDocFile(path: string) {
    EndsWith(path, ".md") || EndsWith(path, ".txt") || EndsWith(path, ".rst")
  }

  datatype FileKind = TestFile | ConfigFile | DocFile | OtherFile

  /** The counter a path goes to: test before config before doc, on the lower-cased path. */
  function Classify(path: string): FileKind {
    var p := ToLower(path);
    if IsTestFile(p) then TestFile
    else if IsConfigFile(p) then ConfigFile
    else if IsDocFile(p) then DocFile
    else OtherFile
  }

  /** Case does not matter: a path and its lower-cased form go to the same counter. */
  lemma ClassifyIgnoresCase(path: string)
    ensures Classify(path) == Classify(ToLower(path))
  {
    ToLowerIdempotent(path);
  }

  /** A path is a test file exactly when it mentions "test" or "spec" in any case; the directory rule adds nothing. */
  lemma ClassifyTestIff(path: string)
    ensures Classify(path) == TestFile <==> Contains(ToLower(path), "test") || Contains(ToLower(path), "spec")
  {
    IsTestFileIff(ToLower(path));
  }

  /** Everything under a `tests/` directory, in any case, is a test file, whatever its suffix. */
  lemma ClassifyTestsDirectory(rest: string)
    ensures Classify("tests/" + rest) == TestFile
    ensures Classify("TESTS/" + rest) == TestFile
  {
    ToLowerConcat("tests/", rest);
    ToLowerConcat("TESTS/", rest);
    assert ToLower("TESTS/") == ToLower("tests/") == "tests/";
    assert StartsWith(ToLower("tests/" + rest), "tests/");
  }

  function Count(fc: FileCategories, k: FileKind): FileCategories {
    match k
    case TestFile => fc.(testFiles := fc.testFiles + 1)
    case ConfigFile => fc.(configFiles := fc.configFiles + 1)
    case DocFile => fc.(docFiles := fc.docFiles + 1)
    case OtherFile => fc.(otherFiles := fc.otherFiles + 1)
  }

  /** The counters after every delta, first to last. */
  function CategorizeAll(paths: seq<Option<string>>): FileCategories {
    if |paths| == 0 then NoCategories
    else
      var fc := CategorizeAll(paths[..|paths| - 1]);
      match paths[|paths| - 1]
      case None => fc
      case Some(p) => Count(fc, Classify(p))
  }

  /** Number of deltas that carry a path. */
  function PathCount(paths: seq<Option<string>>): nat {
    if |paths| == 0 then 0 else PathCount(paths[..|paths| - 1]) + (if paths[|paths| - 1].Some? then 1 else 0)
  }

  /** Every delta with a path is counted exactly once; path-less deltas are ignored. */
  lemma {:induction false} CategorizeCountsEachPath(paths: seq<Option<string>>)
    ensures CategorizeAll(paths).Total() == PathCount(paths)
    decreases |paths|
  {
    if |paths| > 0 {
      CategorizeCountsEachPath(paths[..|paths| - 1]);
    }
  }

  /** `categorize_files`: one pass over the deltas, bumping one counter per path. */
  method CategorizeFiles(paths: seq<Option<string>>) returns (fc: FileCategories)
    ensures fc == CategorizeAll(paths)
    ensures fc.Total() == PathCount(paths)
  {
    fc := NoCategories;
    for i := 0 to |paths|
      invariant fc == CategorizeAll(paths[..i])
    {
      assert paths[..i + 1][..i] == paths[..i];
      match paths[i] {
        case None =>
        case Some(p) =>
          var lower := ToLower(p);
          if IsTestFile(lower) {
            fc := fc.(testFiles := fc.testFiles + 1);
          } else if IsConfigFile(lower) {
            fc := fc.(configFiles := fc.configFiles + 1);
          } else if IsDocFile(lower) {
            fc := fc.(docFiles := fc.docFiles + 1);
          } else {
            fc := fc.(otherFiles := fc.otherFiles + 1);
          }
      }
    }
    assert paths[..|paths|] == paths;
    CategorizeCountsEachPath(paths);
  }

  /** Precedence example: a JSON file whose name mentions tests counts as a test file. */
  lemma TestBeatsConfig()
    ensures Classify("test.json") == TestFile
    ensures IsConfigFile("test.json")
  {
    assert ToLower("test.json") == "test.json";
    assert StartsWith("test.json", "test");
  }
}

=== FILE: git_types.dfy ===
/**
  Commit records (src/git/types.rs).  The parser and the generator read a
  `file_categories` field that the struct in src/git/types.rs does not
  declare; the model includes it, as the parser fills it.
  Timestamps are seconds since the Unix epoch; dates are day numbers.
*/
module GitTypes {

  datatype FileCategories = FileCategories(testFiles: nat, configFiles: nat, docFiles: nat, otherFiles: nat) {
    function Total(): nat {
      testFiles + configFiles + docFiles + otherFiles
    }
  }

  const NoCategories := FileCategories(0, 0, 0, 0)

  datatype CommitData = CommitData(
    hash: string,
    date: int,
    message: string,
    insertions: nat,
    deletions: nat,
    filesChanged: nat,
    author: string,
    isMerge: bool,
    fileCategories: FileCategories)
  {
    /** `lines_changed`: insertions plus deletions. */
    function LinesChanged(): nat {
      insertions + deletions
    }

    /** `date_naive`: the UTC calendar day of the commit. */
    function DateNaive(): int {
      DayOf(date)
    }
  }

  const SecondsPerDay := 86400

  /** The UTC day number of a timestamp (flooring, also before the epoch). */
  function DayOf(ts: int): (d: int)
    ensures d * SecondsPerDay <= ts < (d + 1) * SecondsPerDay
  {
    ts / SecondsPerDay
  }
}

=== FILE: grouping.dfy ===
/**
  Grouping values by an integer key into an ordered map, as both
  `group_by_date` functions do with a `BTreeMap<NaiveDate, Vec<_>>` and
  `entry(key).or_default().push(value)`.  The map is its entry sequence in
  ascending key order.
*/
module Grouping {

  type Groups<T> = seq<(int, seq<T>)>

  /** Keys strictly ascending, as a `BTreeMap` iterates them. */
  predicate Ascending<T>(g: Groups<T>) {
    forall i, j :: 0 <= i < j < |g| ==> g[i].0 < g[j].0
  }

  /** Every entry holds at least one value. */
  predicate NonEmptyGroups<T>(g: Groups<T>) {
    forall i :: 0 <= i < |g| ==> |g[i].1| > 0
  }

  /** The group stored under k, or the empty sequence when there is none. */
  function Lookup<T>(g: Groups<T>, k: int): seq<T> {
    if |g| == 0 then [] else if g[0].0 == k then g[0].1 else Lookup(g[1..], k)
  }

  /** The values of s whose key is k, in input order. */
  function Filter<T>(s: seq<T>, key: T -> int, k: int): seq<T> {
    if |s| == 0 then []
    else Filter(s[..|s| - 1], key, k) + (if key(s[|s| - 1]) == k then [s[|s| - 1]] else [])
  }

  /** The number of values stored in all groups. */
  function TotalSize<T>(g: Groups<T>): nat {
    if |g| == 0 then 0 else |g[0].1| + TotalSize(g[1..])
  }

  /** `entry(k).or_default().push(v)`: append to k's group, creating it in key order. */
  function Insert<T>(g: Groups<T>, k: int, v: T): Groups<T> {
    if |g| == 0 then [(k, [v])]
    else if g[0].0 == k then [(k, g[0].1 + [v])] + g[1..]
    else if k < g[0].0 then [(k, [v])] + g
    else [g[0]] + Insert(g[1..], k, v)
  }

  /** The map after inserting every value of s, first to last. */
  function GroupAll<T>(s: seq<T>, key: T -> int): Groups<T> {
    if |s| == 0 then []
    else Insert(GroupAll(s[..|s| - 1], key), key(s[|s| - 1]), s[|s| - 1])
  }

  /** A key below the first key of an ascending map has no group. */
  lemma {:induction false} LookupBelow<T>(g: Groups<T>, k: int)
    requires Ascending(g) && (|g| == 0 || k < g[0].0)
    ensures Lookup(g, k) == []
    decreases |g|
  {
    if |g| > 1 {
      assert g[0].0 < g[1].0;
      LookupBelow(g[1..], k);
    }
  }

  lemma {:induction false} InsertLookup<T>(g: Groups<T>, k: int, v: T, k': int)
    requires Ascending(g)
    ensures Lookup(Insert(g, k, v), k') == if k' == k then Lookup(g, k) + [v] else Lookup(g, k')
    decreases |g|
  {
    if |g| > 0 && g[0].0 != k && k >= g[0].0 {
      InsertLookup(g[1..], k, v, k');
      assert Insert(g, k, v)[1..] == Insert(g[1..], k, v);
    } else if |g| > 0 && g[0].0 == k {
      assert Insert(g, k, v)[1..] == g[1..];
    } else if |g| > 0 {
      assert Insert(g, k, v)[1..] == g;
      LookupBelow(g, k);
    }
  }

  /** The first key after insertion is the smaller of k and the old first key. */
  lemma InsertHead<T>(g: Groups<T>, k: int, v: T)
    ensures |Insert(g, k, v)| > 0
    ensures Insert(g, k, v)[0].0 == if |g| == 0 || k < g[0].0 then k else g[0].0
  {
  }

  lemma {:induction false} InsertKeeps<T>(g: Groups<T>, k: int, v: T)
    requires Ascending(g) && NonEmptyGroups(g)
    ensures Ascending(Insert(g, k, v)) && NonEmptyGroups(Insert(g, k, v))
    ensures TotalSize(Insert(g, k, v)) == TotalSize(g) + 1
    decreases |g|
  {
    var r := Insert(g, k, v);
    if |g| == 0 {
    } else if g[0].0 == k {
      assert r[1..] == g[1..];
      assert forall i :: 1 <= i < |r| ==> r[i] == g[i];
    } else if k < g[0].0 {
      assert r[1..] == g;
      assert forall i :: 1 <= i < |r| ==> r[i] == g[i - 1];
    } else {
      InsertKeeps(g[1..], k, v);
      InsertHead(g[1..], k, v);
      var t := Insert(g[1..], k, v);
      assert r[1..] == t;
      assert forall i :: 1 <= i < |r| ==> r[i] == t[i - 1];
      assert g[0].0 < t[0].0;
      forall i, j | 0 <= i < j < |r|
        ensures r[i].0 < r[j].0
      {
        if i == 0 {
          assert t[0].0 <= t[j - 1].0 || j - 1 == 0;
        }
      }
    }
  }

  lemma {:induction false} LookupEntry<T>(g: Groups<T>, j: int)
    requires Ascending(g) && 0 <= j < |g|
    ensures Lookup(g, g[j].0) == g[j].1
    decreases |g|
  {
    if j > 0 {
      assert g[0].0 < g[j].0;
      LookupEntry(g[1..], j - 1);
    }
  }

  /**
    The grouping is correct: keys ascending, each key's group is exactly the
    values with that key in input order, no group is empty, and no value is
    lost or duplicated.
  */
  lemma {:induction false} GroupAllSpec<T>(s: seq<T>, key: T -> int)
    ensures Ascending(GroupAll(s, key)) && NonEmptyGroups(GroupAll(s, key))
    ensures forall k :: Lookup(GroupAll(s, key), k) == Filter(s, key, k)
    ensures TotalSize(GroupAll(s, key)) == |s|
    decreases |s|
  {
    if |s| > 0 {
      var init := s[..|s| - 1];
      var x := s[|s| - 1];
      GroupAllSpec(init, key);
      InsertKeeps(GroupAll(init, key), key(x), x);
      forall k
        ensures Lookup(GroupAll(s, key), k) == Filter(s, key, k)
      {
        InsertLookup(GroupAll(init, key), key(x), x, k);
      }
    }
  }

  /** Each entry of the grouping holds exactly the values with its key. */
  lemma GroupEntries<T>(s: seq<T>, key: T -> int)
    ensures forall j :: 0 <= j < |GroupAll(s, key)| ==>
      GroupAll(s, key)[j].1 == Filter(s, key, GroupAll(s, key)[j].0)
  {
    GroupAllSpec(s, key);
    forall j | 0 <= j < |GroupAll(s, key)|
      ensures GroupAll(s, key)[j].1 == Filter(s, key, GroupAll(s, key)[j].0)
    {
      LookupEntry(GroupAll(s, key), j);
    }
  }

  /** The loop of both `group_by_date` functions: insert each value in turn. */
  method GroupBy<T>(s: seq<T>, key: T -> int) returns (g: Groups<T>)
    ensures g == GroupAll(s, key)
    ensures Ascending(g) && NonEmptyGroups(g) && TotalSize(g) == |s|
    ensures forall j :: 0 <= j < |g| ==> g[j].1 == Filter(s, key, g[j].0)
  {
    g := [];
    for i := 0 to |s|
      invariant g == GroupAll(s[..i], key)
    {
      assert s[..i + 1][..i] == s[..i];
      g := Insert(g, key(s[i]), s[i]);
    }
    assert s[..|s|] == s;
    GroupAllSpec(s, key);
    GroupEntries(s, key);
  }
}

=== FILE: item_definition.dfy ===
/** The item record and its by-value builders (src/item/definition.rs). */
module Items {
  import opened Wrappers
  import opened ItemTypes

  datatype Item = Item(
    name: string,
    itemType: ItemType,
    effect: ItemEffect,
    rarity: Rarity,
    sourceCommit: Option<string>,
    x: int,
    y: int)
  {
    /** `at(x, y)`: the same item placed at (x, y). */
    function At(x: int, y: int): Item {
      this.(x := x, y := y)
    }

    /** `from_commit(hash)`: the same item tagged with its originating commit. */
    function FromCommit(hash: string): Item {
      this.(sourceCommit := Some(hash))
    }
  }

  /** `Item::new`: no source commit, placed at the origin. */
  function NewItem(name: string, itemType: ItemType, effect: ItemEffect, rarity: Rarity): Item {
    Item(name, itemType, effect, rarity, None, 0, 0)
  }

  /** A new item keeps what it was given, has no commit and sits at (0, 0). */
  lemma NewItemFields(name: string, t: ItemType, e: ItemEffect, r: Rarity)
    ensures var it := NewItem(name, t, e, r);
      it.name == name && it.itemType == t && it.effect == e && it.rarity == r &&
      it.sourceCommit == None && it.x == 0 && it.y == 0
  {
  }

  /** `at` moves the item and touches nothing else. */
  lemma AtOnlyMoves(it: Item, x: int, y: int)
    ensures it.At(x, y).x == x && it.At(x, y).y == y
    ensures it.At(x, y).(x := it.x, y := it.y) == it
  {
  }

  /** `from_commit` sets the commit and touches nothing else. */
  lemma FromCommitOnlyTags(it: Item, hash: string)
    ensures it.FromCommit(hash).sourceCommit == Some(hash)
    ensures it.FromCommit(hash).(sourceCommit := it.sourceCommit) == it
  {
  }

  /** The two builders write disjoint fields, so their order does not matter. */
  lemma BuildersCommute(it: Item, x: int, y: int, hash: string)
    ensures it.At(x, y).FromCommit(hash) == it.FromCommit(hash).At(x, y)
  {
  }
}

=== FILE: item_types.dfy ===
/** Item categories, rarities, stats and effects (src/item/types.rs). */
module ItemTypes {

  datatype ItemType = Consumable | Equipment | Scroll

  datatype Rarity = Common | Uncommon | Rare | Legendary {
    /** Position in the order Common < Uncommon < Rare < Legendary. */
    function Rank(): nat {
      match this
      case Common => 0
      case Uncommon => 1
      case Rare => 2
      case Legendary => 3
    }
  }

  datatype Stat = MaxHp | MaxEnergy | Focus | Damage

  /** Effects; `Buff` carries the stat, the amount and the duration in turns. */
  datatype ItemEffect =
    | Heal(amount: int)
    | RestoreEnergy(amount: int)
    | Damage(amount: int)
    | Buff(stat: Stat, amount: int, duration: nat)
    | RevealMap
}

=== FILE: player.dfy ===
/** The player character (src/entity/player.rs); every operation updates it in place. */
module Players {
  import opened EntityTypes
  import opened Items
  import opened RustInt

  const InventoryCapacity := 10
  const XpPerLevel := 100

  /** The levelling part of the player's state. */
  datatype Growth = Growth(level: nat, xp: nat, maxHp: int, hp: int)

  /**
    `add_xp` on values: add the xp; if it reaches `level * 100`, subtract that
    threshold once, gain a level and 10 max hp, and refill hp.  The flag says
    whether a level was gained.
  */
  function GainXp(g: Growth, amount: nat): (r: (Growth, bool))
    ensures r.1 <==> g.xp + amount >= g.level * XpPerLevel
    ensures r.1 ==> r.0 == Growth(g.level + 1, g.xp + amount - g.level * XpPerLevel, g.maxHp + 10, g.maxHp + 10)
    ensures !r.1 ==> r.0 == g.(xp := g.xp + amount)
  {
    var xp := g.xp + amount;
    var threshold := g.level * XpPerLevel;
    if xp >= threshold then
      (Growth(g.level + 1, xp - threshold, g.maxHp + 10, g.maxHp + 10), true)
    else
      (g.(xp := xp), false)
  }

  /** All experience ever earned: the thresholds of the levels passed plus the current xp. */
  function TotalXp(level: nat, xp: nat): nat
    requires level >= 1
  {
    if level == 1 then xp else TotalXp(level - 1, xp + (level - 1) * XpPerLevel)
  }

  /** No experience is lost: `add_xp` adds exactly its amount to the total earned. */
  lemma {:induction false} GainXpConservesTotal(g: Growth, amount: nat)
    requires g.level >= 1
    ensures GainXp(g, amount).0.level >= 1
    ensures TotalXp(GainXp(g, amount).0.level, GainXp(g, amount).0.xp) == TotalXp(g.level, g.xp) + amount
  {
    var r := GainXp(g, amount).0;
    if GainXp(g, amount).1 {
      assert r.xp + g.level * XpPerLevel == g.xp + amount;
      assert TotalXp(g.level + 1, r.xp) == TotalXp(g.level, g.xp + amount);
      TotalXpShift(g.level, g.xp, amount);
    } else {
      TotalXpShift(g.level, g.xp, amount);
    }
  }

  lemma {:induction false} TotalXpShift(level: nat, xp: nat, extra: nat)
    requires level >= 1
    ensures TotalXp(level, xp + extra) == TotalXp(level, xp) + extra
    decreases level
  {
    if level > 1 {
      TotalXpShift(level - 1, xp + (level - 1) * XpPerLevel, extra);
      assert xp + extra + (level - 1) * XpPerLevel == xp + (level - 1) * XpPerLevel + extra;
    }
  }

  /**
    At most one level per award: when the xp was below its threshold and the award
    is no larger than one level's worth, the xp ends below the new threshold.
  */
  lemma GainXpStaysBelowThreshold(g: Growth, amount: nat)
    requires g.level >= 1 && g.xp < g.level * XpPerLevel && amount <= XpPerLevel
    ensures GainXp(g, amount).0.xp < GainXp(g, amount).0.level * XpPerLevel
  {
  }

  /**
    Killing a MergeConflict (50 xp), a Regression (20) and a TechDebt (30) from
    level 1 with no xp fires exactly one level-up, on the last award, leaving
    level 2, no xp and hp refilled to the raised maximum.
  */
  lemma XpScenario(maxHp: int, hp: int)
    ensures var a := GainXp(Growth(1, 0, maxHp, hp), 50);
      var b := GainXp(a.0, 20);
      var c := GainXp(b.0, 30);
      !a.1 && !b.1 && c.1 && c.0 == Growth(2, 0, maxHp + 10, maxHp + 10)
  {
  }

  /** (hp, focus, damage) at creation, by class. */
  function ClassStats(c: PlayerClass): (int, int, int) {
    match c
    case CodeWarrior => (50, 50, 20)
    case MeetingSurvivor => (70, 50, 10)
    case InboxKnight => (50, 60, 10)
    case Wanderer => (55, 55, 15)
  }

  /** Every field of a player, by name. */
  datatype Sheet = Sheet(x: int, y: int, hp: int, maxHp: int, energy: int, maxEnergy: int, focus: int, maxFocus: int,
                         damage: int, inventory: seq<Item>, playerClass: PlayerClass, level: nat, xp: nat, defending: bool)

  class Player {
    var x: int
    var y: int
    var hp: int
    var maxHp: int
    var energy: int
    var maxEnergy: int
    var focus: int
    var maxFocus: int
    var damage: int
    var inventory: seq<Item>
    var playerClass: PlayerClass
    var level: nat
    var xp: nat
    var defending: bool

    /** Energy never exceeds its maximum, the pack holds at most 10 items, levels start at 1. */
    ghost predicate Valid()
      reads this`energy, this`maxEnergy, this`inventory, this`level
    {
      energy <= maxEnergy && |inventory| <= InventoryCapacity && level >= 1
    }

    /** The whole player as a value, so that a change can be stated as a record update. */
    function SheetOf(): Sheet
      reads this
    {
      Sheet(x, y, hp, maxHp, energy, maxEnergy, focus, maxFocus, damage, inventory, playerClass, level, xp, defending)
    }

    /** Every field of the player agrees with `s`. */
    lemma Matches(s: Sheet)
      requires x == s.x && y == s.y && hp == s.hp && maxHp == s.maxHp && energy == s.energy && maxEnergy == s.maxEnergy
      requires focus == s.focus && maxFocus == s.maxFocus && damage == s.damage
      requires inventory == s.inventory && playerClass == s.playerClass
      requires level == s.level && xp == s.xp && defending == s.defending
      ensures SheetOf() == s
    {
    }

    function GrowthOf(): Growth
      reads this`level, this`xp, this`maxHp, this`hp
    {
      Growth(level, xp, maxHp, hp)
    }

    /** `Player::new`: the class table, full 100/100 energy, level 1, at (1, 1). */
    constructor (c: PlayerClass)
      ensures Valid()
      ensures (hp, focus, damage) == ClassStats(c) && maxHp == hp && maxFocus == focus
      ensures energy == 100 && maxEnergy == 100
      ensures level == 1 && xp == 0 && !defending && inventory == [] && playerClass == c
      ensures x == 1 && y == 1
    {
      var (hpBonus, focusBonus, damageBonus) :=
        match c
        case CodeWarrior => (0, 0, 10)
        case MeetingSurvivor => (20, 0, 0)
        case InboxKnight => (0, 10, 0)
        case Wanderer => (5, 5, 5);
      x, y := 1, 1;
      hp, maxHp := 50 + hpBonus, 50 + hpBonus;
      energy, maxEnergy := 100, 100;
      focus, maxFocus := 50 + focusBonus, 50 + focusBonus;
      damage := 10 + damageBonus;
      inventory := [];
      playerClass := c;
      level, xp := 1, 0;
      defending := false;
    }

    /**
      `take_damage`: a defending player takes half (rounded toward zero), at
      least one point is always taken, and the stance is dropped.
    */
    method TakeDamage(amount: int) returns (alive: bool)
      modifies this`hp, this`defending
      ensures hp == old(hp) - Max(if old(defending) then TruncDiv(amount, 2) else amount, 1)
      ensures !defending
      ensures alive <==> hp > 0
      ensures x == old(x) && y == old(y) && maxHp == old(maxHp) && energy == old(energy)
      ensures maxEnergy == old(maxEnergy) && focus == old(focus) && maxFocus == old(maxFocus)
      ensures damage == old(damage) && inventory == old(inventory) && playerClass == old(playerClass)
      ensures level == old(level) && xp == old(xp)
    {
      var actual := if defending then TruncDiv(amount, 2) else amount;
      hp := hp - Max(actual, 1);
      defending := false;
      alive := hp > 0;
    }

    /** `heal`: hp rises by the amount but not above the maximum. */
    method Heal(amount: int)
      modifies this`hp
      ensures hp == Min(old(hp) + amount, maxHp)
    {
      hp := Min(hp + amount, maxHp);
    }

    /**
      `use_energy`: succeeds exactly when enough energy is left, and only then
      spends it.  Every caller passes a non-negative cost.
    */
    method UseEnergy(amount: int) returns (ok: bool)
      requires Valid()
      modifies this`energy
      ensures amount >= 0 ==> Valid()
      ensures ok <==> old(energy) >= amount
      ensures energy == if ok then old(energy) - amount else old(energy)
    {
      if energy >= amount {
        energy := energy - amount;
        ok := true;
      } else {
        ok := false;
      }
    }

    /** `regen_energy`: energy rises by the amount but not above the maximum. */
    method RegenEnergy(amount: int)
      requires Valid()
      modifies this`energy
      ensures Valid()
      ensures energy == Min(old(energy) + amount, maxEnergy)
    {
      energy := Min(energy + amount, maxEnergy);
    }

    /** `add_xp`: the levelling rule `GainXp`, applied in place. */
    method AddXp(amount: nat) returns (leveled: bool)
      requires Valid()
      modifies this`xp, this`level, this`maxHp, this`hp
      ensures Valid()
      ensures (GrowthOf(), leveled) == GainXp(old(GrowthOf()), amount)
      ensures SheetOf() == old(SheetOf()).(hp := hp, maxHp := maxHp, level := level, xp := xp)
    {
      xp := xp + amount;
      var threshold := level * XpPerLevel;
      if xp >= threshold {
        xp := xp - threshold;
        level := level + 1;
        maxHp := maxHp + 10;
        hp := maxHp;
        leveled := true;
      } else {
        leveled := false;
      }
    }

    /** `pickup_item`: accepted exactly while fewer than 10 items are carried. */
    method PickupItem(item: Item) returns (ok: bool)
      requires Valid()
      modifies this`inventory
      ensures Valid()
      ensures ok <==> |old(inventory)| < InventoryCapacity
      ensures inventory == if ok then old(inventory) + [item] else old(inventory)
    {
      if |inventory| < InventoryCapacity {
        inventory := inventory + [item];
        ok := true;
      } else {
        ok := false;
      }
    }
  }
}

=== FILE: progression.dfy ===
/**
  Meta-progression kept between runs (src/game/progression.rs): run
  statistics, the essence currency, class unlocks and five purchasable
  upgrades.  Loading and saving the record are not part of this model.
*/
module Progress {
  import opened Wrappers
  import opened RustInt
  import opened EntityTypes

  datatype UpgradeKind = HpUpgrade | EnergyUpgrade | DamageUpgrade | WeaponUpgrade | LuckUpgrade {
    /** `Upgrades::MAX_*`. */
    function MaxLevel(): nat {
      match this
      case HpUpgrade => 5
      case EnergyUpgrade => 5
      case DamageUpgrade => 3
      case WeaponUpgrade => 2
      case LuckUpgrade => 3
    }
  }

  /** The purchased upgrade levels. */
  datatype Upgrades = Upgrades(hpBonus: nat, energyBonus: nat, damageBonus: nat, startingWeapon: nat, lootLuck: nat) {
    function Level(k: UpgradeKind): nat {
      match k
      case HpUpgrade => hpBonus
      case EnergyUpgrade => energyBonus
      case DamageUpgrade => damageBonus
      case WeaponUpgrade => startingWeapon
      case LuckUpgrade => lootLuck
    }

    /** This record with one level replaced; the other four are kept. */
    function WithLevel(k: UpgradeKind, n: nat): (u: Upgrades)
      ensures u.Level(k) == n
      ensures forall j :: j != k ==> u.Level(j) == Level(j)
    {
      match k
      case HpUpgrade => this.(hpBonus := n)
      case EnergyUpgrade => this.(energyBonus := n)
      case DamageUpgrade => this.(damageBonus := n)
      case WeaponUpgrade => this.(startingWeapon := n)
      case LuckUpgrade => this.(lootLuck := n)
    }

    predicate WithinMax() {
      forall k: UpgradeKind :: Level(k) <= k.MaxLevel()
    }

    function BonusHp(): int { hpBonus * 5 }
    function BonusEnergy(): int { energyBonus * 2 }
    function BonusDamage(): int { damageBonus }
    function LootLuckBonus(): int { lootLuck * 5 }
  }

  const NoUpgrades := Upgrades(0, 0, 0, 0, 0)

  /** `Upgrades::cost`: 10, 25, 50, 100, 200 for levels 0 to 4, then 500. */
  function Cost(level: nat): (c: nat)
    ensures c >= 10
  {
    match level
    case 0 => 10
    case 1 => 25
    case 2 => 50
    case 3 => 100
    case 4 => 200
    case _ => 500
  }

  /** Each level costs at least as much as the one before, strictly more up to level 5. */
  lemma CostGrows(a: nat, b: nat)
    requires a < b
    ensures Cost(a) <= Cost(b)
    ensures b <= 5 ==> Cost(a) < Cost(b)
  {
  }

  /** Essence needed to buy an upgrade from level `from` up to level `to`. */
  function CostBetween(from: nat, to: nat): nat
    decreases to - from
  {
    if from >= to then 0 else Cost(from) + CostBetween(from + 1, to)
  }

  /**
    Within their caps, the bonuses are bounded: at most +25 hp, +10 energy,
    +3 damage and +15% loot luck, and buying every level costs 385 essence
    for hp or energy, 85 for damage or luck, 35 for the weapon.
  */
  lemma UpgradeBounds(u: Upgrades)
    requires u.WithinMax()
    ensures 0 <= u.BonusHp() <= 25 && 0 <= u.BonusEnergy() <= 10
    ensures 0 <= u.BonusDamage() <= 3 && 0 <= u.LootLuckBonus() <= 15
    ensures CostBetween(0, HpUpgrade.MaxLevel()) == 385 && CostBetween(0, DamageUpgrade.MaxLevel()) == 85
    ensures CostBetween(0, WeaponUpgrade.MaxLevel()) == 35
  {
    assert u.Level(HpUpgrade) <= 5 && u.Level(EnergyUpgrade) <= 5;
    assert u.Level(DamageUpgrade) <= 3 && u.Level(LuckUpgrade) <= 3;
  }

  class Progression {
    var totalRuns: nat
    var victories: nat
    var totalKills: nat
    var totalRooms: nat
    var essence: nat
    var unlockedClasses: set<string>
    var unlockedItems: set<string>
    var upgrades: Upgrades
    var bestRooms: nat
    var fastestVictory: Option<nat>

    /** No upgrade beyond its cap, and never more victories than runs. */
    ghost predicate Valid()
      reads this
    {
      upgrades.WithinMax() && victories <= totalRuns
    }

    /** `Progression::new`: everything zero, only the CodeWarrior class unlocked. */
    constructor ()
      ensures Valid()
      ensures totalRuns == 0 && victories == 0 && totalKills == 0 && totalRooms == 0 && essence == 0
      ensures unlockedClasses == {CodeWarrior.Name()} && unlockedItems == {}
      ensures upgrades == NoUpgrades && bestRooms == 0 && fastestVictory == None
    {
      totalRuns, victories, totalKills, totalRooms, essence := 0, 0, 0, 0, 0;
      unlockedClasses := {CodeWarrior.Name()};
      unlockedItems := {};
      upgrades := NoUpgrades;
      bestRooms := 0;
      fastestVictory := None;
    }

    /** `is_class_unlocked`: the class's name is in the unlock set. */
    predicate IsClassUnlocked(c: PlayerClass)
      reads this
    {
      c.Name() in unlockedClasses
    }

    /**
      `complete_run`: one more run, kills and rooms added to the totals,
      essence up by one per kill, five per room and twenty for a victory; a
      victory counts and can only lower the fastest time; the best room
      count is the larger of the old one and this run's.
    */
    method CompleteRun(victory: bool, kills: nat, rooms: nat, turns: nat)
      requires Valid()
      modifies this
      ensures Valid()
      ensures totalRuns == old(totalRuns) + 1
      ensures totalKills == old(totalKills) + kills && totalRooms == old(totalRooms) + rooms
      ensures essence == old(essence) + kills + 5 * rooms + (if victory then 20 else 0)
      ensures victories == old(victories) + (if victory then 1 else 0)
      ensures !victory ==> fastestVictory == old(fastestVictory)
      ensures victory ==> fastestVictory == Some(if old(fastestVictory).Some? then Min(old(fastestVictory).value, turns) else turns)
      ensures bestRooms == Max(old(bestRooms), rooms)
      ensures unlockedClasses == old(unlockedClasses) && unlockedItems == old(unlockedItems) && upgrades == old(upgrades)
    {
      totalRuns := totalRuns + 1;
      totalKills := totalKills + kills;
      totalRooms := totalRooms + rooms;
      var earned := kills;
      earned := earned + rooms * 5;
      if victory {
        victories := victories + 1;
        earned := earned + 20;
        match fastestVictory {
          case Some(best) =>
            if turns < best {
              fastestVictory := Some(turns);
            }
          case None =>
            fastestVictory := Some(turns);
        }
      }
      essence := essence + earned;
      if rooms > bestRooms {
        bestRooms := rooms;
      }
    }

    /**
      `unlock_class`: refused, with nothing changed, when the essence is
      short or the class is already unlocked; otherwise the cost is paid and
      the class added.
    */
    method UnlockClass(c: PlayerClass, cost: nat) returns (ok: bool)
      modifies this`essence, this`unlockedClasses
      ensures ok <==> old(essence) >= cost && !old(IsClassUnlocked(c))
      ensures ok ==> essence == old(essence) - cost && unlockedClasses == old(unlockedClasses) + {c.Name()}
      ensures !ok ==> essence == old(essence) && unlockedClasses == old(unlockedClasses)
      ensures ok ==> IsClassUnlocked(c)
    {
      if essence < cost {
        return false;
      }
      var name := c.Name();
      if name in unlockedClasses {
        return false;
      }
      essence := essence - cost;
      unlockedClasses := unlockedClasses + {name};
      return true;
    }

    /**
      `upgrade_hp`, `upgrade_energy`, `upgrade_damage`, `upgrade_weapon` and
      `upgrade_loot_luck`, one rule for all five: refused, with nothing
      changed, at the cap or when the essence is short of the next level's
      cost; otherwise that cost is paid and that upgrade alone rises by one.
      Essence never goes below zero and no level passes its cap.
    */
    method Upgrade(k: UpgradeKind) returns (ok: bool)
      modifies this`essence, this`upgrades
      ensures ok <==> old(upgrades.Level(k)) < k.MaxLevel() && old(essence) >= Cost(old(upgrades.Level(k)))
      ensures ok ==> essence == old(essence) - Cost(old(upgrades.Level(k))) &&
                     upgrades == old(upgrades).WithLevel(k, old(upgrades.Level(k)) + 1)
      ensures !ok ==> essence == old(essence) && upgrades == old(upgrades)
      ensures old(upgrades.WithinMax()) ==> upgrades.WithinMax()
    {
      var level := upgrades.Level(k);
      if level >= k.MaxLevel() {
        return false;
      }
      var cost := Cost(level);
      if essence < cost {
        return false;
      }
      essence := essence - cost;
      upgrades := upgrades.WithLevel(k, level + 1);
      return true;
    }
  }
}

=== FILE: room.dfy ===
/**
  A room of the dungeon (src/world/room.rs).  Rooms are mutated in place by
  the generator and the game loop, so `Room` is a class.  The random number
  generator used when spawning is a parameter `draws`: the k-th call
  `gen_range(lo..hi)` of one spawning call yields `lo + draws(k) % (hi - lo)`.
*/
module Rooms {
  import opened Wrappers
  import opened Text
  import opened RustInt
  import opened Tiles
  import opened EntityTypes
  import opened Enemies
  import opened ItemTypes
  import opened Items
  import opened GitTypes
  import opened Effects
  import opened RoomTypes

  /** A cell (x, y); x grows eastward, y southward. */
  type Pos = (int, int)

  /** A w by h grid of floor. */
  function FloorGrid(w: nat, h: nat): (g: seq<seq<Tile>>)
    ensures |g| == h && forall y :: 0 <= y < h ==> |g[y]| == w && forall x :: 0 <= x < w ==> g[y][x] == Floor
  {
    seq(h, _ => seq(w, _ => Floor))
  }

  /** A grid with the cell at (x, y) replaced, or unchanged when (x, y) is off the grid. */
  function SetCell(g: seq<seq<Tile>>, x: int, y: int, t: Tile): (r: seq<seq<Tile>>)
    ensures |r| == |g| && forall j :: 0 <= j < |g| ==> |r[j]| == |g[j]|
    ensures forall j, i :: 0 <= j < |g| && 0 <= i < |g[j]| ==> r[j][i] == if j == y && i == x then t else g[j][i]
  {
    if 0 <= y < |g| && 0 <= x < |g[y]| then g[y := g[y][x := t]] else g
  }

  /** Index of the first element standing on p, as `iter().find` / `position` scan. */
  function IndexAt<T>(s: seq<T>, at: T -> Pos, p: Pos): (r: Option<nat>)
    ensures r.Some? ==> r.value < |s| && at(s[r.value]) == p
    ensures r.Some? ==> forall j :: 0 <= j < r.value ==> at(s[j]) != p
    ensures r.None? ==> forall j :: 0 <= j < |s| ==> at(s[j]) != p
    decreases |s|
  {
    if |s| == 0 then None
    else if at(s[0]) == p then Some(0)
    else match IndexAt(s[1..], at, p)
      case None => None
      case Some(i) => Some(i + 1)
  }

  function EnemyPos(e: Enemy): Pos {
    (e.x, e.y)
  }

  function ItemPos(it: Item): Pos {
    (it.x, it.y)
  }

  /** Cell a comes strictly before cell b in row-major order. */
  predicate Before(a: Pos, b: Pos) {
    a.1 < b.1 || (a.1 == b.1 && a.0 < b.0)
  }

  predicate RowMajor(ps: seq<Pos>) {
    forall i, j :: 0 <= i < j < |ps| ==> Before(ps[i], ps[j])
  }

  predicate NoDup<T(==)>(s: seq<T>) {
    forall i, j :: 0 <= i < j < |s| ==> s[i] != s[j]
  }

  function RemoveAt<T>(s: seq<T>, i: nat): (r: seq<T>)
    requires i < |s|
    ensures |r| == |s| - 1
  {
    s[..i] + s[i + 1..]
  }

  /**
    The cells taken by `n` rounds of "pick a random index, remove that cell",
    using draws k, k+1, ...; it stops early when the cells run out.
  */
  function Picks(ps: seq<Pos>, n: nat, draws: nat -> nat, k: nat): (r: seq<Pos>)
    ensures |r| == Min(n, |ps|)
    decreases n
  {
    if n == 0 || |ps| == 0 then []
    else
      var i := draws(k) % |ps|;
      [ps[i]] + Picks(RemoveAt(ps, i), n - 1, draws, k + 1)
  }

  /**
    The spawning loops of `spawn_enemies` and `spawn_items`: up to `n` times,
    draw an index below the number of remaining cells, take that cell out
    and keep it; stop when no cell remains.  The draws do not depend on what
    is spawned, so the cells can be chosen before the entities are built.
  */
  method TakeCells(ps: seq<Pos>, n: nat, draws: nat -> nat, k: nat) returns (picks: seq<Pos>)
    ensures picks == Picks(ps, n, draws, k)
  {
    var positions := ps;
    picks := [];
    var i := 0;
    PicksAfterSpec([], ps, n, draws, k);
    assert [] + Picks(ps, n, draws, k) == Picks(ps, n, draws, k);
    while i < n && |positions| > 0
      invariant 0 <= i <= n
      invariant PicksAfter(picks, positions, n - i, draws, k + i) == Picks(ps, n, draws, k)
      decreases n - i
    {
      var idx := draws(k + i) % |positions|;
      picks := picks + [positions[idx]];
      positions := RemoveAt(positions, idx);
      i := i + 1;
    }
  }

  /** The cells already picked followed by those `Picks` would still take. */
  function PicksAfter(acc: seq<Pos>, ps: seq<Pos>, n: nat, draws: nat -> nat, k: nat): (r: seq<Pos>)
    decreases n
  {
    if n == 0 || |ps| == 0 then acc
    else
      var i := draws(k) % |ps|;
      PicksAfter(acc + [ps[i]], RemoveAt(ps, i), n - 1, draws, k + 1)
  }

  /** Picking with cells already in hand only puts them in front. */
  lemma {:induction false} PicksAfterSpec(acc: seq<Pos>, ps: seq<Pos>, n: nat, draws: nat -> nat, k: nat)
    ensures PicksAfter(acc, ps, n, draws, k) == acc + Picks(ps, n, draws, k)
    decreases n
  {
    if n > 0 && |ps| > 0 {
      var i := draws(k) % |ps|;
      PicksAfterSpec(acc + [ps[i]], RemoveAt(ps, i), n - 1, draws, k + 1);
      assert acc + [ps[i]] + Picks(RemoveAt(ps, i), n - 1, draws, k + 1) == acc + ([ps[i]] + Picks(RemoveAt(ps, i), n - 1, draws, k + 1));
    }
  }

  /** Every picked cell is one of the candidates. */
  lemma {:induction false} PicksSubset(ps: seq<Pos>, n: nat, draws: nat -> nat, k: nat)
    ensures forall p :: p in Picks(ps, n, draws, k) ==> p in ps
    decreases n
  {
    if n > 0 && |ps| > 0 {
      var i := draws(k) % |ps|;
      PicksSubset(RemoveAt(ps, i), n - 1, draws, k + 1);
      forall p | p in RemoveAt(ps, i)
        ensures p in ps
      {
        var j :| 0 <= j < |RemoveAt(ps, i)| && RemoveAt(ps, i)[j] == p;
        assert p == ps[if j < i then j else j + 1];
      }
    }
  }

  /** Removing one element keeps a duplicate-free sequence duplicate-free and loses that element. */
  lemma RemoveAtNoDup<T>(s: seq<T>, i: nat)
    requires i < |s| && NoDup(s)
    ensures NoDup(RemoveAt(s, i)) && s[i] !in RemoveAt(s, i)
  {
    var r := RemoveAt(s, i);
    forall a, b | 0 <= a < b < |r|
      ensures r[a] != r[b]
    {
      var a' := if a < i then a else a + 1;
      var b' := if b < i then b else b + 1;
      assert r[a] == s[a'] && r[b] == s[b'];
    }
    forall j | 0 <= j < |r|
      ensures r[j] != s[i]
    {
      var j' := if j < i then j else j + 1;
      assert r[j] == s[j'];
    }
  }

  /** Picked cells are pairwise distinct when the candidates are. */
  lemma {:induction false} PicksDistinct(ps: seq<Pos>, n: nat, draws: nat -> nat, k: nat)
    requires NoDup(ps)
    ensures NoDup(Picks(ps, n, draws, k))
    decreases n
  {
    if n > 0 && |ps| > 0 {
      var i := draws(k) % |ps|;
      RemoveAtNoDup(ps, i);
      PicksDistinct(RemoveAt(ps, i), n - 1, draws, k + 1);
      PicksSubset(RemoveAt(ps, i), n - 1, draws, k + 1);
      var tail := Picks(RemoveAt(ps, i), n - 1, draws, k + 1);
      assert ps[i] !in tail;
      var r := [ps[i]] + tail;
      forall a, b | 0 <= a < b < |r|
        ensures r[a] != r[b]
      {
        if a == 0 {
          assert r[b] == tail[b - 1];
        } else {
          assert r[a] == tail[a - 1] && r[b] == tail[b - 1];
        }
      }
    }
  }

  /** Two row-major runs, the first wholly before the second, make one. */
  lemma RowMajorConcat(a: seq<Pos>, b: seq<Pos>)
    requires RowMajor(a) && RowMajor(b)
    requires forall p, q :: p in a && q in b ==> Before(p, q)
    ensures RowMajor(a + b)
  {
    var r := a + b;
    forall i, j | 0 <= i < j < |r|
      ensures Before(r[i], r[j])
    {
      if j < |a| {
        assert r[i] == a[i] && r[j] == a[j];
      } else if i < |a| {
        assert r[i] in a && r[j] in b;
      } else {
        assert r[i] == b[i - |a|] && r[j] == b[j - |a|];
      }
    }
  }

  /** A row-major sorted sequence has no duplicates. */
  lemma RowMajorNoDup(ps: seq<Pos>)
    requires RowMajor(ps)
    ensures NoDup(ps)
  {
    forall i, j | 0 <= i < j < |ps|
      ensures ps[i] != ps[j]
    {
      assert Before(ps[i], ps[j]);
    }
  }

  /**
    `enemy_type_from_commit`: merges are MergeConflicts, revert/rollback
    messages Regressions, debt/refactor/cleanup messages TechDebt, small
    commits (under 20 lines) Bugs, and everything else TechDebt.
  */
  function EnemyTypeFromCommit(c: CommitData): EnemyType {
    var msg := ToLower(c.message);
    if c.isMerge then MergeConflict
    else if HasEither(msg, "revert", "rollback") then Regression
    else if HasEither(msg, "debt", "refactor") || Contains(msg, "cleanup") then TechDebt
    else if c.LinesChanged() < 20 then Bug
    else TechDebt
  }

  /** Exactly merges give MergeConflicts; Bugs come exactly from small, unlabelled, non-merge commits. */
  lemma EnemyTypeFromCommitCases(c: CommitData)
    ensures var msg := ToLower(c.message);
      var t := EnemyTypeFromCommit(c);
      (t == MergeConflict <==> c.isMerge) &&
      (t == Regression <==> !c.isMerge && HasEither(msg, "revert", "rollback")) &&
      (t == Bug <==> (!c.isMerge && !HasEither(msg, "revert", "rollback") &&
        !HasEither(msg, "debt", "refactor") && !Contains(msg, "cleanup") && c.LinesChanged() < 20))
  {
  }

  /** `rarity_from_lines`: Legendary above 500, Rare above 200, Uncommon above 50. */
  function RarityFromLines(lines: nat): Rarity {
    if lines > 500 then Legendary
    else if lines > 200 then Rare
    else if lines > 50 then Uncommon
    else Common
  }

  /**
    The room's rarity rule uses strict bounds where `calculate_rarity` uses
    inclusive ones: it is that rule shifted by one line, and the two differ
    exactly at 50, 200 and 500 lines.
  */
  lemma RarityRulesDiffer(lines: nat)
    ensures RarityFromLines(lines) == CalculateRarity(if lines == 0 then 0 else lines - 1)
    ensures RarityFromLines(lines) != CalculateRarity(lines) <==> lines in {50, 200, 500}
  {
  }

  /**
    `item_from_commit`: documentation commits give a map scroll, test commits
    a potion, config or settings commits a five-turn focus buff, anything
    else an energy vial; amounts grow with the rarity of the commit's size.
  */
  function ItemFromCommit(c: CommitData): (it: Item)
    ensures it.rarity == RarityFromLines(c.LinesChanged())
    ensures it.sourceCommit == Some(c.hash) && it.x == 0 && it.y == 0
    ensures (it.itemType == Scroll) <==> it.effect.RevealMap?
  {
    var msg := ToLower(c.message);
    var rarity := RarityFromLines(c.LinesChanged());
    var (name, itemType, effect) :=
      if HasEither(msg, "doc", "readme") then
        ("Map Scroll", Scroll, RevealMap)
      else if Contains(msg, "test") then
        ("Health Potion", Consumable, Heal(ByRarity(rarity, 10, 20, 35, 50)))
      else if HasEither(msg, "config", "settings") then
        ("Focus Crystal", Consumable, Buff(Focus, ByRarity(rarity, 2, 4, 6, 10), 5))
      else
        ("Energy Vial", Consumable, RestoreEnergy(ByRarity(rarity, 5, 10, 20, 30)));
    NewItem(name, itemType, effect, rarity).FromCommit(c.hash)
  }

  /** Which effect a commit's message selects, and its amount by rarity. */
  lemma ItemFromCommitCases(c: CommitData)
    ensures var msg := ToLower(c.message);
      var it := ItemFromCommit(c);
      (HasEither(msg, "doc", "readme") ==> it.effect == RevealMap) &&
      (!HasEither(msg, "doc", "readme") && Contains(msg, "test") ==>
        it.effect == Heal(ByRarity(it.rarity, 10, 20, 35, 50))) &&
      (!HasEither(msg, "doc", "readme") && !Contains(msg, "test") && HasEither(msg, "config", "settings") ==>
        it.effect == Buff(Focus, ByRarity(it.rarity, 2, 4, 6, 10), 5)) &&
      (!HasEither(msg, "doc", "readme") && !Contains(msg, "test") && !HasEither(msg, "config", "settings") ==>
        it.effect == RestoreEnergy(ByRarity(it.rarity, 5, 10, 20, 30)))
  {
  }

  /** How many enemies a non-sanctuary room spawns at most: min(commits, area / 4, 10). */
  function EnemyCount(width: nat, height: nat, commits: seq<CommitData>): (n: nat)
    ensures n <= |commits| && n <= 10 && n <= width * height / 4
  {
    Min(Min(|commits|, width * height / 4), 10)
  }

  /** The j-th spawned enemy comes from the j-th commit and stands on the j-th picked cell. */
  function SpawnedEnemies(commits: seq<CommitData>, picks: seq<Pos>): (es: seq<Enemy>)
    requires |picks| <= |commits|
    ensures |es| == |picks|
  {
    seq(|picks|, j requires 0 <= j < |picks| =>
      NewEnemy(EnemyTypeFromCommit(commits[j]), picks[j].0, picks[j].1, commits[j].hash))
  }

  /** How many items a room asks for: 2 or 3 in a treasury (first draw), else commits / 4 clamped to 1..3. */
  function ItemCount(rt: RoomType, commits: seq<CommitData>, draws: nat -> nat): (n: nat)
    ensures 1 <= n <= 3
    ensures rt == Treasure ==> n >= 2
  {
    if rt == Treasure then 2 + draws(0) % 2
    else Max(Min(|commits| / 4, 3), 1)
  }

  /** The j-th spawned item comes from the j-th commit and lies on the j-th picked cell. */
  function SpawnedItems(commits: seq<CommitData>, picks: seq<Pos>): (its: seq<Item>)
    requires |picks| <= |commits|
    ensures |its| == |picks|
  {
    seq(|picks|, j requires 0 <= j < |picks| => ItemFromCommit(commits[j]).At(picks[j].0, picks[j].1))
  }

  class Room {
    const id: nat
    var tiles: seq<seq<Tile>>
    const width: nat
    const height: nat
    var enemies: seq<Enemy>
    var items: seq<Item>
    const sourceDate: int
    var sourceCommits: seq<CommitData>
    const roomType: RoomType
    var cleared: bool

    /** Dimensions fit in a byte and the grid has `height` rows of `width` tiles. */
    ghost predicate Valid()
      reads this`tiles
    {
      width < 256 && height < 256 && |tiles| == height &&
      forall j :: 0 <= j < |tiles| ==> |tiles[j]| == width
    }

    /** `Room::new`: an all-floor grid with no enemies, items or commits. */
    constructor (id: nat, width: nat, height: nat, roomType: RoomType, date: int)
      requires width < 256 && height < 256
      ensures Valid()
      ensures tiles == FloorGrid(width, height)
      ensures this.id == id && this.width == width && this.height == height
      ensures this.roomType == roomType && sourceDate == date
      ensures enemies == [] && items == [] && sourceCommits == [] && !cleared
    {
      this.id := id;
      this.tiles := FloorGrid(width, height);
      this.width := width;
      this.height := height;
      this.enemies := [];
      this.items := [];
      this.sourceDate := date;
      this.sourceCommits := [];
      this.roomType := roomType;
      this.cleared := false;
    }

    /** `is_walkable`: inside the grid and on a walkable tile. */
    predicate IsWalkable(x: int, y: int)
      requires Valid()
      reads this
    {
      0 <= x < width && 0 <= y < height && tiles[y][x].IsWalkable()
    }

    /** `get_tile`: the tile at (x, y), or nothing off the grid. */
    function GetTile(x: int, y: int): (r: Option<Tile>)
      reads this
      ensures r.Some? <==> 0 <= y < |tiles| && 0 <= x < |tiles[y]|
      ensures r.Some? ==> r.value == tiles[y][x]
    {
      if x < 0 || y < 0 then None
      else if y < |tiles| && x < |tiles[y]| then Some(tiles[y][x])
      else None
    }

    /** `set_tile`: replaces the tile at (x, y) when it is on the grid; nothing else changes. */
    method SetTile(x: int, y: int, t: Tile)
      modifies this`tiles
      ensures tiles == SetCell(old(tiles), x, y, t)
      ensures |tiles| == |old(tiles)| && forall j :: 0 <= j < |tiles| ==> |tiles[j]| == |old(tiles[j])|
      ensures old(Valid()) ==> Valid()
      ensures forall i, j :: GetTile(i, j) == if i == x && j == y && old(GetTile(i, j)).Some? then Some(t) else old(GetTile(i, j))
    {
      if x >= 0 && y >= 0 {
        if y < |tiles| && x < |tiles[y]| {
          tiles := tiles[y := tiles[y][x := t]];
        }
      }
    }

    /** `get_enemy_at`: the first enemy standing on (x, y). */
    function GetEnemyAt(x: int, y: int): (r: Option<Enemy>)
      reads this
      ensures r.Some? ==> r.value.x == x && r.value.y == y
      ensures r.Some? ==> (exists i :: 0 <= i < |enemies| && enemies[i] == r.value &&
                             (forall j :: 0 <= j < i ==> !(enemies[j].x == x && enemies[j].y == y)))
      ensures r.None? <==> forall e :: e in enemies ==> !(e.x == x && e.y == y)
    {
      match IndexAt(enemies, EnemyPos, (x, y))
      case None => None
      case Some(i) =>
        assert forall j :: 0 <= j < i ==> EnemyPos(enemies[j]) != (x, y);
        Some(enemies[i])
    }

    /** `get_item_at`: the first item lying on (x, y). */
    function GetItemAt(x: int, y: int): (r: Option<Item>)
      reads this
      ensures r.Some? ==> r.value.x == x && r.value.y == y
      ensures r.Some? ==> (exists i :: 0 <= i < |items| && items[i] == r.value &&
                             (forall j :: 0 <= j < i ==> !(items[j].x == x && items[j].y == y)))
      ensures r.None? <==> forall it :: it in items ==> !(it.x == x && it.y == y)
    {
      match IndexAt(items, ItemPos, (x, y))
      case None => None
      case Some(i) =>
        assert forall j :: 0 <= j < i ==> ItemPos(items[j]) != (x, y);
        Some(items[i])
    }

    /** `is_cleared`: no enemies left, or the room was marked cleared. */
    predicate IsCleared()
      reads this
    {
      |enemies| == 0 || cleared
    }

    /** An interior, walkable cell with no enemy and no item on it. */
    predicate IsFree(x: int, y: int)
      requires Valid()
      reads this
    {
      1 <= x < width - 1 && 1 <= y < height - 1 && IsWalkable(x, y) &&
      GetEnemyAt(x, y).None? && GetItemAt(x, y).None?
    }

    /** The free cells of row y from column x on, west to east. */
    function FreeRow(y: int, x: int): seq<Pos>
      requires Valid()
      reads this
      decreases width - x
    {
      if x >= width - 1 then []
      else (if IsFree(x, y) then [(x, y)] else []) + FreeRow(y, x + 1)
    }

    /** The free cells from row y on, in row-major order. */
    function FreeFrom(y: int): seq<Pos>
      requires Valid()
      reads this
      decreases height - y
    {
      if y >= height - 1 then [] else FreeRow(y, 1) + FreeFrom(y + 1)
    }

    /** All free cells, in the order `get_free_positions` visits them. */
    function FreeCells(): seq<Pos>
      requires Valid()
      reads this
    {
      FreeFrom(1)
    }

    lemma {:induction false} FreeRowSpec(y: int, x: int)
      requires Valid()
      ensures forall p :: p in FreeRow(y, x) <==> p.1 == y && p.0 >= x && IsFree(p.0, p.1)
      ensures RowMajor(FreeRow(y, x))
      decreases width - x
    {
      if x < width - 1 {
        FreeRowSpec(y, x + 1);
        var tail := FreeRow(y, x + 1);
        var r := (if IsFree(x, y) then [(x, y)] else []) + tail;
        assert forall p :: p in r <==> (IsFree(x, y) && p == (x, y)) || p in tail;
        forall i, j | 0 <= i < j < |r|
          ensures Before(r[i], r[j])
        {
          if IsFree(x, y) && i == 0 {
            assert r[j] in tail;
          }
        }
      }
    }

    lemma {:induction false} FreeFromSpec(y: int)
      requires Valid()
      ensures forall p :: p in FreeFrom(y) <==> p.1 >= y && IsFree(p.0, p.1)
      ensures RowMajor(FreeFrom(y))
      decreases height - y
    {
      if y < height - 1 {
        FreeRowSpec(y, 1);
        FreeFromSpec(y + 1);
        var row := FreeRow(y, 1);
        var rest := FreeFrom(y + 1);
        assert forall p :: p in row + rest <==> p in row || p in rest;
        RowMajorConcat(row, rest);
      }
    }

    /**
      The free cells are exactly the interior, walkable, unoccupied cells,
      each listed once, in row-major order.
    */
    lemma FreeCellsSpec()
      requires Valid()
      ensures forall p :: p in FreeCells() <==> IsFree(p.0, p.1)
      ensures RowMajor(FreeCells()) && NoDup(FreeCells())
    {
      FreeFromSpec(1);
      RowMajorNoDup(FreeCells());
    }

    /** `get_free_positions`: the free cells, scanning rows top to bottom and each row west to east. */
    method GetFreePositions() returns (ps: seq<Pos>)
      requires Valid()
      ensures ps == FreeCells()
    {
      ps := [];
      var y := 1;
      while y < height - 1
        invariant ps + FreeFrom(y) == FreeCells()
        decreases height - y
      {
        ghost var before := ps;
        var x := 1;
        while x < width - 1
          invariant ps + FreeRow(y, x) == before + FreeRow(y, 1)
          decreases width - x
        {
          ghost var cell := if IsFree(x, y) then [(x, y)] else [];
          ghost var ps0 := ps;
          assert FreeRow(y, x) == cell + FreeRow(y, x + 1);
          if IsWalkable(x, y) && GetEnemyAt(x, y).None? && GetItemAt(x, y).None? {
            ps := ps + [(x, y)];
          }
          assert ps + FreeRow(y, x + 1) == ps0 + FreeRow(y, x);
          x := x + 1;
        }
        assert FreeRow(y, x) == [];
        assert FreeFrom(y) == FreeRow(y, 1) + FreeFrom(y + 1);
        assert ps + FreeFrom(y + 1) == before + FreeRow(y, 1) + FreeFrom(y + 1);
        y := y + 1;
      }
    }

    /**
      `spawn_enemies`: nothing in a sanctuary; otherwise one enemy per commit,
      for the first `EnemyCount` commits, each on a free cell drawn at random
      and removed from the candidates, until the cells run out.
    */
    method SpawnEnemies(commits: seq<CommitData>, draws: nat -> nat)
      requires Valid()
      modifies this`enemies
      ensures roomType == Sanctuary ==> enemies == old(enemies)
      ensures roomType != Sanctuary ==>
        enemies == old(enemies) + SpawnedEnemies(commits, Picks(old(FreeCells()), EnemyCount(width, height, commits), draws, 0))
    {
      if roomType == Sanctuary {
        return;
      }
      var count := Min(Min(|commits|, width * height / 4), 10);
      var positions := GetFreePositions();
      if |positions| == 0 || count == 0 {
        return;
      }
      var picks := TakeCells(positions, count, draws, 0);
      enemies := enemies + SpawnedEnemies(commits, picks);
    }

    /**
      `spawn_items`: nothing when no cell is free; otherwise one item per
      commit, for at most `ItemCount` commits, each on a free cell drawn at
      random (after the treasury's count draw) and removed from the candidates.
    */
    method SpawnItems(commits: seq<CommitData>, draws: nat -> nat)
      requires Valid()
      modifies this`items
      ensures old(FreeCells()) == [] ==> items == old(items)
      ensures items == old(items) + SpawnedItems(commits,
        Picks(old(FreeCells()), Min(ItemCount(roomType, commits, draws), |commits|), draws, if roomType == Treasure then 1 else 0))
    {
      var positions := GetFreePositions();
      if |positions| == 0 {
        return;
      }
      var count := if roomType == Treasure then 2 + draws(0) % 2 else Max(Min(|commits| / 4, 3), 1);
      var first := if roomType == Treasure then 1 else 0;
      var picks := TakeCells(positions, Min(count, |commits|), draws, first);
      items := items + SpawnedItems(commits, picks);
    }

    /**
      What spawning guarantees: enemies stand on distinct cells that were free,
      one per commit up to min(count, free cells), at their kind's full health.
    */
    lemma SpawnedEnemiesPlacement(commits: seq<CommitData>, draws: nat -> nat)
      requires Valid()
      ensures var es := SpawnedEnemies(commits, Picks(FreeCells(), EnemyCount(width, height, commits), draws, 0));
        |es| == Min(EnemyCount(width, height, commits), |FreeCells()|) && |es| <= 10 &&
        (forall j :: 0 <= j < |es| ==> IsFree(es[j].x, es[j].y) && es[j].hp == es[j].maxHp == es[j].enemyType.BaseHp()) &&
        (forall i, j :: 0 <= i < j < |es| ==> (es[i].x, es[i].y) != (es[j].x, es[j].y))
    {
      FreeCellsSpec();
      var picks := Picks(FreeCells(), EnemyCount(width, height, commits), draws, 0);
      PicksDistinct(FreeCells(), EnemyCount(width, height, commits), draws, 0);
      PicksSubset(FreeCells(), EnemyCount(width, height, commits), draws, 0);
      var es := SpawnedEnemies(commits, picks);
      forall j | 0 <= j < |es|
        ensures IsFree(es[j].x, es[j].y)
      {
        assert (es[j].x, es[j].y) == picks[j];
        assert picks[j] in FreeCells();
      }
      forall i, j | 0 <= i < j < |es|
        ensures (es[i].x, es[i].y) != (es[j].x, es[j].y)
      {
        assert (es[i].x, es[i].y) == picks[i] && (es[j].x, es[j].y) == picks[j];
      }
    }

    /** Spawned items lie on distinct cells that were free, at most three of them. */
    lemma SpawnedItemsPlacement(commits: seq<CommitData>, draws: nat -> nat)
      requires Valid()
      ensures var first := if roomType == Treasure then 1 else 0;
        var its := SpawnedItems(commits, Picks(FreeCells(), Min(ItemCount(roomType, commits, draws), |commits|), draws, first));
        |its| <= 3 &&
        (forall j :: 0 <= j < |its| ==> IsFree(its[j].x, its[j].y)) &&
        (forall i, j :: 0 <= i < j < |its| ==> (its[i].x, its[i].y) != (its[j].x, its[j].y))
    {
      FreeCellsSpec();
      var first := if roomType == Treasure then 1 else 0;
      var n := Min(ItemCount(roomType, commits, draws), |commits|);
      var picks := Picks(FreeCells(), n, draws, first);
      PicksDistinct(FreeCells(), n, draws, first);
      PicksSubset(FreeCells(), n, draws, first);
      var its := SpawnedItems(commits, picks);
      forall j | 0 <= j < |its|
        ensures IsFree(its[j].x, its[j].y)
      {
        assert (its[j].x, its[j].y) == picks[j];
        assert picks[j] in FreeCells();
      }
      forall i, j | 0 <= i < j < |its|
        ensures (its[i].x, its[i].y) != (its[j].x, its[j].y)
      {
        assert (its[i].x, its[i].y) == picks[i] && (its[j].x, its[j].y) == picks[j];
      }
    }

    /** `is_walkable` agrees with `get_tile`: on the grid and a walkable tile. */
    lemma IsWalkableViaGetTile(x: int, y: int)
      requires Valid()
      ensures IsWalkable(x, y) <==> GetTile(x, y).Some? && GetTile(x, y).value.IsWalkable()
    {
    }
  }
}

=== FILE: room_types.dfy ===
/** Room kinds (src/world/types.rs). */
module RoomTypes {

  datatype RoomType = Normal | Sanctuary | Treasure | Boss {
    /** The display name shown when the player enters the room. */
    function Name(): (r: string)
      ensures |r| > 0
    {
      match this
      case Normal => "Room"
      case Sanctuary => "Sanctuary"
      case Treasure => "Treasury"
      case Boss => "Boss Chamber"
    }
  }

  /** The name table, and every kind has its own display name. */
  lemma RoomNamesDistinct(a: RoomType, b: RoomType)
    ensures Normal.Name() == "Room" && Sanctuary.Name() == "Sanctuary"
    ensures Treasure.Name() == "Treasury" && Boss.Name() == "Boss Chamber"
    ensures a.Name() == b.Name() <==> a == b
  {
  }
}

=== FILE: rust_int.dfy ===
/**
  Rust integer operators whose meaning differs from Dafny's: `/` on `i32`
  truncates toward zero (Dafny's `/` is Euclidean), `signum`, `abs`, `max`, `min`.
  Integers are otherwise unbounded; 32-bit overflow is not modelled.
*/
module RustInt {

  function Abs(a: int): (r: nat)
    ensures r == a || r == -a
  {
    if a < 0 then -a else a
  }

  function Max(a: int, b: int): (r: int)
    ensures r >= a && r >= b && (r == a || r == b)
  {
    if a >= b then a else b
  }

  function Min(a: int, b: int): (r: int)
    ensures r <= a && r <= b && (r == a || r == b)
  {
    if a <= b then a else b
  }

  function Signum(a: int): (r: int)
    ensures r == 0 <==> a == 0
    ensures r == 1 <==> a > 0
    ensures r == -1 <==> a < 0
  {
    if a > 0 then 1 else if a < 0 then -1 else 0
  }

  /** Integer division rounding toward zero, as Rust's `/` on signed integers. */
  function TruncDiv(a: int, b: int): (q: int)
    requires b > 0
    ensures a >= 0 ==> q == a / b
    ensures a < 0 ==> q == -((-a) / b) && q <= 0
  {
    if a >= 0 then a / b else -((-a) / b)
  }
}

=== FILE: state.dfy ===
/**
  The turn state machine (src/game/state.rs).  A `GameState` owns the world,
  the player, the turn counter, the visible cells and the message log, and
  every operation updates them in place.

  The generator seeded with `seed + turn` is the oracle `dice`: the player's
  hit and critical rolls are read at that key, and the k-th enemy attack of
  one enemy sweep reads `enemyHit(key, k)`.  So the same seed and turn always
  give the same outcome.
*/
module State {
  import opened Wrappers
  import opened RustInt
  import opened Text
  import opened Tiles
  import opened EntityTypes
  import opened Enemies
  import opened ItemTypes
  import opened Items
  import opened Players
  import opened Effects
  import opened GitTypes
  import opened RoomTypes
  import opened Rooms
  import opened Worlds
  import opened Combat
  import opened Ai
  import Actions
  import Grouping
  import GitParser
  import Generator
  import Fov

  const MaxMessages := 100
  const FovRadius := 5

  datatype GameEvent =
    | PlayerMoved(x: int, y: int)
    | PlayerAttacked(damage: int, killed: bool)
    | PlayerDefending
    | PlayerUsedItem(name: string)
    | PlayerLevelUp(level: nat)
    | EnemyAttacked(damage: int, enemyType: string)
    | EnemyKilled(enemyType: string, xp: nat)
    | RoomEntered(roomId: nat)
    | RoomCleared(roomId: nat)
    | GameOver(victory: bool)
    | Message(text: string)

  /** Rolls of the generator seeded with a key; the enemy stream is also indexed by the draw. */
  datatype Dice = Dice(playerHit: nat -> bool, playerCrit: nat -> bool, enemyHit: (nat, nat) -> bool)

  /**
    `log`: the message goes last, and when that makes more than 100 entries
    the oldest one is dropped.  The result is always a suffix of the log
    with the message appended.
  */
  function Logged(ms: seq<string>, m: string): (r: seq<string>)
    ensures |ms| < MaxMessages ==> r == ms + [m]
    ensures |ms| >= MaxMessages ==> r == ms[1..] + [m]
  {
    var s := ms + [m];
    if |s| > MaxMessages then
      assert s[1..] == ms[1..] + [m];
      s[1..]
    else s
  }

  /** The log never grows past 100 entries through `log`, however many messages arrive. */
  lemma {:induction false} LogStaysBounded(ms: seq<string>, more: seq<string>)
    requires |ms| <= MaxMessages
    ensures |LogAll(ms, more)| <= MaxMessages
    ensures |ms| + |more| <= MaxMessages ==> LogAll(ms, more) == ms + more
    decreases |more|
  {
    if more != [] {
      LogStaysBounded(ms, more[..|more| - 1]);
      var prev := LogAll(ms, more[..|more| - 1]);
      if |ms| + |more| <= MaxMessages {
        assert prev == ms + more[..|more| - 1];
        assert ms + more[..|more| - 1] + [more[|more| - 1]] == ms + more;
      }
    }
  }

  /** Logging a list of messages one after the other. */
  function LogAll(ms: seq<string>, more: seq<string>): seq<string>
    decreases |more|
  {
    if more == [] then ms else Logged(LogAll(ms, more[..|more| - 1]), more[|more| - 1])
  }

  /** Experience for a kill, by the kind of enemy killed. */
  function KillXp(t: EnemyType): nat {
    match t
    case Bug => 10
    case Regression => 20
    case TechDebt => 30
    case MergeConflict => 50
  }

  /** The award for a kill equals the kind's base hp. */
  lemma KillXpIsBaseHp(t: EnemyType)
    ensures KillXp(t) == t.BaseHp()
    ensures KillXp(t) <= XpPerLevel / 2
  {
  }

  function LevelUpMessage(level: nat): string {
    "Level up! You are now level " + NatToString(level) + "."
  }

  /** The room-entry message; the date is shown as its day number. */
  function EnterMessage(r: Room): string {
    "You enter " + r.roomType.Name() + " (" + IntToString(r.sourceDate) + ")"
  }

  /**
    The blocking test handed to the shadow caster: a negative or off-grid
    cell blocks, and so does a blocking tile.
  */
  /** A cell and its four neighbours. */
  function Cross(c: Pos): set<Pos> {
    {c, (c.0, c.1 - 1), (c.0, c.1 + 1), (c.0 - 1, c.1), (c.0 + 1, c.1)}
  }

  function OpaqueIn(tiles: seq<seq<Tile>>): (int, int) -> bool {
    (x: int, y: int) => x < 0 || y < 0 || y >= |tiles| || x >= |tiles[y]| || tiles[y][x].IsBlocking()
  }

  /** Light passes exactly the on-grid cells whose tile does not block. */
  lemma OpaqueInCells(tiles: seq<seq<Tile>>, x: int, y: int)
    ensures !OpaqueIn(tiles)(x, y) <==> 0 <= y < |tiles| && 0 <= x < |tiles[y]| && !tiles[y][x].IsBlocking()
    ensures WalkableIn(tiles, x, y) ==> !OpaqueIn(tiles)(x, y)
  {
    if WalkableIn(tiles, x, y) {
      BlockingIsNotWalkable(tiles[y][x]);
    }
  }

  /** `is_walkable` read off a grid alone. */
  predicate WalkableIn(tiles: seq<seq<Tile>>, x: int, y: int) {
    0 <= y < |tiles| && 0 <= x < |tiles[y]| && tiles[y][x].IsWalkable()
  }

  lemma WalkableInRoom(room: Room, x: int, y: int)
    requires room.Valid()
    ensures WalkableIn(room.tiles, x, y) <==> room.IsWalkable(x, y)
  {
  }

  /**
    The enemy AI written into `process_enemies` itself: next to the player a
    Regression below half health regenerates, a MergeConflict at half health
    splits and anything else attacks; farther off a growing TechDebt grows,
    and everything else steps toward the player along x first, then y.
  */
  function EnemyChoice(e: Enemy, px: int, py: int): EnemyAction {
    if Abs(e.x - px) + Abs(e.y - py) == 1 then
      if e.enemyType == Regression && e.hp < TruncDiv(e.maxHp, 2) then Regenerate(2)
      else if e.enemyType == MergeConflict && e.hp <= TruncDiv(e.maxHp, 2) then Split
      else Attack
    else if e.enemyType == TechDebt && e.turnsAlive > 0 && e.damage < e.enemyType.BaseDamage() * 2 then Grow(1)
    else
      var dx := Signum(px - e.x);
      var dy := Signum(py - e.y);
      if dx != 0 then Move(dx, 0) else Move(0, dy)
  }

  /** An enemy attacks only from next to the player, and always does there unless a special applies. */
  lemma EnemyChoiceAttacks(e: Enemy, px: int, py: int)
    ensures EnemyChoice(e, px, py) == Attack ==> Manhattan((e.x, e.y), (px, py)) == 1
    ensures Manhattan((e.x, e.y), (px, py)) == 1 && e.enemyType in {Bug, TechDebt} ==> EnemyChoice(e, px, py) == Attack
  {
  }

  /**
    A step always brings the enemy one cell closer and never onto the
    player's cell, unless it already stood there.
  */
  lemma EnemyStepCloser(e: Enemy, px: int, py: int)
    requires EnemyChoice(e, px, py).Move?
    ensures var a := EnemyChoice(e, px, py);
      Abs(a.dx) + Abs(a.dy) <= 1 &&
      ((e.x, e.y) != (px, py) ==>
        Abs(a.dx) + Abs(a.dy) == 1 &&
        Manhattan((e.x + a.dx, e.y + a.dy), (px, py)) == Manhattan((e.x, e.y), (px, py)) - 1 &&
        (e.x + a.dx, e.y + a.dy) != (px, py))
  {
  }

  /**
    The two enemy AIs disagree: a TechDebt next to the player that may still
    grow attacks in the sweep, while `decide_action` would have it grow.
  */
  lemma EnemyChoiceDiffersFromDecideAction(e: Enemy, px: int, py: int)
    requires e.enemyType == TechDebt && e.turnsAlive > 0 && e.damage < 8
    requires Manhattan((e.x, e.y), (px, py)) == 1
    ensures EnemyChoice(e, px, py) == Attack
    ensures ShouldUseSpecial(e) == Some(Grow(1))
  {
  }

  /**
    One enemy's turn in the sweep: a step is taken only onto a walkable cell
    and does not count as a turn alive; every other action counts one.
  */
  function StepEnemy(e: Enemy, a: EnemyAction, tiles: seq<seq<Tile>>): Enemy {
    match a
    case Move(dx, dy) =>
      if WalkableIn(tiles, e.x + dx, e.y + dy) then e.(x := e.x + dx, y := e.y + dy) else e
    case Attack => e.(turnsAlive := e.turnsAlive + 1)
    case Regenerate(amount) => e.(hp := Min(e.hp + amount, e.maxHp), turnsAlive := e.turnsAlive + 1)
    case Grow(amount) => e.(damage := e.damage + amount, turnsAlive := e.turnsAlive + 1)
    case Split => e.(turnsAlive := e.turnsAlive + 1)
    case Wait => e.(turnsAlive := e.turnsAlive + 1)
  }

  function EnemyTurn(e: Enemy, px: int, py: int, tiles: seq<seq<Tile>>): Enemy {
    StepEnemy(e, EnemyChoice(e, px, py), tiles)
  }

  /**
    A turn keeps the enemy's kind, commit and maximum; it never leaves a
    walkable cell for an unwalkable one, and hp never rises above the maximum
    it was below.
  */
  lemma EnemyTurnKeeps(e: Enemy, px: int, py: int, tiles: seq<seq<Tile>>)
    ensures var r := EnemyTurn(e, px, py, tiles);
      r.enemyType == e.enemyType && r.maxHp == e.maxHp && r.sourceCommit == e.sourceCommit &&
      (WalkableIn(tiles, e.x, e.y) ==> WalkableIn(tiles, r.x, r.y)) &&
      (e.hp <= e.maxHp ==> r.hp <= r.maxHp) &&
      r.turnsAlive >= e.turnsAlive && r.damage >= e.damage
  {
  }

  /** The enemies after the first n of them have taken their turn. */
  function Swept(es: seq<Enemy>, n: nat, px: int, py: int, tiles: seq<seq<Tile>>): (r: seq<Enemy>)
    requires n <= |es|
    ensures |r| == |es|
    ensures forall j :: 0 <= j < |es| ==> r[j] == if j < n then EnemyTurn(es[j], px, py, tiles) else es[j]
  {
    seq(|es|, j requires 0 <= j < |es| => if j < n then EnemyTurn(es[j], px, py, tiles) else es[j])
  }

  /** One more turn in the sweep changes only the next enemy. */
  lemma SweptNext(es: seq<Enemy>, n: nat, px: int, py: int, tiles: seq<seq<Tile>>)
    requires n < |es|
    ensures Swept(es, n, px, py, tiles)[n] == es[n]
    ensures Swept(es, n + 1, px, py, tiles) == Swept(es, n, px, py, tiles)[n := EnemyTurn(es[n], px, py, tiles)]
  {
  }

  /** `generate_dungeon`, seen through what the game loop relies on: fresh, consistent rooms, starting in the first. */
  method NewDungeon(gitData: seq<CommitData>) returns (w: World)
    ensures fresh(w) && w.currentRoom == 0
    ensures |w.rooms| == |Grouping.GroupAll(gitData, GitParser.CommitDay)|
    ensures forall i :: 0 <= i < |w.rooms| ==> w.rooms[i].Valid()
  {
    w := Generator.GenerateDungeon(gitData);
    forall i | 0 <= i < |w.rooms|
      ensures w.rooms[i].Valid()
    {
      assert Generator.Generated(w.rooms[i], i, |w.rooms|, Grouping.GroupAll(gitData, GitParser.CommitDay)[i].0);
    }
  }

  /** Removing an element does not depend on what it held. */
  lemma RemoveAtUpdate<T>(s: seq<T>, i: nat, v: T)
    requires i < |s|
    ensures RemoveAt(s[i := v], i) == RemoveAt(s, i)
  {
    assert s[i := v][..i] == s[..i];
    assert s[i := v][i + 1..] == s[i + 1..];
  }

  /**
    What an enemy's attack leaves alone: place, energy, pack, level, xp,
    maximum hp, focus, base damage and class.
  */
  function Standing(p: Player): (int, int, int, int, seq<Item>, nat, nat, int, int, int, int, PlayerClass)
    reads p
  {
    (p.x, p.y, p.energy, p.maxEnergy, p.inventory, p.level, p.xp, p.maxHp, p.focus, p.maxFocus, p.damage, p.playerClass)
  }

  /**
    One enemy attack on a player with `hp` and the given stance: the result,
    the hp afterwards and the stance afterwards.  A hit drops the stance; a
    miss keeps both.
  */
  function Struck(e: Enemy, hp: int, defending: bool, hit: bool): (CombatResult, int, bool) {
    if hit then (EnemyHit(e, hp, defending).0, EnemyHit(e, hp, defending).1, false)
    else (EnemyMiss(e), hp, defending)
  }

  /**
    What a sweep has done so far: its events, the attack messages it wrote,
    the player's hp and stance, the rolls used, and whether the player fell.
  */
  datatype SweepOutcome = SweepOutcome(events: seq<GameEvent>, said: seq<string>, hp: int, defending: bool,
                                       attacks: nat, defeated: bool)

  /**
    One enemy's part in the sweep, after outcome `o`: nothing once the player
    has fallen or when the enemy does not attack; otherwise it strikes with
    the next roll under `key`, and the sweep ends when the player falls.
  */
  function SweepTurn(o: SweepOutcome, e: Enemy, px: int, py: int, tiles: seq<seq<Tile>>, dice: Dice, key: nat): SweepOutcome {
    if o.defeated || EnemyChoice(e, px, py) != Attack then o
    else
      var (r, h, d) := Struck(EnemyTurn(e, px, py, tiles), o.hp, o.defending, dice.enemyHit(key, o.attacks));
      SweepOutcome(o.events + [EnemyAttacked(r.damage, e.enemyType.Name())] + (if r.killed then [GameOver(false)] else []),
                   o.said + [r.message], h, d, o.attacks + 1, r.killed)
  }

  /**
    The sweep over the first `n` enemies, the player at (px, py) with `hp`
    and stance `defending`: each enemy takes its `SweepTurn` in order.
  */
  function SweepRun(es: seq<Enemy>, n: nat, px: int, py: int, tiles: seq<seq<Tile>>, dice: Dice, key: nat,
                    hp: int, defending: bool): SweepOutcome
    requires n <= |es|
    decreases n
  {
    if n == 0 then SweepOutcome([], [], hp, defending, 0, false)
    else SweepTurn(SweepRun(es, n - 1, px, py, tiles, dice, key, hp, defending), es[n - 1], px, py, tiles, dice, key)
  }

  /**
    The shape of a sweep's outcome, for a player who started with `hp`: hp
    never above it, one attack event and one message per roll used, and a
    final `GameOver(false)` exactly when the player fell, which happens only
    at zero hp or below.
  */
  ghost predicate SweepShape(o: SweepOutcome, hp: int) {
    o.hp <= hp && |o.said| == o.attacks &&
    |o.events| == o.attacks + (if o.defeated then 1 else 0) &&
    (forall k :: 0 <= k < |o.events| - 1 ==> o.events[k].EnemyAttacked?) &&
    (forall k :: 0 <= k < |o.events| ==> o.events[k].EnemyAttacked? || o.events[k] == GameOver(false)) &&
    (o.events != [] ==> (o.events[|o.events| - 1].EnemyAttacked? <==> !o.defeated)) &&
    (o.defeated ==> o.hp <= 0 && o.events[|o.events| - 1] == GameOver(false))
  }

  /** One enemy's turn keeps the shape and uses at most one roll. */
  lemma SweepTurnKeepsShape(o: SweepOutcome, hp: int, e: Enemy, px: int, py: int, tiles: seq<seq<Tile>>, dice: Dice, key: nat)
    requires SweepShape(o, hp)
    ensures SweepShape(SweepTurn(o, e, px, py, tiles, dice, key), hp)
    ensures SweepTurn(o, e, px, py, tiles, dice, key).attacks <= o.attacks + 1
  {
    var o' := SweepTurn(o, e, px, py, tiles, dice, key);
    if !o.defeated && EnemyChoice(e, px, py) == Attack {
      assert o'.events[..|o.events|] == o.events;
      assert o'.events[|o.events|].EnemyAttacked?;
    }
  }

  /** A whole sweep has that shape, and uses at most one roll per enemy. */
  lemma {:induction false} SweepRunFacts(es: seq<Enemy>, n: nat, px: int, py: int, tiles: seq<seq<Tile>>, dice: Dice,
                                         key: nat, hp: int, defending: bool)
    requires n <= |es|
    ensures SweepShape(SweepRun(es, n, px, py, tiles, dice, key, hp, defending), hp)
    ensures SweepRun(es, n, px, py, tiles, dice, key, hp, defending).attacks <= n
  {
    if n > 0 {
      SweepRunFacts(es, n - 1, px, py, tiles, dice, key, hp, defending);
      SweepTurnKeepsShape(SweepRun(es, n - 1, px, py, tiles, dice, key, hp, defending), hp, es[n - 1], px, py, tiles, dice, key);
    }
  }

  /** Once the player has fallen, the later enemies change nothing. */
  lemma {:induction false} SweepRunStops(es: seq<Enemy>, m: nat, n: nat, px: int, py: int, tiles: seq<seq<Tile>>,
                                         dice: Dice, key: nat, hp: int, defending: bool)
    requires m <= n <= |es|
    requires SweepRun(es, m, px, py, tiles, dice, key, hp, defending).defeated
    ensures SweepRun(es, n, px, py, tiles, dice, key, hp, defending) == SweepRun(es, m, px, py, tiles, dice, key, hp, defending)
    decreases n - m
  {
    if m < n {
      SweepRunStops(es, m, n - 1, px, py, tiles, dice, key, hp, defending);
    }
  }

  /** When every roll misses, the player ends the sweep as they began it, and alive. */
  lemma {:induction false} SweepRunAllMiss(es: seq<Enemy>, n: nat, px: int, py: int, tiles: seq<seq<Tile>>, dice: Dice,
                                           key: nat, hp: int, defending: bool)
    requires n <= |es|
    requires forall k :: !dice.enemyHit(key, k)
    ensures var o := SweepRun(es, n, px, py, tiles, dice, key, hp, defending);
      o.hp == hp && o.defending == defending && !o.defeated
  {
    if n > 0 {
      SweepRunAllMiss(es, n - 1, px, py, tiles, dice, key, hp, defending);
    }
  }

  /** What a blow of the player leaves alone in a room: its grid, items and commits. */
  function Scenery(r: Room): (seq<seq<Tile>>, seq<Item>, seq<CommitData>)
    reads r
  {
    (r.tiles, r.items, r.sourceCommits)
  }

  /** What the enemy sweep leaves alone in a room: its grid, size, items and cleared flag. */
  function Fixed(r: Room): (seq<seq<Tile>>, nat, nat, seq<Item>, bool)
    reads r
  {
    (r.tiles, r.width, r.height, r.items, r.cleared)
  }

  /**
    What one blow of the player leaves behind: the room's enemies and
    cleared flag, the player's growth, the events and the log.
  */
  datatype Blow = Blow(enemies: seq<Enemy>, growth: Growth, cleared: bool, events: seq<GameEvent>, messages: seq<string>)

  /**
    The blow of a player with base damage `damage` and progress `g` at the
    enemy at `idx` of a room holding `enemies`, with the log `ms` before it:
    the attack message is logged; an enemy that survives keeps its place
    with its hp lowered; a kill removes it, awards its xp (logging a
    level-up), and a room left empty is cleared.
  */
  function BlowOf(damage: int, g: Growth, enemies: seq<Enemy>, idx: nat, cleared: bool, roomId: nat, hit: bool, crit: bool,
                  ms: seq<string>): Blow
    requires idx < |enemies|
  {
    var (res, e) := PlayerAttack(damage, g.level, enemies[idx], hit, crit);
    var logged := Logged(ms, res.message);
    var attacked := [PlayerAttacked(res.damage, res.killed)];
    if !res.killed then Blow(enemies[idx := e], g, cleared, attacked, logged)
    else
      var k := Slain(g, enemies[idx := e], idx, cleared, roomId, logged);
      k.(events := attacked + k.events)
  }

  /**
    The kill of the enemy at `idx`, for a player whose progress is `g` and a
    log `ms`: the enemy leaves the room, its kind's xp is awarded (logging a
    level-up), and a room left empty is cleared and says so.
  */
  function Slain(g: Growth, enemies: seq<Enemy>, idx: nat, cleared: bool, roomId: nat, ms: seq<string>): Blow
    requires idx < |enemies|
  {
    var t := enemies[idx].enemyType;
    var (g', up) := GainXp(g, KillXp(t));
    var left := RemoveAt(enemies, idx);
    var logged := if up then Logged(ms, LevelUpMessage(g'.level)) else ms;
    Blow(left, g', cleared || left == [],
         (if up then [PlayerLevelUp(g'.level)] else []) + [EnemyKilled(t.Name(), KillXp(t))] +
           (if left == [] then [RoomCleared(roomId)] else []),
         if left == [] then Logged(logged, "Room cleared!") else logged)
  }

  /**
    A miss changes nothing but the log; a hit that does not kill changes
    only the struck enemy's hp; a kill removes exactly that enemy.  Either
    way the first event reports the blow, and the room is reported cleared
    exactly when its last enemy fell.
  */
  lemma BlowFacts(damage: int, g: Growth, enemies: seq<Enemy>, idx: nat, cleared: bool, roomId: nat, hit: bool, crit: bool,
                  ms: seq<string>)
    requires idx < |enemies|
    ensures var b := BlowOf(damage, g, enemies, idx, cleared, roomId, hit, crit, ms);
      (!hit ==> b == Blow(enemies, g, cleared, [PlayerAttacked(0, false)], Logged(ms, "You missed!"))) &&
      (|b.enemies| == |enemies| <==> !b.events[0].killed) &&
      (!b.events[0].killed ==>
        b.growth == g && b.cleared == cleared && (forall j :: 0 <= j < |enemies| && j != idx ==> b.enemies[j] == enemies[j])) &&
      (b.events[0].killed ==> b.enemies == RemoveAt(enemies, idx) && b.growth == GainXp(g, KillXp(enemies[idx].enemyType)).0) &&
      (RoomCleared(roomId) in b.events <==> b.events[0].killed && |enemies| == 1)
  {
    var b := BlowOf(damage, g, enemies, idx, cleared, roomId, hit, crit, ms);
    if b.events[0].killed {
      RemoveAtUpdate(enemies, idx, PlayerAttack(damage, g.level, enemies[idx], hit, crit).1);
      var t := enemies[idx].enemyType;
      var up := GainXp(g, KillXp(t)).1;
      assert b.events[0] == PlayerAttacked(b.events[0].damage, true);
      assert b.events[|b.events| - 1] == RoomCleared(roomId) <==> |enemies| == 1;
      assert forall k :: 0 <= k < |b.events| - 1 ==> !b.events[k].RoomCleared?;
    }
  }

  /** The player's cell, the room index, the end flags and the log. */
  datatype Place = Place(x: int, y: int, room: nat, over: bool, won: bool, log: seq<string>)

  /**
    What a step onto (nx, ny) depends on: whether the cell is the exit,
    whether the player `leaves` through it (the exit of a cleared room),
    whether the room is the `last`, and the next room's entrance row and
    greeting.
  */
  datatype StepPlan = StepPlan(nx: int, ny: int, exit: bool, leaves: bool, last: bool, entry: int, greeting: string)

  /**
    The place and the events after a step planned by `plan` from `before`:
    staying puts the player on the cell, logging the refusal at the exit of
    an uncleared room; leaving adds `RoomEntered` and either wins the game in
    place or enters the next room at its entrance (1, entry).
  */
  function StepOutcome(plan: StepPlan, before: Place): (Place, seq<GameEvent>) {
    var after :=
      if !plan.leaves then
        Place(plan.nx, plan.ny, before.room, before.over, before.won,
              if plan.exit then Logged(before.log, "You must defeat all enemies before leaving!") else before.log)
      else if plan.last then
        Place(plan.nx, plan.ny, before.room, true, true, Logged(before.log, "Victory! You have conquered the dungeon!"))
      else
        Place(1, plan.entry, before.room + 1, before.over, before.won, Logged(before.log, plan.greeting));
    (after, [PlayerMoved(plan.nx, plan.ny)] + (if plan.leaves then [RoomEntered(after.room)] else []))
  }

  /**
    A step always reports the move first; it reports a second event, the
    room entered, exactly when the player leaves, and only then does the
    room, or the end of the game, change.
  */
  lemma StepOutcomeFacts(plan: StepPlan, before: Place)
    ensures var (after, events) := StepOutcome(plan, before);
      events[0] == PlayerMoved(plan.nx, plan.ny) && (|events| == 2 <==> plan.leaves) && 1 <= |events| <= 2 &&
      (plan.leaves ==> events[1] == RoomEntered(after.room)) &&
      (!plan.leaves || plan.last <==> after.room == before.room) &&
      (!plan.leaves || plan.last ==> (after.x, after.y) == (plan.nx, plan.ny)) &&
      (after.over != before.over || after.won != before.won ==> plan.leaves && plan.last) &&
      (plan.leaves && plan.last ==> after.over && after.won)
  {
  }

  /**
    A whole move from `before`: `can` says whether the step is possible and
    `blocked` whether an enemy stands on the target.  A refused move
    produces no events and changes only the log, which says so when an
    enemy blocks; an accepted one ends as `StepOutcome` plans.
  */
  function MoveOutcome(can: bool, blocked: bool, plan: StepPlan, before: Place): (Place, seq<GameEvent>)
  {
    if can then StepOutcome(plan, before)
    else (before.(log := if blocked then Logged(before.log, "An enemy blocks the way!") else before.log), [])
  }

  /**
    A move produces events exactly when the step is possible; a refused one
    leaves the player's cell, the room and the end flags as they were.
  */
  lemma MoveOutcomeFacts(can: bool, blocked: bool, plan: StepPlan, before: Place)
    ensures var (after, events) := MoveOutcome(can, blocked, plan, before);
      (events != [] <==> can) &&
      (!can ==> (after.x, after.y, after.room, after.over, after.won) == (before.x, before.y, before.room, before.over, before.won))
  {
  }

  class GameState {
    const world: World
    const player: Player
    var turn: nat
    var visibleTiles: set<Pos>
    var messages: seq<string>
    var gameOver: bool
    var victory: bool
    const seed: nat
    const dice: Dice

    /** The player is consistent and every room's grid matches its size. */
    ghost predicate Valid()
      reads player, world, world.rooms
    {
      player.Valid() && RoomsValid()
    }

    /** Every room's grid matches its size. */
    ghost predicate RoomsValid()
      reads world, world.rooms
    {
      forall i :: 0 <= i < |world.rooms| ==> world.rooms[i].Valid()
    }

    /** The room the player is in, as a frame. */
    ghost function CurrentRooms(): set<Room>
      reads world
    {
      if world.currentRoom < |world.rooms| then {world.rooms[world.currentRoom]} else {}
    }

    /**
      `GameState::new`: the dungeon of the commits, a fresh Wanderer at
      (1, height / 2) of the first room, turn 0, and one greeting in the log.
    */
    constructor (gitData: seq<CommitData>, seed: nat, dice: Dice)
      ensures Valid()
      ensures fresh(world) && fresh(player)
      ensures |world.rooms| == |Grouping.GroupAll(gitData, GitParser.CommitDay)| && world.currentRoom == 0
      ensures player.playerClass == Wanderer && player.level == 1 && player.inventory == []
      ensures world.Current().Some? ==> player.x == 1 && player.y == world.rooms[0].height / 2
      ensures turn == 0 && !gameOver && !victory && this.seed == seed && this.dice == dice
      ensures messages == ["You enter the dungeon generated from your git history..."]
    {
      var w := NewDungeon(gitData);
      var p := new Player(Wanderer);
      world := w;
      player := p;
      turn := 0;
      visibleTiles := {};
      messages := [];
      gameOver := false;
      victory := false;
      this.seed := seed;
      this.dice := dice;
      new;
      if world.currentRoom < |world.rooms| {
        player.x := 1;
        player.y := world.rooms[world.currentRoom].height / 2;
      }
      UpdateFov();
      Log("You enter the dungeon generated from your git history...");
    }

    /** `log`, in place. */
    method Log(m: string)
      modifies this`messages
      ensures messages == Logged(old(messages), m)
    {
      messages := messages + [m];
      if |messages| > MaxMessages {
        messages := messages[1..];
      }
    }

    /**
      `update_fov`: without a current room nothing changes; otherwise the
      visible cells are recomputed at radius 5 around the player, walls and
      the grid's edge blocking light.
    */
    method UpdateFov()
      modifies this`visibleTiles
      ensures world.Current().None? ==> visibleTiles == old(visibleTiles)
      ensures world.Current().Some? ==> Sighted()
    {
      var cur := world.Current();
      if cur.None? {
        return;
      }
      var origin := (player.x, player.y);
      visibleTiles := Fov.CalculateFov(origin, FovRadius, OpaqueIn(cur.value.tiles));
      Fov.AxisNeighboursVisible(origin, FovRadius, visibleTiles);
    }

    /**
      The view is one `update_fov` computed where the player stands: the
      player's cell and its four neighbours are visible, and nothing beyond
      the radius is.
    */
    predicate Sighted()
      reads this`visibleTiles, player`x, player`y
    {
      Cross((player.x, player.y)) <= visibleTiles &&
      forall p :: p in visibleTiles ==> Fov.DistSq(p, (player.x, player.y)) <= FovRadius * FovRadius
    }

    /** Cell (x, y) of the current room is its exit. */
    predicate ExitAt(x: int, y: int)
      reads world, world.rooms
    {
      world.Current().Some? && world.Current().value.GetTile(x, y) == Some(Exit)
    }

    /** The player stands on the current room's exit. */
    predicate AtExit()
      reads world, world.rooms, player
    {
      ExitAt(player.x, player.y)
    }

    predicate CurrentCleared()
      reads world, world.rooms
    {
      world.Current().Some? && world.Current().value.IsCleared()
    }

    /** The player's cell, the room index, the end flags and the log. */
    function PlaceOf(): Place
      reads this`gameOver, this`victory, this`messages, world`currentRoom, player`x, player`y
    {
      Place(player.x, player.y, world.currentRoom, gameOver, victory, messages)
    }

    /**
      What a step onto (nx, ny) depends on, read before it; the next room's
      entrance row and greeting are 0 and "" when there is no next room.
    */
    function PlanStep(nx: int, ny: int): StepPlan
      requires RoomsValid()
      reads world, world.rooms
    {
      StepPlan(nx, ny, ExitAt(nx, ny), ExitAt(nx, ny) && CurrentCleared(), world.IsLastRoom(),
               if world.IsLastRoom() then 0 else world.rooms[world.currentRoom + 1].height / 2,
               if world.IsLastRoom() then "" else EnterMessage(world.rooms[world.currentRoom + 1]))
    }

    /**
      The blow an attack toward `dir` deals now, with the rolls of
      `seed + turn`, when an enemy stands there.
    */
    function BlowToward(dir: Direction): (r: Option<Blow>)
      reads world, world.rooms, player`x, player`y, player`damage, player`level, player`xp, player`maxHp, player`hp
      reads this`messages, this`turn
      ensures r.Some? <==> TargetIndex(dir).Some?
    {
      var target := TargetIndex(dir);
      if target.None? then None
      else
        var room := world.Current().value;
        Some(BlowOf(player.damage, player.GrowthOf(), room.enemies, target.value, room.cleared, room.id,
                    dice.playerHit(seed + turn), dice.playerCrit(seed + turn), messages))
    }

    /** The room's enemies and cleared flag, the player's progress and the log, after a blow that produced `events`. */
    function Aftermath(room: Room, events: seq<GameEvent>): Blow
      reads room`enemies, room`cleared, player`level, player`xp, player`maxHp, player`hp, this`messages
    {
      Blow(room.enemies, Growth(player.level, player.xp, player.maxHp, player.hp), room.cleared, events, messages)
    }

    /**
      `check_room_exit`: only on the exit of a cleared room does anything
      happen.  In the last room the game is won; otherwise the next room is
      entered at (1, height / 2) with its view recomputed.
    */
    method CheckRoomExit() returns (entered: bool)
      requires Valid()
      modifies this`gameOver, this`victory, this`messages, this`visibleTiles, world`currentRoom, player`x, player`y
      ensures Valid()
      ensures entered <==> old(AtExit() && CurrentCleared())
      ensures !old(AtExit()) ==> messages == old(messages) && visibleTiles == old(visibleTiles)
      ensures old(AtExit()) && !old(CurrentCleared()) ==>
        messages == Logged(old(messages), "You must defeat all enemies before leaving!") && visibleTiles == old(visibleTiles)
      ensures !entered || old(world.IsLastRoom()) ==>
        world.currentRoom == old(world.currentRoom) && player.x == old(player.x) && player.y == old(player.y) &&
        visibleTiles == old(visibleTiles)
      ensures !entered ==> gameOver == old(gameOver) && victory == old(victory)
      ensures entered && old(world.IsLastRoom()) ==>
        gameOver && victory && messages == Logged(old(messages), "Victory! You have conquered the dungeon!")
      ensures entered && !old(world.IsLastRoom()) ==>
        world.currentRoom == old(world.currentRoom) + 1 && gameOver == old(gameOver) && victory == old(victory) &&
        player.x == 1 && player.y == world.rooms[world.currentRoom].height / 2 && Sighted() &&
        messages == Logged(old(messages), EnterMessage(world.rooms[world.currentRoom]))
    {
      if !AtExit() {
        return false;
      }
      if !CurrentCleared() {
        Log("You must defeat all enemies before leaving!");
        return false;
      }
      if world.IsLastRoom() {
        gameOver := true;
        victory := true;
        Log("Victory! You have conquered the dungeon!");
        return true;
      }
      var moved := world.NextRoom();
      var room := world.Current().value;
      player.x := 1;
      player.y := room.height / 2;
      UpdateFov();
      Log(EnterMessage(room));
      return true;
    }

    /** An enemy stands on (x, y) of the current room. */
    predicate EnemyAt(x: int, y: int)
      reads world, world.rooms
    {
      world.Current().Some? && world.Current().value.GetEnemyAt(x, y).Some?
    }

    /** The move target is walkable and free of enemies (`can_move`). */
    predicate CanStep(x: int, y: int)
      requires RoomsValid()
      reads world, world.rooms
    {
      world.Current().Some? && world.Current().value.IsWalkable(x, y) && world.Current().value.GetEnemyAt(x, y).None?
    }

    /** Index of the first enemy on the cell next to the player in that direction. */
    function TargetIndex(dir: Direction): (r: Option<nat>)
      reads world, world.rooms, player`x, player`y
      ensures r.Some? ==> world.Current().Some? && r.value < |world.Current().value.enemies|
    {
      if world.Current().None? then None
      else IndexAt(world.Current().value.enemies, EnemyPos, (player.x + dir.Delta().0, player.y + dir.Delta().1))
    }

    /** The action's cost can be paid: it is free or the player has enough energy. */
    predicate Affordable(action: Actions.PlayerAction)
      reads player`energy
    {
      action.EnergyCost() == 0 || player.energy >= action.EnergyCost()
    }

    /**
      The Move branch: a cell held by an enemy or not walkable keeps the
      player in place, reporting an enemy in the way; otherwise the player
      steps, the view is recomputed and the exit is checked.  The energy is
      not touched here (see `MoveTurn`).
    */
    method MoveBy(dx: int, dy: int) returns (events: seq<GameEvent>)
      requires Valid()
      modifies this`gameOver, this`victory, this`messages, this`visibleTiles, world`currentRoom, player`x, player`y
      ensures Valid()
      ensures (PlaceOf(), events) ==
        MoveOutcome(old(CanStep(player.x + dx, player.y + dy)), old(EnemyAt(player.x + dx, player.y + dy)),
                    old(PlanStep(player.x + dx, player.y + dy)), old(PlaceOf()))
      ensures if old(CanStep(player.x + dx, player.y + dy)) then Sighted() else visibleTiles == old(visibleTiles)
      ensures player.SheetOf() == old(player.SheetOf()).(x := player.x, y := player.y)
    {
      ghost var before := player.SheetOf();
      var nx, ny := player.x + dx, player.y + dy;
      if !CanStep(nx, ny) {
        Refuse(nx, ny);
        return [];
      }
      events := StepTo(nx, ny);
      player.Matches(before.(x := player.x, y := player.y));
    }

    /** A refused move: an enemy in the way is reported; nothing else changes. */
    method Refuse(nx: int, ny: int)
      requires Valid() && !CanStep(nx, ny)
      modifies this`messages
      ensures Valid()
      ensures messages == if old(EnemyAt(nx, ny)) then Logged(old(messages), "An enemy blocks the way!") else old(messages)
    {
      if EnemyAt(nx, ny) {
        Log("An enemy blocks the way!");
      }
    }

    /**
      A step onto a free walkable cell: the player moves there, the view is
      recomputed, and the exit is checked.  Leaving the room, by victory or
      into the next one, adds `RoomEntered`.
    */
    method StepTo(nx: int, ny: int) returns (events: seq<GameEvent>)
      requires Valid() && CanStep(nx, ny)
      modifies this`gameOver, this`victory, this`messages, this`visibleTiles, world`currentRoom, player`x, player`y
      ensures Valid()
      ensures (PlaceOf(), events) == StepOutcome(old(PlanStep(nx, ny)), old(PlaceOf()))
      ensures Sighted()
    {
      ghost var plan, before, cleared := PlanStep(nx, ny), PlaceOf(), CurrentCleared();
      player.x, player.y := nx, ny;
      events := [PlayerMoved(nx, ny)];
      UpdateFov();
      assert AtExit() == plan.exit && CurrentCleared() == cleared && world.IsLastRoom() == plan.last;
      var entered := CheckRoomExit();
      if entered {
        events := events + [RoomEntered(world.currentRoom)];
      }
      ghost var out := StepOutcome(plan, before);
      assert events == out.1;
      assert player.x == out.0.x;
      assert player.y == out.0.y;
      assert world.currentRoom == out.0.room;
      assert gameOver == out.0.over;
      assert victory == out.0.won;
      assert messages == out.0.log;
      assert (PlaceOf(), events) == StepOutcome(plan, before);
    }

    /**
      A kill: the enemy at `idx` leaves the room, its kind's xp is awarded
      (possibly a level), and the room is marked cleared when it was the last.
    */
    method Slay(room: Room, idx: nat) returns (events: seq<GameEvent>)
      requires Valid() && world.Current() == Some(room) && idx < |room.enemies|
      modifies this`messages, player`xp, player`level, player`maxHp, player`hp, room`enemies, room`cleared
      ensures Valid()
      ensures Aftermath(room, events) == Slain(old(player.GrowthOf()), old(room.enemies), idx, old(room.cleared), room.id, old(messages))
      ensures player.SheetOf() == old(player.SheetOf()).(hp := player.hp, maxHp := player.maxHp, level := player.level, xp := player.xp)
    {
      ghost var k := Slain(player.GrowthOf(), room.enemies, idx, room.cleared, room.id, messages);
      var t := room.enemies[idx].enemyType;
      room.enemies := RemoveAt(room.enemies, idx);
      var up := player.AddXp(KillXp(t));
      events := [];
      if up {
        events := [PlayerLevelUp(player.level)];
        Log(LevelUpMessage(player.level));
      }
      events := events + [EnemyKilled(t.Name(), KillXp(t))];
      if room.enemies == [] {
        room.cleared := true;
        events := events + [RoomCleared(room.id)];
        Log("Room cleared!");
      }
      assert Aftermath(room, events) == k;
    }

    /**
      The player strikes the enemy at `idx` of the current room with the
      given rolls: the enemy takes the hit in place, and a kill is handled by
      `Slay`.
    */
    method AttackEnemy(room: Room, idx: nat, hit: bool, crit: bool) returns (events: seq<GameEvent>)
      requires Valid() && world.Current() == Some(room) && idx < |room.enemies|
      modifies this`messages, player`xp, player`level, player`maxHp, player`hp, room`enemies, room`cleared
      ensures Valid()
      ensures Aftermath(room, events) == old(BlowOf(player.damage, player.GrowthOf(), room.enemies, idx, room.cleared, room.id, hit, crit, messages))
      ensures player.SheetOf() == old(player.SheetOf()).(hp := player.hp, maxHp := player.maxHp, level := player.level, xp := player.xp)
    {
      ghost var g, cleared := player.GrowthOf(), room.cleared;
      ghost var b := BlowOf(player.damage, g, room.enemies, idx, cleared, room.id, hit, crit, messages);
      var (res, e) := PlayerAttack(player.damage, player.level, room.enemies[idx], hit, crit);
      room.enemies := room.enemies[idx := e];
      Log(res.message);
      events := [PlayerAttacked(res.damage, res.killed)];
      if res.killed {
        ghost var k := Slain(g, room.enemies, idx, cleared, room.id, messages);
        assert b == k.(events := events + k.events);
        var more := Slay(room, idx);
        events := events + more;
      } else {
        assert b == Blow(room.enemies, g, cleared, events, messages);
      }
    }

    /**
      The Attack branch with an enemy on the target cell: the rolls of
      `seed + turn` decide the strike, which changes only the player's
      progress.  The energy is not touched here (see `AttackTurn`).
    */
    method AttackToward(dir: Direction) returns (events: seq<GameEvent>)
      requires Valid() && TargetIndex(dir).Some?
      modifies this`messages, player`xp, player`level, player`maxHp, player`hp, CurrentRooms()`enemies, CurrentRooms()`cleared
      ensures Valid()
      ensures Fought(old(BlowToward(dir)), old(world.currentRoom), events)
      ensures Scenery(world.Current().value) == old(Scenery(world.Current().value))
      ensures player.SheetOf() == old(player.SheetOf()).(hp := player.hp, maxHp := player.maxHp, level := player.level, xp := player.xp)
    {
      var target := TargetIndex(dir);
      var room := world.Current().value;
      events := AttackEnemy(room, target.value, dice.playerHit(seed + turn), dice.playerCrit(seed + turn));
    }

    /** The UseItem branch for an index inside the pack: the item is taken out and its effect applied. */
    method UseItemAt(index: nat) returns (events: seq<GameEvent>)
      requires Valid() && index < |player.inventory|
      modifies this`messages, player`inventory, player`hp, player`energy
      ensures Valid()
      ensures var it := old(player.inventory[index]);
        player.inventory == RemoveAt(old(player.inventory), index) &&
        events == [PlayerUsedItem(it.name)] &&
        messages == Logged(old(messages), EffectMessage(it.effect)) &&
        player.hp == (if it.effect.Heal? then Min(old(player.hp) + it.effect.amount, player.maxHp) else old(player.hp)) &&
        player.energy == (if it.effect.RestoreEnergy? then Min(old(player.energy) + it.effect.amount, player.maxEnergy) else old(player.energy))
    {
      var item := player.inventory[index];
      player.inventory := RemoveAt(player.inventory, index);
      var msg := ApplyEffect(item.effect, player);
      Log(msg);
      events := [PlayerUsedItem(item.name)];
    }

    /**
      How an attack ends, from what held before it: `blow` is what
      `BlowToward` computed (none without a target) and `room` the room
      index.  Without a target there are no events; otherwise the player
      stays in the room, and the room, the player's progress and the log are
      as the blow says.
    */
    predicate Fought(blow: Option<Blow>, room: nat, events: seq<GameEvent>)
      reads world, world.rooms, player`level, player`xp, player`maxHp, player`hp, this`messages
    {
      if blow.None? then events == []
      else
        world.currentRoom == room && world.Current().Some? &&
        Aftermath(world.Current().value, events) == blow.value
    }

    /**
      How using the item in slot `index` ends, from the player `before` it was
      paid for and the log `log`: an empty slot costs nothing, changes
      nothing and produces no events; otherwise it costs `UseItemCost`, the
      item leaves the pack, its effect heals or restores energy up to the
      maximum, and its message is logged.  Nothing else about the player
      changes.
    */
    predicate Used(index: nat, before: Sheet, log: seq<string>, events: seq<GameEvent>)
      reads player, this`messages
    {
      if index >= |before.inventory| then events == [] && player.SheetOf() == before && messages == log
      else
        var it := before.inventory[index];
        var spent := before.energy - Actions.UseItemCost;
        events == [PlayerUsedItem(it.name)] && messages == Logged(log, EffectMessage(it.effect)) &&
        player.SheetOf() ==
          before.(inventory := RemoveAt(before.inventory, index),
                  hp := if it.effect.Heal? then Min(before.hp + it.effect.amount, before.maxHp) else before.hp,
                  energy := if it.effect.RestoreEnergy? then Min(spent + it.effect.amount, before.maxEnergy) else spent)
    }

    /** The game-level fields a turn other than a move leaves alone: the end flags, the view and the room. */
    twostate predicate Kept()
      reads this, world
    {
      gameOver == old(gameOver) && victory == old(victory) && visibleTiles == old(visibleTiles) &&
      world.currentRoom == old(world.currentRoom)
    }

    /**
      What one turn of an action the player could pay for does: the turn
      counter advances and the action's arm does its work, stated against
      the whole player before it.
      - A move changes only the player's cell and energy, and the place and
        log as `MoveOutcome` says; a step leaves the view `Sighted` where the
        player ends, a refusal keeps it; no room changes.
      - An attack with a target changes only the player's progress (hp,
        maximum hp, level, xp) and energy, and the room's enemies and cleared
        flag and the log as `Fought` says; the room keeps its `Scenery`.
        Without a target it only logs "Nothing to attack there.".
      - Using an item is `Used`; defending spends its cost and takes the
        stance; waiting regenerates energy.  None of these touches a room.
    */
    twostate predicate Turned(action: Actions.PlayerAction, events: seq<GameEvent>)
      requires old(RoomsValid()) && world.rooms == old(world.rooms)
      reads this, player, world, world.rooms
    {
      turn == old(turn) + 1 &&
      match action
      case Move(dx, dy) =>
        var can := old(CanStep(player.x + dx, player.y + dy));
        player.SheetOf() ==
          old(player.SheetOf()).(x := player.x, y := player.y, energy := old(player.energy) - (if can then Actions.MoveCost else 0)) &&
        (PlaceOf(), events) ==
          MoveOutcome(can, old(EnemyAt(player.x + dx, player.y + dy)), old(PlanStep(player.x + dx, player.y + dy)), old(PlaceOf())) &&
        (if can then Sighted() else visibleTiles == old(visibleTiles)) &&
        unchanged(world.rooms)
      case Attack(dir) =>
        Kept() &&
        if old(TargetIndex(dir)).Some? then
          player.SheetOf() ==
            old(player.SheetOf()).(hp := player.hp, maxHp := player.maxHp, level := player.level, xp := player.xp,
                                   energy := old(player.energy) - Actions.AttackCost) &&
          Fought(old(BlowToward(dir)), old(world.currentRoom), events) &&
          var here := world.Current().value;
          Scenery(here) == old(Scenery(here))
        else
          player.SheetOf() == old(player.SheetOf()) && events == [] &&
          messages == Logged(old(messages), "Nothing to attack there.") && unchanged(world.rooms)
      case UseItem(index) =>
        Kept() && unchanged(world.rooms) && Used(index, old(player.SheetOf()), old(messages), events)
      case Defend =>
        Kept() && unchanged(world.rooms) &&
        player.SheetOf() == old(player.SheetOf()).(energy := old(player.energy) - Actions.DefendCost, defending := true) &&
        events == [PlayerDefending] && messages == Logged(old(messages), "You take a defensive stance.")
      case Wait =>
        Kept() && unchanged(world.rooms) &&
        player.SheetOf() == old(player.SheetOf()).(energy := Min(old(player.energy) + Actions.WaitRegen, old(player.maxEnergy))) &&
        events == [] && messages == Logged(old(messages), "You wait and recover energy.")
    }

    /** The spending half of `use_energy`, for an action already known to be affordable. */
    method Pay(action: Actions.PlayerAction)
      requires player.Valid() && Affordable(action)
      modifies player`energy
      ensures player.Valid() && player.energy == old(player.energy) - action.EnergyCost()
      ensures player.SheetOf() == old(player.SheetOf()).(energy := player.energy)
    {
      var cost := action.EnergyCost();
      if cost > 0 {
        var paid := player.UseEnergy(cost);
      }
    }

    /**
      The Move arm of `process_action`.  The source spends the cost up front
      and gives it back when the move is refused; as the energy never exceeds
      its maximum, that refund restores exactly what was spent, and nothing
      in between reads the energy, so here the cost is spent only when the
      step goes ahead.
    */
    method MoveTurn(action: Actions.PlayerAction) returns (events: seq<GameEvent>)
      requires action.Move? && Valid() && Affordable(action)
      modifies this`turn, this`gameOver, this`victory, this`messages, this`visibleTiles, player`x, player`y, player`energy,
        world`currentRoom
      ensures Valid() && turn == old(turn) + 1
      ensures player.SheetOf() == old(player.SheetOf()).(x := player.x, y := player.y, energy := player.energy)
      ensures (PlaceOf(), events) ==
        MoveOutcome(old(CanStep(player.x + action.dx, player.y + action.dy)), old(EnemyAt(player.x + action.dx, player.y + action.dy)),
                    old(PlanStep(player.x + action.dx, player.y + action.dy)), old(PlaceOf()))
      ensures player.energy == old(player.energy) - (if old(CanStep(player.x + action.dx, player.y + action.dy)) then Actions.MoveCost else 0)
      ensures if old(CanStep(player.x + action.dx, player.y + action.dy)) then Sighted() else visibleTiles == old(visibleTiles)
    {
      var can := CanStep(player.x + action.dx, player.y + action.dy);
      events := MoveBy(action.dx, action.dy);
      if can {
        Pay(action);
      }
      turn := turn + 1;
    }

    /**
      The Attack arm of `process_action`.  As for a move, the cost the source
      refunds when nothing stands on the target cell is spent here only when
      there is a target.
    */
    method AttackTurn(action: Actions.PlayerAction) returns (events: seq<GameEvent>)
      requires action.Attack? && Valid() && Affordable(action)
      modifies this`turn, this`messages, player`xp, player`level, player`maxHp, player`hp, player`energy,
        CurrentRooms()`enemies, CurrentRooms()`cleared
      ensures Valid() && world.rooms == old(world.rooms) && Turned(action, events)
    {
      if TargetIndex(action.dir).None? {
        Log("Nothing to attack there.");
        events := [];
        turn := turn + 1;
      } else {
        events := AttackToward(action.dir);
        Pay(action);
        turn := turn + 1;
      }
    }

    /** The Defend arm of `process_action`: the cost is paid and the stance taken. */
    method DefendTurn() returns (events: seq<GameEvent>)
      requires Valid() && Affordable(Actions.Defend)
      modifies this`turn, this`messages, player`energy, player`defending
      ensures Valid() && world.rooms == old(world.rooms) && Turned(Actions.Defend, events)
    {
      ghost var before := player.SheetOf();
      Pay(Actions.Defend);
      player.defending := true;
      player.Matches(before.(energy := before.energy - Actions.DefendCost, defending := true));
      events := [PlayerDefending];
      Log("You take a defensive stance.");
      turn := turn + 1;
    }

    /**
      The UseItem arm of `process_action`: the cost is paid, then the item at
      `index` is used, or, for an empty slot, the cost is given back.
    */
    method UseItemTurn(index: nat) returns (events: seq<GameEvent>)
      requires Valid() && Affordable(Actions.UseItem(index))
      modifies this`turn, this`messages, player`energy, player`inventory, player`hp
      ensures Valid() && world.rooms == old(world.rooms) && Turned(Actions.UseItem(index), events)
    {
      ghost var before := player.SheetOf();
      Pay(Actions.UseItem(index));
      if index < |player.inventory| {
        events := UseItemAt(index);
        ghost var it := before.inventory[index];
        ghost var spent := before.energy - Actions.UseItemCost;
        player.Matches(before.(inventory := RemoveAt(before.inventory, index),
          hp := if it.effect.Heal? then Min(before.hp + it.effect.amount, before.maxHp) else before.hp,
          energy := if it.effect.RestoreEnergy? then Min(spent + it.effect.amount, before.maxEnergy) else spent));
      } else {
        player.RegenEnergy(Actions.UseItemCost);
        events := [];
        player.Matches(before);
      }
      turn := turn + 1;
    }

    /** The Wait arm of `process_action`: the player regenerates `WaitRegen` energy. */
    method WaitTurn() returns (events: seq<GameEvent>)
      requires Valid()
      modifies this`turn, this`messages, player`energy
      ensures Valid() && world.rooms == old(world.rooms) && Turned(Actions.Wait, events)
    {
      ghost var before := player.SheetOf();
      player.RegenEnergy(Actions.WaitRegen);
      player.Matches(before.(energy := Min(before.energy + Actions.WaitRegen, before.maxEnergy)));
      Log("You wait and recover energy.");
      events := [];
      turn := turn + 1;
    }

    /**
      `process_action`.  After the game is over nothing happens.  An action
      the player cannot pay for only logs "Not enough energy!" (the check
      `use_energy` makes; the spending is done by the arm).  Every other
      action takes exactly one turn, refused ones included, as `Turned` says.
    */
    method ProcessAction(action: Actions.PlayerAction) returns (events: seq<GameEvent>)
      requires Valid()
      modifies this, player, world`currentRoom, CurrentRooms()
      ensures Valid()
      ensures old(gameOver) ==> events == [] && unchanged(this, player, world) && unchanged(CurrentRooms())
      ensures !old(gameOver) && !old(Affordable(action)) ==>
        events == [] && turn == old(turn) && messages == Logged(old(messages), "Not enough energy!") &&
        gameOver == old(gameOver) && victory == old(victory) && visibleTiles == old(visibleTiles) &&
        unchanged(player, world) && unchanged(CurrentRooms())
      ensures !old(gameOver) && old(Affordable(action)) ==> world.rooms == old(world.rooms) && Turned(action, events)
    {
      events := [];
      if gameOver {
        return;
      }
      if !Affordable(action) {
        Log("Not enough energy!");
        return;
      }
      match action {
        case Move(_, _) => events := MoveTurn(action);
        case Attack(_) => events := AttackTurn(action);
        case Defend => events := DefendTurn();
        case UseItem(index) => events := UseItemTurn(index);
        case Wait => events := WaitTurn();
      }
    }

    /**
      One enemy attack of the sweep: its message goes straight onto the log,
      without the bound `log` keeps.  A miss leaves the player alone; a hit
      costs at least one hp.
    */
    method Strike(e: Enemy, hit: bool) returns (r: CombatResult)
      requires player.Valid()
      modifies this`messages, player`hp, player`defending
      ensures player.Valid() && messages == old(messages) + [r.message]
      ensures (r, player.hp, player.defending) == Struck(e, old(player.hp), old(player.defending), hit)
      ensures r.killed <==> hit && player.hp <= 0
      ensures Standing(player) == old(Standing(player))
    {
      r := EnemyAttack(e, player, hit);
      messages := messages + [r.message];
    }

    /**
      One enemy's move in the sweep: it takes `EnemyTurn`, and when its choice
      is an attack it strikes the player with the `attacks`-th roll of the turn.
    */
    method ActEnemy(room: Room, i: nat, px: int, py: int, key: nat, attacks: nat) returns (r: Option<CombatResult>)
      requires player.Valid() && room.Valid() && i < |room.enemies|
      modifies room`enemies, this`messages, player`hp, player`defending
      ensures room.enemies == old(room.enemies)[i := EnemyTurn(old(room.enemies[i]), px, py, room.tiles)]
      ensures r.Some? <==> EnemyChoice(old(room.enemies[i]), px, py) == Attack
      ensures r.None? ==> unchanged(this, player)
      ensures r.Some? ==> messages == old(messages) + [r.value.message]
      ensures r.Some? ==>
        (r.value, player.hp, player.defending) ==
        Struck(EnemyTurn(old(room.enemies[i]), px, py, room.tiles), old(player.hp), old(player.defending), dice.enemyHit(key, attacks))
      ensures r.Some? ==> (r.value.killed <==> dice.enemyHit(key, attacks) && player.hp <= 0)
      ensures player.Valid() && Standing(player) == old(Standing(player))
    {
      var e := room.enemies[i];
      var a := EnemyChoice(e, px, py);
      var next := StepEnemy(e, a, room.tiles);
      room.enemies := room.enemies[i := next];
      if a == Attack {
        var res := Strike(next, dice.enemyHit(key, attacks));
        r := Some(res);
      } else {
        r := None;
      }
    }

    /**
      `process_enemies`: each enemy of the current room in turn takes the
      sweep's own AI decision (`EnemyTurn`).  An attack's message goes
      straight onto the log, past its bound.  An attack that kills the player
      ends the game in defeat and no later enemy acts; `acted` counts the
      enemies that did.
    */
    method ProcessEnemies() returns (events: seq<GameEvent>, ghost acted: nat, ghost o: SweepOutcome)
      requires Valid()
      modifies this`gameOver, this`victory, this`messages, player`hp, player`defending, CurrentRooms()
      ensures Valid()
      ensures old(gameOver) || world.Current().None? ==>
        events == [] && unchanged(this, player) && unchanged(CurrentRooms())
      ensures !old(gameOver) && world.Current().Some? ==>
        var room := world.Current().value;
        var es := old(room.enemies);
        o == SweepRun(es, |es|, old(player.x), old(player.y), room.tiles, dice, seed + turn, old(player.hp), old(player.defending)) &&
        SweepShape(o, old(player.hp)) && acted <= |es| &&
        room.enemies == Swept(es, acted, old(player.x), old(player.y), room.tiles) &&
        Fixed(room) == old(Fixed(room)) && (acted < |es| ==> gameOver) &&
        events == o.events && player.hp == o.hp && player.defending == o.defending && gameOver == o.defeated &&
        messages == (if o.defeated then Logged(old(messages) + o.said, "You have been defeated!") else old(messages) + o.said) &&
        (gameOver ==> !victory) && (!gameOver ==> acted == |es| && victory == old(victory))
      ensures forall k :: 0 <= k < |events| ==> events[k].EnemyAttacked? || events[k] == GameOver(false)
      ensures player.hp <= old(player.hp) && Standing(player) == old(Standing(player))
    {
      events := [];
      acted := 0;
      o := SweepOutcome([], [], player.hp, player.defending, 0, false);
      if gameOver {
        return;
      }
      var cur := world.Current();
      if cur.None? {
        return;
      }
      var room := cur.value;
      ghost var es, hp0, def0 := room.enemies, player.hp, player.defending;
      events, acted, o := Sweep(room, player.x, player.y, seed + turn);
      assert world.Current() == cur;
      assert o == SweepRun(es, |es|, player.x, player.y, room.tiles, dice, seed + turn, hp0, def0);
    }

    /**
      The sweep of `process_enemies` over one room, the player standing at
      (px, py): every enemy takes `EnemyTurn` in order until an attack kills
      the player; the k-th attack of the sweep reads the k-th roll under `key`.
      Its outcome `o` is `SweepRun` over all the enemies.
    */
    method Sweep(room: Room, px: int, py: int, key: nat) returns (events: seq<GameEvent>, ghost acted: nat, ghost o: SweepOutcome)
      requires player.Valid() && room.Valid() && !gameOver
      modifies this`gameOver, this`victory, this`messages, player`hp, player`defending, room`enemies
      ensures room.Valid() && player.Valid()
      ensures acted <= |old(room.enemies)|
      ensures room.enemies == Swept(old(room.enemies), acted, px, py, room.tiles)
      ensures acted < |old(room.enemies)| ==> gameOver
      ensures o == SweepRun(old(room.enemies), |old(room.enemies)|, px, py, room.tiles, dice, key, old(player.hp), old(player.defending))
      ensures SweepShape(o, old(player.hp))
      ensures events == o.events && player.hp == o.hp && player.defending == o.defending && gameOver == o.defeated
      ensures messages == if o.defeated then Logged(old(messages) + o.said, "You have been defeated!") else old(messages) + o.said
      ensures gameOver ==>
        !victory && player.hp <= 0 && |events| > 0 && events[|events| - 1] == GameOver(false) &&
        |messages| > 0 && messages[|messages| - 1] == "You have been defeated!"
      ensures !gameOver ==> acted == |old(room.enemies)| && victory == old(victory) && |messages| == |old(messages)| + |events|
      ensures forall k :: 0 <= k < |events| ==> events[k].EnemyAttacked? || events[k] == GameOver(false)
      ensures player.hp <= old(player.hp) && Standing(player) == old(Standing(player))
    {
      ghost var es, hp0, def0 := room.enemies, player.hp, player.defending;
      events, acted, o := SweepTurns(room, px, py, key);
      if gameOver {
        SweepRunStops(es, acted, |es|, px, py, room.tiles, dice, key, hp0, def0);
      }
      SweepRunFacts(es, |es|, px, py, room.tiles, dice, key, hp0, def0);
    }

    /**
      The loop of `Sweep`, proved against `SweepRun` step by step: `o` is the
      outcome of the `acted` enemies that took their turn.
    */
    method SweepTurns(room: Room, px: int, py: int, key: nat) returns (events: seq<GameEvent>, ghost acted: nat, ghost o: SweepOutcome)
      requires player.Valid() && room.Valid() && !gameOver
      modifies this`gameOver, this`victory, this`messages, player`hp, player`defending, room`enemies
      ensures room.Valid() && player.Valid()
      ensures acted <= |old(room.enemies)|
      ensures room.enemies == Swept(old(room.enemies), acted, px, py, room.tiles)
      ensures o == SweepRun(old(room.enemies), acted, px, py, room.tiles, dice, key, old(player.hp), old(player.defending))
      ensures events == o.events && player.hp == o.hp && player.defending == o.defending && gameOver == o.defeated
      ensures messages == if o.defeated then Logged(old(messages) + o.said, "You have been defeated!") else old(messages) + o.said
      ensures gameOver ==> !victory
      ensures !gameOver ==> acted == |old(room.enemies)| && victory == old(victory)
      ensures Standing(player) == old(Standing(player))
    {
      events := [];
      var attacks: nat := 0;
      ghost var es := room.enemies;
      ghost var ms0 := messages;
      ghost var hp0, def0 := player.hp, player.defending;
      o := SweepOutcome([], [], hp0, def0, 0, false);
      var n := |room.enemies|;
      var i := 0;
      while i < n && !gameOver
        invariant i <= n
        invariant room.enemies == Swept(es, i, px, py, room.tiles)
        invariant room.Valid() && player.Valid()
        invariant o == SweepRun(es, i, px, py, room.tiles, dice, key, hp0, def0)
        invariant gameOver == o.defeated && (gameOver ==> !victory) && (!gameOver ==> victory == old(victory))
        invariant events == o.events && player.hp == o.hp && player.defending == o.defending && attacks == o.attacks
        invariant messages == if o.defeated then Logged(ms0 + o.said, "You have been defeated!") else ms0 + o.said
      {
        events, attacks := SweepStep(room, i, px, py, key, attacks, events, es, ms0, o);
        o := SweepTurn(o, es[i], px, py, room.tiles, dice, key);
        i := i + 1;
      }
      acted := i;
    }

    /**
      The turn of the enemy at `i` within the sweep: from outcome `o` to its
      `SweepTurn`.  A fatal attack ends the game in defeat and logs it.
    */
    method SweepStep(room: Room, i: nat, px: int, py: int, key: nat, attacks: nat, events: seq<GameEvent>,
                     ghost es: seq<Enemy>, ghost ms0: seq<string>, ghost o: SweepOutcome)
      returns (events': seq<GameEvent>, attacks': nat)
      requires player.Valid() && room.Valid() && !gameOver
      requires i < |es| && room.enemies == Swept(es, i, px, py, room.tiles)
      requires !o.defeated && events == o.events && messages == ms0 + o.said
      requires player.hp == o.hp && player.defending == o.defending && attacks == o.attacks
      modifies this`gameOver, this`victory, this`messages, player`hp, player`defending, room`enemies
      ensures room.enemies == Swept(es, i + 1, px, py, room.tiles)
      ensures room.Valid() && player.Valid()
      ensures var o' := SweepTurn(o, es[i], px, py, room.tiles, dice, key);
        events' == o'.events && player.hp == o'.hp && player.defending == o'.defending && attacks' == o'.attacks &&
        gameOver == o'.defeated &&
        messages == (if o'.defeated then Logged(ms0 + o'.said, "You have been defeated!") else ms0 + o'.said)
      ensures gameOver ==> !victory
      ensures !gameOver ==> victory == old(victory)
    {
      SweptNext(es, i, px, py, room.tiles);
      var e := room.enemies[i];
      var r := ActEnemy(room, i, px, py, key, attacks);
      ghost var o' := SweepTurn(o, es[i], px, py, room.tiles, dice, key);
      events', attacks' := events, attacks;
      if r.Some? {
        attacks' := attacks + 1;
        events' := events + [EnemyAttacked(r.value.damage, e.enemyType.Name())];
        assert messages == ms0 + o'.said;
        if r.value.killed {
          gameOver := true;
          victory := false;
          events' := events' + [GameOver(false)];
          Log("You have been defeated!");
        }
      }
    }
  }
}

=== FILE: text.dfy ===
/**
  String helpers standing in for the parts of Rust's `str` API the engine uses:
  `contains`, `starts_with`, `ends_with`, `replace`, `trim`, `split_once`,
  ASCII `to_lowercase`, and decimal formatting of integers.
  Strings are sequences of characters; lowercasing is ASCII only.
*/
module Text {
  import opened Wrappers

  predicate StartsWith(s: string, prefix: string) {
    |prefix| <= |s| && s[..|prefix|] == prefix
  }

  predicate EndsWith(s: string, suffix: string) {
    |suffix| <= |s| && s[|s| - |suffix|..] == suffix
  }

  /** `s.contains(p)`: some window of `s` equals `p`, computed by scanning left to right. */
  predicate Contains(s: string, p: string)
    decreases |s|
  {
    StartsWith(s, p) || (|s| > 0 && Contains(s[1..], p))
  }

  function LowerChar(c: char): (r: char)
    ensures 'A' <= c <= 'Z' ==> 'a' <= r <= 'z'
    ensures !('A' <= c <= 'Z') ==> r == c
  {
    if 'A' <= c <= 'Z' then (c as int + 32) as char else c
  }

  /** ASCII `to_lowercase`: same length, every upper-case letter mapped to lower case. */
  function ToLower(s: string): (r: string)
    ensures |r| == |s|
    ensures forall i :: 0 <= i < |s| ==> r[i] == LowerChar(s[i])
  {
    if s == [] then [] else [LowerChar(s[0])] + ToLower(s[1..])
  }

  /** `char::is_whitespace`: the Unicode `White_Space` property. */
  predicate IsSpace(c: char) {
    ('\t' <= c <= '\r') || c == ' ' || c == '\U{85}' || c == '\U{A0}' || c == '\U{1680}' ||
    ('\U{2000}' <= c <= '\U{200A}') || c == '\U{2028}' || c == '\U{2029}' || c == '\U{202F}' ||
    c == '\U{205F}' || c == '\U{3000}'
  }

  function TrimStart(s: string): (r: string)
    ensures |r| <= |s| && r == s[|s| - |r|..]
    ensures r == [] || !IsSpace(r[0])
    ensures forall k :: 0 <= k < |s| - |r| ==> IsSpace(s[k])
  {
    if s != [] && IsSpace(s[0]) then TrimStart(s[1..]) else s
  }

  function TrimEnd(s: string): (r: string)
    ensures |r| <= |s| && r == s[..|r|]
    ensures r == [] || !IsSpace(r[|r| - 1])
    ensures forall k :: |r| <= k < |s| ==> IsSpace(s[k])
  {
    if s != [] && IsSpace(s[|s| - 1]) then TrimEnd(s[..|s| - 1]) else s
  }

  /** `str::trim`: strips Unicode white space from both ends. */
  function Trim(s: string): (r: string)
    ensures r <= s[|s| - |TrimStart(s)|..] && TrimStart(s) == s[|s| - |TrimStart(s)|..]
    ensures r == [] || (!IsSpace(r[0]) && !IsSpace(r[|r| - 1]))
    ensures forall k :: 0 <= k < |s| ==> (k < |s| - |TrimStart(s)| || |s| - |TrimStart(s)| + |r| <= k) ==> IsSpace(s[k])
  {
    TrimEnd(TrimStart(s))
  }

  /** Index of the first occurrence of `c`, if any. */
  function IndexOf(s: string, c: char): (r: Option<nat>)
    ensures r.Some? ==> r.value < |s| && s[r.value] == c && c !in s[..r.value]
    ensures r.None? ==> c !in s
  {
    if s == [] then None
    else if s[0] == c then Some(0)
    else match IndexOf(s[1..], c)
      case None => None
      case Some(i) => Some(i + 1)
  }

  /** `str::split_once(c)`: the text before and after the first `c`. */
  function SplitOnce(s: string, c: char): (r: Option<(string, string)>)
    ensures r.None? <==> c !in s
    ensures r.Some? ==> s == r.value.0 + [c] + r.value.1 && c !in r.value.0
  {
    match IndexOf(s, c)
    case None => None
    case Some(i) =>
      assert s == s[..i] + [c] + s[i + 1..];
      Some((s[..i], s[i + 1..]))
  }

  /** Splitting at the first `c` finds exactly the parts around it. */
  lemma SplitOnceAt(x: string, c: char, y: string)
    requires c !in x
    ensures SplitOnce(x + [c] + y, c) == Some((x, y))
  {
    var s := x + [c] + y;
    assert s[|x|] == c;
    var r := SplitOnce(s, c);
    var a := r.value.0;
    assert a == s[..|a|] == x;
    assert r.value.1 == s[|x| + 1..] == y;
  }

  /** `str::replace(from, to)`: every non-overlapping occurrence, scanning left to right. */
  function Replace(s: string, from: string, to: string): string
    requires |from| > 0
    decreases |s|
  {
    if |s| < |from| then s
    else if StartsWith(s, from) then to + Replace(s[|from|..], from, to)
    else [s[0]] + Replace(s[1..], from, to)
  }

  /** Replacing a pattern that does not occur changes nothing. */
  lemma {:induction false} ReplaceAbsent(s: string, from: string, to: string)
    requires |from| > 0 && !Contains(s, from)
    ensures Replace(s, from, to) == s
    decreases |s|
  {
    if |s| >= |from| {
      ReplaceAbsent(s[1..], from, to);
      assert [s[0]] + s[1..] == s;
    }
  }

  /** A text no longer than the pattern contains it only by being it. */
  lemma {:induction false} ShortContains(s: string, p: string)
    requires |s| <= |p|
    ensures Contains(s, p) <==> s == p
    decreases |s|
  {
    if |s| > 0 {
      ShortContains(s[1..], p);
    }
  }

  /** A pattern found in the tail is found in the whole. */
  lemma {:induction false} ContainsSuffix(a: string, b: string, p: string)
    requires Contains(b, p)
    ensures Contains(a + b, p)
    decreases |a|
  {
    if |a| > 0 {
      ContainsSuffix(a[1..], b, p);
      assert (a + b)[1..] == a[1..] + b;
    } else {
      assert a + b == b;
    }
  }
  /** A pattern found in the head is found in the whole. */
  lemma {:induction false} ContainsPrefix(a: string, b: string, p: string)
    requires Contains(a, p)
    ensures Contains(a + b, p)
    decreases |a|
  {
    if StartsWith(a, p) {
      assert (a + b)[..|p|] == a[..|p|];
    } else {
      ContainsPrefix(a[1..], b, p);
      assert (a + b)[1..] == a[1..] + b;
    }
  }

  /** Lower-casing twice is lower-casing once. */
  lemma ToLowerIdempotent(s: string)
    ensures ToLower(ToLower(s)) == ToLower(s)
  {
  }

  /** Lower-casing works character by character, so it distributes over concatenation. */
  lemma ToLowerConcat(a: string, b: string)
    ensures ToLower(a + b) == ToLower(a) + ToLower(b)
  {
  }

  function DigitChar(d: nat): char
    requires d < 10
  {
    ('0' as int + d) as char
  }

  /** Decimal rendering of a natural number, as `format!("{}", n)` prints it. */
  function NatToString(n: nat): (r: string)
    ensures |r| > 0
    ensures forall i :: 0 <= i < |r| ==> '0' <= r[i] <= '9'
  {
    if n < 10 then [DigitChar(n)] else NatToString(n / 10) + [DigitChar(n % 10)]
  }

  /** Decimal rendering of an integer, with a leading '-' when negative. */
  function IntToString(n: int): string {
    if n < 0 then "-" + NatToString(-n) else NatToString(n)
  }
}

=== FILE: tile.dfy ===
/**
  Grid cells and compass directions (src/world/tile.rs).

  The generator writes a `HealingZone` tile into sanctuary interiors and the
  renderer draws one, but the tile enum in src/world/tile.rs has no such
  variant.  The model adds it and ASSUMES it behaves like floor: walkable,
  not blocking vision.  Its symbol '~' is likewise an assumption.
*/
module Tiles {

  datatype Direction = North | South | East | West {

    function Opposite(): Direction {
      match this
      case North => South
      case South => North
      case East => West
      case West => East
    }

    /** The (dx, dy) step of this direction; y grows downwards. */
    function Delta(): (int, int) {
      match this
      case North => (0, -1)
      case South => (0, 1)
      case East => (1, 0)
      case West => (-1, 0)
    }
  }

  datatype Tile = Floor | Wall | Door(dir: Direction) | Exit | Entrance | HealingZone {

    predicate IsWalkable() {
      Floor? || Door? || Exit? || Entrance? || HealingZone?
    }

    predicate IsBlocking() {
      Wall?
    }

    function Symbol(): char {
      match this
      case Floor => '.'
      case Wall => '#'
      case Door(_) => '+'
      case Exit => '>'
      case Entrance => '<'
      case HealingZone => '~'
    }
  }

  /** Which tiles can be walked on: every tile of the source enum except the wall. */
  lemma WalkableTiles(d: Direction)
    ensures Floor.IsWalkable() && Door(d).IsWalkable() && Exit.IsWalkable() && Entrance.IsWalkable()
    ensures !Wall.IsWalkable()
  {
  }

  /** Only the wall blocks vision. */
  lemma BlockingTiles(t: Tile)
    ensures t.IsBlocking() <==> t == Wall
  {
  }

  /** Blocking and walkable are complementary on every tile. */
  lemma BlockingIsNotWalkable(t: Tile)
    ensures t.IsBlocking() == !t.IsWalkable()
  {
  }

  /** The five symbols of the source's tiles, pairwise distinct. */
  lemma SymbolTable(d: Direction)
    ensures Floor.Symbol() == '.' && Wall.Symbol() == '#' && Door(d).Symbol() == '+'
    ensures Exit.Symbol() == '>' && Entrance.Symbol() == '<'
    ensures forall t: Tile, u: Tile :: t.Symbol() == u.Symbol() ==> t == u || (t.Door? && u.Door?)
  {
  }

  /** `opposite` is an involution without fixed points. */
  lemma OppositeInvolution(d: Direction)
    ensures d.Opposite().Opposite() == d
    ensures d.Opposite() != d
  {
  }

  /** `delta` is a unit cardinal step and the opposite direction steps back. */
  lemma DeltaIsUnitStep(d: Direction)
    ensures var (dx, dy) := d.Delta(); (dx == 0 || dy == 0) && dx * dx + dy * dy == 1
    ensures d.Opposite().Delta() == (-d.Delta().0, -d.Delta().1)
  {
  }
}

=== FILE: world.dfy ===
/**
  The world: the ordered rooms of a run and the index of the room the player
  is in (src/world/types.rs).  `current` and `current_mut` both yield the
  current room; in this model rooms are objects, so one function serves both.
*/
module Worlds {
  import opened Wrappers
  import opened Rooms

  class World {
    var rooms: seq<Room>
    var currentRoom: nat

    /** `World::new`: starts in the first room. */
    constructor (rooms: seq<Room>)
      ensures this.rooms == rooms && currentRoom == 0
    {
      this.rooms := rooms;
      this.currentRoom := 0;
    }

    /** `current`: the room at the current index, if there is one. */
    function Current(): (r: Option<Room>)
      reads this
      ensures r.Some? <==> currentRoom < |rooms|
      ensures r.Some? ==> r.value == rooms[currentRoom]
    {
      if currentRoom < |rooms| then Some(rooms[currentRoom]) else None
    }

    /** `is_last_room`: no room follows the current one. */
    predicate IsLastRoom()
      reads this
    {
      currentRoom + 1 >= |rooms|
    }

    /**
      `next_room`: advances exactly when the current room is not the last,
      and after a successful advance there is a current room.
    */
    method NextRoom() returns (moved: bool)
      modifies this`currentRoom
      ensures moved <==> !old(IsLastRoom())
      ensures currentRoom == if moved then old(currentRoom) + 1 else old(currentRoom)
      ensures moved ==> Current().Some?
    {
      if currentRoom + 1 < |rooms| {
        currentRoom := currentRoom + 1;
        moved := true;
      } else {
        moved := false;
      }
    }
  }

  /** Whether the next room exists depends only on the index and the number of rooms. */
  lemma LastRoomIff(w: World)
    ensures w.IsLastRoom() <==> w.currentRoom >= |w.rooms| - 1
    ensures !w.IsLastRoom() ==> w.Current().Some?
  {
  }
}

=== FILE: wrappers.dfy ===
/** Option and Result, the shapes Rust's `Option<T>` and `Result<T, E>` take in this model. */
module Wrappers {

  datatype Option<+T> = None | Some(value: T) {
    function GetOr(default: T): T {
      match this
      case Some(v) => v
      case None => default
    }
  }

  datatype Result<+T, +E> = Ok(value: T) | Err(error: E)
}
